=== FILE: README.md ===
# Casting pipeline: a Dafny model

This project models the decision logic of a casting-call aggregator. Two
mirrors read casting announcements: one watches Telegram chats and is
written in Python; the other watches WhatsApp groups and is written in
JavaScript. Each mirror asks a language model whether a message is a
casting call, checks it against a history of recent postings, has the
language model rewrite it into a fixed template, and posts the result to
one Telegram topic. A personal matcher then shows every posted casting to a
second classifier once per registered actor and delivers matches privately,
through a chain of fallbacks. A registration wizard collects the actors'
profiles.

Everything external is an input: the language model's replies, the
similarity scores, the history file, downloads, image sizes and whether a
Telegram or WhatsApp request went through. The Unicode character classes and
case mapping are a parameter (`Text.CharClasses`). Only the facts the proofs
need are fixed about them in `Text.WellFormed`: what ASCII letters and
digits are, that `#`, `@` and `|` are punctuation, and that the superscript
two passes `str.isdigit()` but is not a decimal digit.

| file | module | what it models |
|---|---|---|
| text.dfy | Text | strip/trim, lower, `in`, `startswith`, split/join, decimal numerals |
| normalize.dfy | Normalize | the text normaliser, in Python and in JavaScript |
| dedup.dfy | Dedup | the duplicate history, in Python and in JavaScript |
| completion.dfy | Completion | a language-model reply, and how an image is attached to a request |
| classifier.dfy | Classifier | the three yes/no reply readers |
| formatter.dfy | Formatter | the template formatter's retry loop, in both languages |
| telegram.dfy | Telegram | the message fields the Telegram code reads, and Python's `or` |
| ingest.dfy | Ingest | the stage order both mirrors share, and what became of a message |
| telegram_mirror.dfy | TelegramMirror | the Telegram mirror's message handler |
| whatsapp_mirror.dfy | WhatsAppMirror | the WhatsApp mirror's message handler, and `escapeHtml` |
| personal_matcher.dfy | PersonalMatcher | topic detection and tiered private delivery |
| registration.dfy | Registration | the registration wizard's steps, navigation, selection and parsing |

Behaviours of the code that the model keeps as written:

- The normaliser is not idempotent. The `#` written for a run of digits is
  punctuation to a second pass, so "1" gives "#" and "#" gives ""
  (`Normalize.NotIdempotent`).
- The Python and JavaScript normalisers differ in `\d` (Unicode decimal
  digits against ASCII digits) and in their white-space sets: U+FEFF
  between two letters is dropped by Python and becomes a space in
  JavaScript (`Normalize.NonAsciiDigitsDiffer`,
  `Normalize.ByteOrderMarkDiffers`).
- The Python duplicate history absorbs only a file that is not valid
  JSON. A failure to create, open, lock or write the file propagates, and
  the Telegram handler's catch-all drops the message (`Dedup.DecidePy`
  returns `Raised`).
- The JavaScript duplicate history answers "not a duplicate" and saves
  nothing when the lock or the final write fails (`Dedup.Unavailable`
  means a failed lock). A failed read is caught together with the JSON
  parse, so it counts as a corrupt file: the history is read as empty and
  the post's strings replace it (`Dedup.Available(Corrupt, _)`). Creating a
  missing file happens before its `try`, so a missing file that cannot be
  created rejects the call (`Dedup.DecideJs` returns `Raised`).
- The Telegram mirror removes its downloaded image only at the end of a
  successful run or on an early stop. An exception from the history check
  or the Bot API request skips the removal (`TelegramMirror.Route`, the
  `leftover` flag). A download that raises ends in the same catch-all
  before the classifier is asked.
- The WhatsApp mirror catches only the Bot API request's failure, which
  ends as `Ingest.SendFailed` rather than `Ingest.Crashed`. A
  rejected download rejects the handler before the classifier is asked,
  and a rejected history check rejects it with the image still on disk
  (`WhatsAppMirror.LeavesImageOnlyWhenHistoryRejects`).
- The two mirrors detect "keep the photo" differently. WhatsApp searches the
  text and the OCR text joined by a space, with a longer phrase list.
  Telegram searches each separately.
- The album handler of the personal matcher has no third tier. It also
  never checks that the album's text is non-blank.
- In the wizard as configured, every choice step is buttons-only. The
  choice parser of `handle_answer` is therefore never reached by typing.

## Model

| member | source | states |
|---|---|---|
| Text.Strip | shared/normalize.py:14 | the result has no white space at either end; it starts after the leading white space, and everything after it is white space |
| Text.StripInfix | shared/normalize.py:14 | the result is the input's slice between its leading and its trailing white space |
| Text.StripEmpty | filters/personal_matcher.py:64-67 | `strip()` gives "" exactly when the string is all white space |
| Text.StripPadded | whatsapp_bot/isCastingAI.js:54 | surrounding white space does not change the stripped string |
| Text.SplitJoin | filters/user_reg_bot.py:226-231 | joining comma-free parts with "," and splitting again gives the parts back |
| Text.Filter | filters/user_reg_bot.py:670 | the elements that pass the test, no more than the input, and a value is in the result exactly when it is in the input and passes |
| Text.FilterAppend | filters/user_reg_bot.py:670 | filtering distributes over concatenation, so the result keeps the input's order |
| Text.FilterOne | filters/user_reg_bot.py:670 | a one-element list is kept exactly when its element passes |
| Text.FilterIdempotent | filters/user_reg_bot.py:670 | filtering twice with the same test is filtering once |
| Text.JoinSplit | filters/user_reg_bot.py:226-231 | splitting at a separator and joining with it restores the string |
| Normalize.StripHandlesRemovesMention | shared/normalize.py:9 | an `@` followed by a handle goes together with the whole handle, and the text on either side is rewritten on its own |
| Normalize.StripHandlesWithoutAt | shared/normalize.py:9 | a string without `@` is unchanged by handle removal |
| Normalize.StripHandlesChars | shared/normalize.py:9 | handle removal only deletes: every character left is one of the input |
| Normalize.StripHandles | shared/normalize.py:9 | handle removal never lengthens the text; what it removes is stated by the three lemmas above |
| Normalize.DropPunctuation | shared/normalize.py:10 | the result is the input's letters, numbers and white-space characters in their order, each as often as it occurs (`Text.Filter` with the word-character test) |
| Normalize.DropPunctuationAppend | shared/normalize.py:10 | what survives of `a + b` is what survives of `a` followed by what survives of `b` |
| Normalize.DropPunctuationOne | shared/normalize.py:10 | a single character survives exactly when it is a letter, number or white space |
| Normalize.CollapseRuns | shared/normalize.py:11-12 | collapsing never lengthens the text; the first character of a non-empty result is the replacement when the input's first character is in the class, and otherwise the input's first character |
| Normalize.CollapseRunsSplice | shared/normalize.py:11-12 | a maximal run of the class becomes exactly one replacement character, and the text on either side is rewritten on its own |
| Normalize.CollapseRunsSeparated | shared/normalize.py:11-12 | after collapsing, each replacement character is followed by a character outside the class, so every run was maximal |
| Normalize.CollapseRunsNoDoubled | shared/normalize.py:11 | when the replacement character did not occur before, no two of it are adjacent afterwards |
| Normalize.CollapseRunsKeepsNoDoubled | shared/normalize.py:12 | collapsing white space never makes two `#` adjacent |
| Normalize.CollapseRunsIdentity | shared/normalize.py:12 | a string without a character of the class is left alone |
| Normalize.NormalizePy | shared/normalize.py:4-14 | None and "" give "", and the result is never longer than the input |
| Normalize.NormalizeJs | shared/normalize.js:1-8 | a missing argument gives "", and the result is never longer than the input |
| Normalize.Pipeline | shared/normalize.py:8-14 | the five rewrites never lengthen the text; the shape of the result is stated by `PipelineShape` |
| Normalize.PipelineShape | shared/normalize.py:8-14 | the result holds only `#`, single spaces and non-digit letters and numbers of the lower-cased input; it is trimmed, and no `#` or space is doubled |
| Normalize.NormalizeShape | shared/normalize.py:4-14 | both implementations give such normal forms, and no `@` survives |
| Normalize.NormalizePyShape | shared/normalize.py:4-14 | the Python normaliser gives a normal form without `@` |
| Normalize.NormalizeJsShape | shared/normalize.js:1-8 | the JavaScript normaliser gives a normal form, judged with its ASCII-only `\d`, without `@` |
| Normalize.JsClassesWellFormed | shared/normalize.js:6 | an ASCII-only `\d` still satisfies every fact the proofs rely on |
| Normalize.NotIdempotent | shared/normalize.py:10-11 | "1" normalises to "#", and "#" to "" |
| Normalize.NonAsciiDigitsDiffer | shared/normalize.js:6 | a non-ASCII decimal digit becomes `#` in Python and survives in JavaScript |
| Normalize.ByteOrderMarkDiffers | shared/normalize.js:5-8 | U+FEFF between two letters is dropped by the Python normaliser and becomes a space in the JavaScript one, whose `\s` and `trim()` count it as white space |
| Dedup.LastN | shared/isDuplicateCasting.py:46 | `history[-20:]`: the whole list when it is short enough, else its last n items in order |
| Dedup.LastNAppend | shared/isDuplicateCasting.py:43-46 | cutting back after every append is the same as cutting back once |
| Dedup.DecidePy | shared/isDuplicateCasting.py:10-51 | a duplicate exactly when the file is usable and the fingerprint is stored or some stored entry scores at least 0.90 against it (the entry as first argument); a new post is saved exactly when the file is usable and writable, and the saved history is the old entries plus the fingerprint cut back to the last twenty; every other case raises, so Python never answers "new" without saving |
| Dedup.CheckPy | shared/isDuplicateCasting.py:31-46 | the exact check and the early-return scan decide what `DecidePy` states |
| Dedup.FingerprintInjective | shared/isDuplicateCasting.py:11-13 | different normalised (text, OCR) pairs give different fingerprints, because no normal form contains the bar character |
| Dedup.RepeatIsDuplicatePy | shared/isDuplicateCasting.py:31-33 | a post checked again right after it was recorded is a duplicate, whatever the scores |
| Dedup.EmptyPostsCollide | shared/isDuplicateCasting.py:11-13 | posts with neither text nor OCR text share one fingerprint, so after the first every one is a duplicate |
| Dedup.CorruptHistoryResetPy | shared/isDuplicateCasting.py:24-28 | a history that is not valid JSON is replaced by the one new fingerprint |
| Dedup.RecordedEntriesPy | shared/isDuplicateCasting.py:43-46 | a saved history holds only old entries and the new fingerprint |
| Dedup.StepPy | shared/isDuplicateCasting.py:31-49 | one check on a writable file keeps the history within twenty entries, adds nothing but the post's fingerprint, and keeps it repeat-free |
| Dedup.ReplayPy | shared/isDuplicateCasting.py:43-46 | over any sequence of checks the history stays within twenty entries, each an initial entry or a post's fingerprint |
| Dedup.ReplayPyDistinct | shared/isDuplicateCasting.py:31-46 | the Python history never holds the same fingerprint twice |
| Dedup.EntriesJs | shared/isDuplicateCasting.js:11-13 | the candidates are exactly the non-empty normalised text and OCR text, text first, at most two |
| Dedup.AppendNew | shared/isDuplicateCasting.js:52-56 | the old list stays a prefix, exactly the missing candidates are added, and a list without repeats keeps none |
| Dedup.AppendNewAppend | shared/isDuplicateCasting.js:52-56 | pushing a batch is pushing its first part and then the rest, so candidates are taken in order |
| Dedup.AppendNewOne | shared/isDuplicateCasting.js:53-55 | one candidate is pushed at the end exactly when the list lacks it; with `AppendNewAppend` this fixes the result's order |
| Dedup.DecideJs | shared/isDuplicateCasting.js:11-63 | a duplicate exactly when the file is usable and a candidate is stored or some (stored entry, candidate) pair scores at least 90; a new post is saved exactly when the file is usable and writable, and the saved history is the old list with the missing candidates appended, cut back to the last twenty; the call rejects exactly when the file is missing and cannot be created; a failed lock or a failed write answers "new" and saves nothing; a failed read counts as a corrupt file, read as empty |
| Dedup.CheckJs | shared/isDuplicateCasting.js:14-63 | the file checks, the scans and the unique append decide exactly what `DecideJs` states, the rejection for a missing file that cannot be created included |
| Dedup.ScanJs | shared/isDuplicateCasting.js:32-49 | the scans report a hit exactly when a candidate is stored or some (stored entry, candidate) pair scores at least the threshold |
| Dedup.NewEntriesKept | shared/isDuplicateCasting.js:52-58 | cutting back to twenty never drops the candidates just appended |
| Dedup.EmptyPostsPassJs | shared/isDuplicateCasting.js:13-58 | a post with no text left is never a duplicate, and the stored list is only cut back |
| Dedup.StoredTextIsDuplicateJs | shared/isDuplicateCasting.js:33-38 | a stored text makes the post a duplicate whatever its OCR text |
| Dedup.RepeatIsDuplicateJs | shared/isDuplicateCasting.js:33-58 | a post with text, checked again right after it was recorded, is a duplicate |
| Dedup.DecideJsDistinct | shared/isDuplicateCasting.js:52-58 | the JavaScript history never holds the same string twice |
| Completion.AttachPy | telegram_bot/is_casting_ai.py:39-51 | an image is attached exactly when its path is truthy and the file exists and reads; a bad file never makes the call fail |
| Completion.AttachJs | whatsapp_bot/isCastingAI.js:34-45 | an image is attached exactly when its path is truthy and the file exists and reads; an existing unreadable file throws |
| Completion.AttachAgrees | telegram_bot/format_casting_template.py:55-67 | both languages attach the same images; where JavaScript throws or skips, Python skips |
| Classifier.IsCastingPy | telegram_bot/is_casting_ai.py:53-65 | yes exactly when the reply has content whose lower-cased form contains "да"; every failure is no |
| Classifier.IsCastingJs | whatsapp_bot/isCastingAI.js:34-59 | no answer when the image throws; otherwise yes exactly when the trimmed, lower-cased content starts with "да" |
| Classifier.ReadMatch | filters/utils.py:39-63 | a failed call or missing content fails; a yes exactly when the trimmed, lower-cased reply starts with "да"; a no only when it starts with "нет" |
| Classifier.MatchProfile | filters/utils.py:49-63 | a match exactly when the reply reads as yes |
| Classifier.MatchReadsLikeJs | filters/utils.py:49-56 | the profile matcher and the JavaScript classifier read every reply alike |
| Classifier.JsAcceptImpliesPy | whatsapp_bot/isCastingAI.js:54-55 | every reply the JavaScript classifier accepts, the Python one accepts |
| Classifier.PyAcceptsMore | telegram_bot/is_casting_ai.py:60-62 | "когда" is a yes to Python and a no to JavaScript |
| Classifier.MatchIgnoresPadding | filters/utils.py:49 | surrounding white space does not change the matcher's reading |
| Classifier.MatchPlainAnswers | filters/utils.py:53-56 | a plain "да" reads as yes and a plain "нет" as no |
| Classifier.ProfileFields | filters/utils.py:28-33 | the six profile fields in order, "-" for a missing one |
| Classifier.ProfileFieldsIgnoreOtherKeys | filters/utils.py:28-33 | profile entries other than the six never reach the request |
| Formatter.JudgeMeaning | telegram_bot/format_casting_template.py:78-89 | an attempt aborts exactly on a failed call (or, in Python, missing content); an accepted answer is the stripped content, non-empty and marker-free; a refused one is empty or holds a marker |
| Formatter.Loop | telegram_bot/format_casting_template.py:69-92 | from a given attempt: every call before the last was refused; the loop stops before ten only on a reply it does not refuse; the text is the accepted answer or the original |
| Formatter.Format | telegram_bot/format_casting_template.py:69-92 | one to ten calls; every call but the last refused; fewer than ten only when the last was not refused; the result is the last reply's accepted content, else the original text |
| Formatter.FormatJs | whatsapp_bot/formatCastingTemplate.js:53-94 | the call throws exactly when the image exists but cannot be read; otherwise it is the retry loop |
| Formatter.FormatResult | telegram_bot/format_casting_template.py:78-92 | the result is the original text or a non-empty answer free of refusal markers |
| Formatter.RefusalsExhaust | telegram_bot/format_casting_template.py:69-92 | ten refusals in a row spend ten calls and give back the original text |
| Formatter.AcceptAfterRefusals | telegram_bot/format_casting_template.py:70-85 | refusals followed by an acceptance take exactly one call per reply |
| Formatter.MissingContentDiffers | whatsapp_bot/formatCastingTemplate.js:77-80 | a service that never gives content costs Python one call and JavaScript ten; both return the original text |
| Formatter.PolicyOnlyInJs | whatsapp_bot/formatCastingTemplate.js:14 | "policy" is a refusal marker in JavaScript only |
| Formatter.JsRefusesPolicy | whatsapp_bot/formatCastingTemplate.js:77-86 | an answer mentioning a policy is always retried in JavaScript |
| Telegram.PyOr | telegram_bot/mirror.py:62-66 | Python's `or`: the first truthy operand, else the last |
| TelegramMirror.ThreadOf | telegram_bot/mirror.py:62-66 | the thread is the first truthy of `thread_id`, `message_thread_id`, `reply_to.reply_to_msg_id`, else the last of them |
| TelegramMirror.ChatKeyDecodes | telegram_bot/mirror.py:52 | a "chat_thread" key splits back into its two parts, and its chat part reads back as the chat |
| TelegramMirror.ChatKeyInjective | telegram_bot/mirror.py:67-71 | distinct (chat, thread) pairs have distinct keys |
| TelegramMirror.PassesSubscribed | telegram_bot/mirror.py:52-55 | every message the source filter keeps comes from a subscribed chat |
| TelegramMirror.NoThreadNoTopic | telegram_bot/mirror.py:62-75 | a message with no thread passes only when its whole chat is watched |
| TelegramMirror.Passes | telegram_bot/mirror.py:69-75 | a message passes exactly when its whole chat is watched or its "chat_thread" key is a watched topic |
| TelegramMirror.IsPreview | telegram_bot/mirror.py:94-101 | an image is a link preview when it is under 15000 bytes or at most 150 pixels in both dimensions, an unreadable image counting as 0x0 |
| TelegramMirror.KeepPhoto | telegram_bot/mirror.py:122-130 | the photo is kept when one of the nine phrases occurs in the lower-cased text or in the lower-cased OCR text, each searched on its own |
| TelegramMirror.Route | telegram_bot/mirror.py:56-174 | the stages are consulted in order and stop at the first that says no; a raising download ends the run before the classifier; a post happens exactly when the history saved the casting and the request went through, with the photo exactly when an image was kept and a trigger found; with the size check and file removals succeeding, the image is left on disk exactly after a crash at or after the history check with a kept image |
| TelegramMirror.Handle | telegram_bot/mirror.py:56-174 | a post happens exactly for a watched chat, a download that did not raise, a casting verdict, a saved history and a request that did not raise; an image left on disk was kept and met a raising history check or request |
| TelegramMirror.DownloadRaiseStopsFirst | telegram_bot/mirror.py:86-90 | a raising download on a watched chat crashes the run before the classifier, with nothing left on disk |
| TelegramMirror.FilteredConsultsNothing | telegram_bot/mirror.py:69-75 | a filtered message's outcome depends on no service |
| TelegramMirror.NotCastingStopsBeforeHistory | telegram_bot/mirror.py:106-111 | a rejected message's outcome depends only on the chat and the classifier |
| TelegramMirror.RepeatedStopsBeforeTemplate | telegram_bot/mirror.py:115-120 | a repeated casting stops before the formatter and the Bot API |
| TelegramMirror.PreviewNeverPosted | telegram_bot/mirror.py:92-104 | a link preview, or an image that cannot be opened, is never posted |
| TelegramMirror.PhotoNeedsTrigger | telegram_bot/mirror.py:122-140 | without a trigger phrase in the text or the OCR text the post is text alone |
| TelegramMirror.PostedMessage | telegram_bot/mirror.py:133-137 | a post is the formatted casting, a blank line and the source quote; the casting is the message's text or a marker-free answer |
| WhatsAppMirror.ReplaceCharAppend | whatsapp_bot/whatsapp_mirror.js:16-18 | a global replacement works piecewise on a concatenation |
| WhatsAppMirror.EscapeEach | whatsapp_bot/whatsapp_mirror.js:14-19 | the escaped text holds no `<` and no `>` |
| WhatsAppMirror.PassesEscapeEach | whatsapp_bot/whatsapp_mirror.js:15-18 | the three global replacements, `&` first, escape each character on its own |
| WhatsAppMirror.EscapeHtml | whatsapp_bot/whatsapp_mirror.js:14-19 | the three global replacements give the character-by-character escape; a missing name gives "" |
| WhatsAppMirror.UnescapeEscape | whatsapp_bot/whatsapp_mirror.js:14-19 | reading the entities back gives the original name |
| WhatsAppMirror.EscapeInjective | whatsapp_bot/whatsapp_mirror.js:14-19 | different names have different escapes |
| WhatsAppMirror.EscapePlain | whatsapp_bot/whatsapp_mirror.js:14-19 | a name without `&`, `<`, `>` is shown unchanged |
| WhatsAppMirror.QuoteClosed | whatsapp_bot/whatsapp_mirror.js:91 | the only tags in the source quote are its own |
| WhatsAppMirror.TriggersIncluded | whatsapp_bot/whatsapp_mirror.js:96-100 | every Telegram trigger phrase is a WhatsApp one |
| WhatsAppMirror.WaTriggerCoversTelegram | whatsapp_bot/whatsapp_mirror.js:95-101 | where the Telegram rule would keep the photo, the WhatsApp rule does too |
| WhatsAppMirror.ShortPhraseOnlyWa | whatsapp_bot/whatsapp_mirror.js:97 | "на фото" alone keeps the photo in WhatsApp only |
| WhatsAppMirror.SplitPhraseOnlyWa | whatsapp_bot/whatsapp_mirror.js:95 | a phrase split between the text and the OCR text is found in WhatsApp only |
| WhatsAppMirror.Image | whatsapp_bot/whatsapp_mirror.js:55-65 | the image is attached exactly when the message has downloaded media whose type starts with "image/", and it never makes a request throw |
| WhatsAppMirror.Route | whatsapp_bot/whatsapp_mirror.js:41-142 | the stages are consulted in order and stop at the first that says no; a rejected download ends the run before the classifier; a post happens exactly when the history check answered "new" and the request went through, with the photo exactly when an image was saved and a trigger found; a failed request is caught and ends as `SendFailed`, while a rejected download or history check is a crash; the image is left on disk exactly when a saved image meets a rejected history check |
| WhatsAppMirror.Handle | whatsapp_bot/whatsapp_mirror.js:41-143 | a post happens exactly for a group message whose download did not reject, with a casting verdict, a history check that answered "new" and a request that went through; a crash comes from the download or the history check, and a caught send failure from the request |
| WhatsAppMirror.DownloadFailureStopsFirst | whatsapp_bot/whatsapp_mirror.js:55-57 | a rejected download in a group ends the run before the classifier, whatever the later services would say |
| WhatsAppMirror.OwnImageNeverThrows | whatsapp_bot/whatsapp_mirror.js:57-68 | the mirror's freshly written image never makes the classifier or the formatter throw |
| WhatsAppMirror.FilteredConsultsNothing | whatsapp_bot/whatsapp_mirror.js:45 | a message outside a group consults nothing |
| WhatsAppMirror.NotCastingStopsBeforeHistory | whatsapp_bot/whatsapp_mirror.js:68-75 | a rejected message stops before OCR, the history, the formatter and the Bot API |
| WhatsAppMirror.RepeatedStopsBeforeTemplate | whatsapp_bot/whatsapp_mirror.js:80-85 | a repeated casting stops before the formatter and the Bot API |
| WhatsAppMirror.PhotoNeedsImageAndTrigger | whatsapp_bot/whatsapp_mirror.js:101-106 | a photo goes out only with a saved image and a trigger in the joined text |
| WhatsAppMirror.LeavesImageOnlyWhenHistoryRejects | whatsapp_bot/whatsapp_mirror.js:61-83 | the image stays on disk exactly when a group message with a saved image is a casting and the history file is missing and cannot be created; every other path removes it or never wrote it |
| WhatsAppMirror.PostedMessage | whatsapp_bot/whatsapp_mirror.js:88-92 | a post is the formatted casting, a blank line and the quote; the casting is the message's text or a marker-free answer |
| PersonalMatcher.TopicId | filters/personal_matcher.py:24-39 | the first truthy of five message attributes and then two reply-header attributes, or None |
| PersonalMatcher.SecondTier | filters/personal_matcher.py:99-121 | every second-tier request carries the caption; none is made exactly when the message has media whose download raised; the file goes along only when there is media and the download gave one |
| PersonalMatcher.DeliverOne | filters/personal_matcher.py:84-138 | a user is skipped exactly when the matcher says no; otherwise the forward comes first, a successful forward ends it, and the third tier is always the caption alone |
| PersonalMatcher.DeliveredIff | filters/personal_matcher.py:89-129 | a matching user receives the casting exactly when one of the three tiers goes through |
| PersonalMatcher.DeliverAll | filters/personal_matcher.py:84-138 | every user in the file is handled once, in order |
| PersonalMatcher.HandleNew | filters/personal_matcher.py:42-141 | each skip reason holds exactly in its case, checked in order: another topic, then blank text, then an unreadable users file, then an empty one; otherwise user i (of all users, in order) gets the single-message chain for the unstripped text with its own reply and requests |
| PersonalMatcher.WrongTopicConsultsNothing | filters/personal_matcher.py:57-62 | a message outside the topic is dropped whatever the users and the network |
| PersonalMatcher.UsersIsolated | filters/personal_matcher.py:84-138 | what happens to one user depends only on that user's reply and requests |
| PersonalMatcher.AtMostOneCopy | filters/personal_matcher.py:92-129 | no user receives two copies |
| PersonalMatcher.DeliverAlbumOne | filters/personal_matcher.py:163-195 | the album chain is the forward and at most one second-tier request |
| PersonalMatcher.HandleAlbum | filters/personal_matcher.py:146-195 | an album is processed exactly for the topic and a readable users file, and is otherwise skipped as another topic or an unreadable file; user i gets the album chain for the stripped text with its own reply and requests |
| PersonalMatcher.AlbumSkipsNoBlankCheck | filters/personal_matcher.py:64-67 | a blank message is skipped alone but still matched as an album |
| PersonalMatcher.SingleDeliversWhereAlbumDoes | filters/personal_matcher.py:99-129 | the single-message chain delivers wherever the album chain does, and also after a raised download |
| Registration.ButtonOnlySteps | filters/user_reg_bot.py:122-129 | the buttons-only steps are the sex, the cities, the look, the build and the languages |
| Registration.ButtonOnly | filters/user_reg_bot.py:122-129 | a step is buttons-only exactly when it is a multiselect or choice step, or a choicefree step with choices |
| Registration.AsList | filters/user_reg_bot.py:226-231 | the items of a list or the comma-separated parts of a string, each stripped, the empty ones dropped, in order (`Text.Filter` over the stripped items); a number gives none |
| Registration.StripNonEmpty | filters/user_reg_bot.py:227-230 | the stripped items without the empty ones, in order, each as often as it occurs; every item kept is trimmed |
| Registration.StripNonEmptyAppend | filters/user_reg_bot.py:227-230 | items are read independently: the result for `a + b` is the result for `a` followed by that for `b` |
| Registration.StripNonEmptyMembers | filters/user_reg_bot.py:226-231 | exactly the non-empty stripped items survive |
| Registration.IsUrlOrSkip | filters/user_reg_bot.py:236-238 | "" exactly for a blank answer or a skip word in any case; otherwise the trimmed answer |
| Registration.IsUrlOrSkipIdempotent | filters/user_reg_bot.py:236-238 | reading the result again changes nothing |
| Registration.NextFrom | filters/user_reg_bot.py:503-505 | the first step in scope at or after the current one, or the end |
| Registration.StepInScope | filters/user_reg_bot.py:356-363 | every step is in the whole wizard; the form holds the non-photo steps and the photo scope the photo steps |
| Registration.NextFromUnique | filters/user_reg_bot.py:503-505 | any index with those properties is that step |
| Registration.FirstIndexForScope | filters/user_reg_bot.py:365-369 | the least index in scope, or the number of steps |
| Registration.FirstIndexValues | filters/user_reg_bot.py:301-327 | the form starts at the first step and the photos at the seventeenth |
| Registration.PrevFrom | filters/user_reg_bot.py:916-918 | the last step in scope before the current one, if any |
| Registration.Advance | filters/user_reg_bot.py:476-521 | a single-field edit finishes at once; otherwise the wizard finishes exactly when no step from here on is in scope, else moves to the next step in scope with nothing else changed; finishing saves the stored profile overlaid with the answers |
| Registration.GoBack | filters/user_reg_bot.py:882-938 | the wizard is left exactly when no earlier step is in scope; otherwise it moves to the last earlier step in scope and forgets that step's answer |
| Registration.BackThenForward | filters/user_reg_bot.py:503-505 | going back and then forward lands on the step the user left |
| Registration.ForwardThenBack | filters/user_reg_bot.py:916-938 | answering a step and going back returns to it |
| Registration.KeepValid | filters/user_reg_bot.py:617 | the items among the options, in order, each as often as it occurs (all when there are no options) |
| Registration.Unique | filters/user_reg_bot.py:618 | the same items without repeats |
| Registration.Remove | filters/user_reg_bot.py:622 | the first occurrence of the value is cut out and everything else keeps its order; in a list without repeats exactly that value goes |
| Registration.Toggle | filters/user_reg_bot.py:620-628 | a selected value is removed as by `Remove`; a new one is appended at the end exactly when the limit is not reached; otherwise nothing changes; the flag says whether one came |
| Registration.ToggleKeepsLimit | filters/user_reg_bot.py:624-628 | a toggle never takes a selection within the limit beyond it |
| Registration.Selection | filters/user_reg_bot.py:616-618 | the current selection has no repeats and holds only stored, valid items |
| Registration.ToggleKeeps | filters/user_reg_bot.py:613-630 | a toggle keeps the selection repeat-free, within the options and within the limit |
| Registration.ToggleOn | filters/user_reg_bot.py:603-638 | the state changes exactly for this step's key and a valid value, and only this step's answer changes; the selection (the stored valid items, each once) with the value toggled is stored as a list, or joined by ", " with the step moved on exactly when an addition fills an autonext step with a limit; a new value refused at the limit shows the pop-up "Можно выбрать до {limit}." |
| Registration.ToggleStores | filters/user_reg_bot.py:630-636 | the selection is stored as a list, or, when an addition fills an autonext step, as the ", " join with the step moved on |
| Registration.ToggleMulti | filters/user_reg_bot.py:588-638 | the state changes exactly on a current step whose key the callback names, with a value among its options when it has any; only that step's answer changes; the stored value is the toggled selection, as a list or joined by ", " when the step moves on, and the limit pop-up appears exactly when a new value was refused |
| Registration.AutonextSteps | filters/user_reg_bot.py:305-316 | the cities step completes at the third city; the languages step never completes by itself |
| Registration.Picked | filters/user_reg_bot.py:668-670 | no empty item is picked |
| Registration.NonEmpty | filters/user_reg_bot.py:670 | the non-empty items, in order, each as often as it occurs |
| Registration.Truncate | filters/user_reg_bot.py:676-677 | a prefix, no longer than a non-zero limit, cut only to the limit |
| Registration.DoneOn | filters/user_reg_bot.py:657-681 | nothing changes for another key or an empty selection; otherwise the selection, cut to the limit, is stored joined by ", " and the step moves on |
| Registration.DoneMulti | filters/user_reg_bot.py:641-681 | "done" only ever moves on by one step, from a current step whose key the callback names; for that key it changes nothing exactly when the selection is empty, and otherwise stores the selection, cut to the limit, joined by ", " |
| Registration.JoinedSelectionReadsBack | filters/user_reg_bot.py:226-231 | a ", "-joined selection of stripped, comma-free items reads back as the selection |
| Registration.DoneReadsBack | filters/user_reg_bot.py:668-681 | what "done" stores reads back as the selection cut to the limit |
| Registration.Find | filters/user_reg_bot.py:1089 | `list.index`: the first position holding the item, or none when it is absent |
| Registration.ParseChoice | filters/user_reg_bot.py:1082-1089 | a value exactly when some choice matches after trimming and lower-casing; the value is the first such choice; otherwise the reprompt "Пожалуйста, выберите: " followed by the choices joined by ", " |
| Registration.ParseNumberAsWritten | filters/user_reg_bot.py:1092-1097 | a reprompt exactly when `isdigit()` fails; a raise exactly when `isdigit()` passes but `int()` cannot read the text; decimal text is read as its value |
| Registration.SuperscriptRaises | filters/user_reg_bot.py:1093-1097 | "²" passes the guard and makes `int()` raise |
| Registration.ParseNumber | filters/user_reg_bot.py:1092-1097 | a number exactly for decimal digits, namely their non-negative value; a reprompt otherwise, never a raise |
| Registration.ParseNumberAgrees | filters/user_reg_bot.py:1092-1097 | the corrected parser agrees with the code wherever the code does not raise |
| Registration.ParseNumberDecimal | filters/user_reg_bot.py:1097 | an ASCII numeral reads as the number it spells |
| Registration.ParseAnswer | filters/user_reg_bot.py:1082-1105 | a number step gives the decimal value of its digits, or "Нужно целое число."; a choice step gives the first choice equal to the text after normalising, exactly when there is one, and otherwise the reprompt listing the choices; a list step gives the stripped non-empty comma parts in order; a link step gives `is_url_or_skip` of the text; every other type stores the text itself |
| Registration.AnswerOn | filters/user_reg_bot.py:1035-1107 | a photo step moves on exactly when a photo was saved, storing its path under its slot's key, and otherwise changes nothing; any other step moves on exactly when it is not buttons-only and the trimmed text parses, storing the parsed value; otherwise it replies with the buttons prompt or the parser's prompt |
| Registration.HandleAnswer | filters/user_reg_bot.py:1016-1033 | the bot's own messages, messages with neither a photo nor non-blank text, and messages past the last step change nothing; every other message is answered by the current step's handler |
| Registration.PhotoKeysMatchSteps | filters/user_reg_bot.py:1040-1055 | every photo is stored under its own step's key |
| Registration.TypingNeverAnswersButtons | filters/user_reg_bot.py:1077-1080 | typing never answers a buttons-only step |

## Left out

- Transport: Telegram, WhatsApp and HTTP requests and downloads. Where a request's failure changes the outcome, its success or failure is an input.
- TelegramMirror.Route: `event.get_chat()` (telegram_bot/mirror.py:80), `os.path.getsize` (line 94) and `os.remove` (lines 103, 110, 119) are assumed to succeed. A raising `getsize` would end in the catch-all before the classifier with the image left on disk, and a raising `os.remove` would end the run there; neither is modelled.
- WhatsAppMirror.Route: `fs.writeFileSync` (whatsapp_bot/whatsapp_mirror.js:61) and `fs.unlinkSync` (lines 73, 83, 141) are assumed to succeed. A throwing write would reject the handler before the classifier, and a throwing unlink would reject it after its stage's decision.
- The WhatsApp handler's `getChat` and `getContact` calls are assumed to succeed; their rejection would reject the handler before the group test.
- The language model: prompts, models and parameters. Each reply is an input.
- The similarity scores (difflib's `SequenceMatcher.ratio`, fuzzball's `token_set_ratio`). They are uninterpreted parameters, called with the argument order of the code.
- File locking and every concurrency question. Each check is modelled as one atomic step.
- The JSON encoding of the history file. A file is modelled as missing, corrupt, or a list of strings.
- OCR (the Tesseract wrappers) and PIL. The OCR text, the image's byte size and its pixel size are inputs.
- The destination chat and topic, the bot token and the rest of the environment.
- Unicode tables and case mapping. They are parameters, and lower-casing is modelled one character at a time, with no length-changing mappings. Python's `str.lower()` and JavaScript's `toLowerCase()` share one mapping.
- The JavaScript white-space class is used in the JavaScript normaliser only. The `trim()` calls of the JavaScript classifier and formatter use the Python class, as their Python twins' `strip()` do.
- The registration wizard's database, screens, buttons, album messages, temporary messages and `busy` flags. The wizard state is modelled as a value.
- The wizard's menus, the single-field editor beyond its `finish_after_step` flag, the profile screen and `/start`.
- Registration.Unique: does not state that the first occurrence of each item keeps its place, only that the items are the same and appear once.
- Registration.DoneOn: the prompt "choose at least one" for an empty selection is modelled as no change. That prompt is a reply only.
- Registration.HandleAnswer: a state without a current step is not modelled; the wizard is assumed active.
- Registration.AnswerOn: stores the photo's local path only. The Telegram file reference under `photo<slot>_tg` is not modelled.
- Registration.ParseAnswer: uses the corrected number parser (see Findings). On "²" and other non-decimal digits the code raises and the handler ends with no reply and the step unchanged; the model asks again.
- Registration.AnswerOn: uses the corrected number parser through `ParseAnswer`, so on a height or weight like "²" it answers with the prompt where the code raises.
- Registration.HandleAnswer: uses the corrected number parser through `AnswerOn`; the code's behaviour on "²" is modelled by `Registration.ParseNumberAsWritten` and `Registration.SuperscriptRaises` only.
- Registration.ParseNumber: `int()` also accepts surrounding white space, a sign and underscores. None of these pass `isdigit()`, so none can reach it.
- Scope strings other than "form" and "photos" behave like no scope in the code; the model has only the three scopes.
- The users file is a JSON object; it is modelled as the sequence of its profiles in iteration order, read or unreadable.
- PersonalMatcher.DeliverOne: `int(user_id)` is assumed to succeed. A non-numeric id would make every tier raise.
- PersonalMatcher.DeliverOne: the removal of the temporary file in the `finally` blocks is not modelled.
- Dedup.CheckPy and Dedup.CheckJs: the fuzzy scan stops at the first match, as in the code. Which entry matched, and the log lines, are not modelled.

## Findings

| source | as written | input that shows it | evidently intended | confidence | as-written member | corrected member |
|---|---|---|---|---|---|---|
| filters/user_reg_bot.py:1093-1097 | `text.isdigit()` guards `int(text)` for height and weight | "²" (or any other digit that is not decimal): `isdigit()` is true, `int()` raises, and the handler ends with no reply and no progress | ask again with "Нужно целое число." for anything `int()` cannot read | high; not executed | Registration.ParseNumberAsWritten, Registration.SuperscriptRaises | Registration.ParseNumber, Registration.ParseNumberAgrees |

=== FILE: classifier.dfy ===
/**
 The yes/no classifiers: "is this message a casting call?"
 (telegram_bot/is_casting_ai.py, whatsapp_bot/isCastingAI.js) and "does this
 casting suit this profile?" (filters/utils.py `match_profile_with_casting`).

 Each sends one request and reads a Russian "да" (yes) or "нет" (no) out of
 the reply. The three read the reply differently, and every failure counts
 as "no".
 */
module Classifier {
  import opened Text
  import opened Completion

  const Yes: string := "да"
  const No: string := "нет"

  /** telegram_bot/is_casting_ai.py lines 60-65: the lower-cased reply
      contains "да" anywhere. A missing content makes `.lower()` raise, and
      every exception is answered with False. */
  function IsCastingPy(cc: CharClasses, reply: Reply): (b: bool)
    ensures b <==> reply.Answered? && reply.content.Some? && Contains(Lower(cc, reply.content.value), Yes)
  {
    match reply
    case Answered(Some(s)) => Contains(Lower(cc, s), Yes)
    case _ => false
  }

  /** The reading the JavaScript classifier and the profile matcher share:
      trim, lower-case, then test the start. */
  function Head(cc: CharClasses, s: string): string {
    Lower(cc, Strip(cc, s))
  }

  /** whatsapp_bot/isCastingAI.js lines 47-59: the trimmed, lower-cased reply
      starts with "да". An image that exists but cannot be read makes the
      call throw before any request is sent (line 35). */
  function IsCastingJs(cc: CharClasses, img: ImageRef, reply: Reply): (r: Option<bool>)
    ensures r == None <==> AttachJs(img) == Threw
    ensures r == Some(true) <==>
      AttachJs(img) != Threw && reply.Answered? && reply.content.Some? && StartsWith(Head(cc, reply.content.value), Yes)
  {
    if AttachJs(img) == Threw then None
    else match reply
      case Answered(Some(s)) => Some(StartsWith(Head(cc, s), Yes))
      case _ => Some(false)
  }

  /** How filters/utils.py reads the matcher's reply (lines 49-63). */
  datatype MatchVerdict = MatchYes | MatchNo | Unrecognised | MatchFailed

  function ReadMatch(cc: CharClasses, reply: Reply): (v: MatchVerdict)
    ensures v == MatchFailed <==> !(reply.Answered? && reply.content.Some?)
    ensures v == MatchYes <==> reply.Answered? && reply.content.Some? && StartsWith(Head(cc, reply.content.value), Yes)
    ensures v == MatchNo ==> StartsWith(Head(cc, reply.content.value), No)
  {
    match reply
    case Answered(Some(s)) =>
      var answer := Head(cc, s);
      if StartsWith(answer, Yes) then MatchYes
      else if StartsWith(answer, No) then MatchNo
      else Unrecognised
    case _ => MatchFailed
  }

  /** `match_profile_with_casting`: only a reply that starts with "да" is a match. */
  function MatchProfile(cc: CharClasses, reply: Reply): (b: bool)
    ensures b <==> ReadMatch(cc, reply) == MatchYes
  {
    ReadMatch(cc, reply).MatchYes?
  }

  /** The profile matcher and the JavaScript classifier read a reply the same way. */
  lemma MatchReadsLikeJs(cc: CharClasses, img: ImageRef, reply: Reply)
    requires AttachJs(img) != Threw
    ensures IsCastingJs(cc, img, reply) == Some(MatchProfile(cc, reply))
  {
  }

  /** Every reply the JavaScript classifier accepts, the Python one accepts:
      a reply starting with "да" after trimming contains "да". */
  lemma JsAcceptImpliesPy(cc: CharClasses, img: ImageRef, reply: Reply)
    requires IsCastingJs(cc, img, reply) == Some(true)
    ensures IsCastingPy(cc, reply)
  {
    HeadOccursInLower(cc, reply.content.value, Yes);
  }

  /** What starts the trimmed, lower-cased string occurs in the lower-cased string. */
  lemma HeadOccursInLower(cc: CharClasses, s: string, t: string)
    requires StartsWith(Head(cc, s), t)
    ensures Contains(Lower(cc, s), t)
  {
    var h := Head(cc, s);
    var u := Lower(cc, s);
    var k := HeadIsInfix(cc, s);
    assert Contains(h, t);
    assert u[k..k + |h|] == h;
    assert Contains(u[k..k + |h|], t);
    ContainsInfix(u, k, k + |h|, t);
    assert Contains(u, t);
  }

  /** The trimmed, lower-cased string sits inside the lower-cased string. */
  lemma HeadIsInfix(cc: CharClasses, s: string) returns (k: nat)
    ensures k + |Head(cc, s)| <= |s|
    ensures Head(cc, s) == Lower(cc, s)[k..k + |Head(cc, s)|]
  {
    k := LeadingSpace(cc, s);
    var r := Strip(cc, s);
    StripInfix(cc, s);
    assert r == s[k..k + |r|];
    LowerSlice(cc, s, k, k + |r|);
    assert Head(cc, s) == Lower(cc, s[k..k + |r|]);
  }

  /** The converse fails: "когда" ("when") contains "да", so the Python
      classifier takes it as a yes; the JavaScript one does not. */
  lemma PyAcceptsMore(cc: CharClasses, img: ImageRef)
    requires WellFormed(cc) && AttachJs(img) != Threw
    ensures IsCastingPy(cc, Answered(Some("когда")))
    ensures IsCastingJs(cc, img, Answered(Some("когда"))) == Some(false)
  {
    var s := "когда";
    assert Lower(cc, s) == s;
    assert s[3..][..2] == Yes;
    ContainsAt(s, Yes, 3);
    StripOfStripped(cc, s);
    assert Head(cc, s) == s;
    assert s[..2] != Yes;
  }

  /** Surrounding white space does not change a verdict of the profile matcher. */
  lemma MatchIgnoresPadding(cc: CharClasses, pre: string, s: string, post: string)
    requires forall i :: 0 <= i < |pre| ==> cc.isSpace(pre[i])
    requires forall i :: 0 <= i < |post| ==> cc.isSpace(post[i])
    ensures ReadMatch(cc, Answered(Some(pre + s + post))) == ReadMatch(cc, Answered(Some(s)))
  {
    StripPadded(cc, pre, s, post);
  }

  /** A plain "нет" is read as a no, and a plain "да" as a yes. */
  lemma MatchPlainAnswers(cc: CharClasses)
    requires WellFormed(cc)
    ensures ReadMatch(cc, Answered(Some(Yes))) == MatchYes
    ensures ReadMatch(cc, Answered(Some(No))) == MatchNo
  {
    StripOfStripped(cc, Yes);
    StripOfStripped(cc, No);
    assert Lower(cc, Yes) == Yes;
    assert Lower(cc, No) == No;
  }

  /** The profile fields the matcher's request shows (filters/utils.py lines
      28-33), in order; a field the profile lacks is shown as "-". */
  const ProfileKeys: seq<string> := ["sex", "type", "age", "height", "body", "location"]

  function ProfileFields(profile: map<string, string>): (r: seq<string>)
    ensures |r| == |ProfileKeys|
    ensures forall k :: 0 <= k < |r| ==>
      (ProfileKeys[k] in profile ==> r[k] == profile[ProfileKeys[k]]) &&
      (ProfileKeys[k] !in profile ==> r[k] == "-")
  {
    seq(|ProfileKeys|, k requires 0 <= k < |ProfileKeys| =>
      if ProfileKeys[k] in profile then profile[ProfileKeys[k]] else "-")
  }

  /** The request depends only on the six keys: other entries of the profile
      are never shown. */
  lemma ProfileFieldsIgnoreOtherKeys(profile: map<string, string>, key: string, value: string)
    requires key !in ProfileKeys
    ensures ProfileFields(profile[key := value]) == ProfileFields(profile)
  {
  }
}

=== FILE: completion.dfy ===
/**
 What the chat-completion service gives back, and how an image file is
 attached to a request, as far as the callers observe it.

 The service itself (prompts, models, temperature) is not modelled: every
 reply is an input. A reply is either a message whose content may be
 missing, or a failed call (network error, API error, malformed response).
 */
module Completion {
  import opened Text

  datatype Reply = Answered(content: Option<string>) | CallFailed

  /** An image argument: the path as passed (None for null / None), whether
      a file exists there, and whether reading it succeeds. */
  datatype ImageRef = ImageRef(path: Option<string>, onDisk: bool, readable: bool)

  /** What happens to the image when a request is assembled. */
  datatype Attach = Attached | Skipped | Threw

  /** A path is used only when it is truthy: present and non-empty. */
  predicate Truthy(path: Option<string>) {
    path.Some? && path.value != ""
  }

  /** telegram_bot/is_casting_ai.py and telegram_bot/format_casting_template.py:
      a truthy path is opened inside a try block, so a missing or unreadable
      file is skipped and the request goes out with the text alone. */
  function AttachPy(img: ImageRef): (a: Attach)
    ensures a != Threw
    ensures a == Attached <==> Truthy(img.path) && img.onDisk && img.readable
  {
    if Truthy(img.path) && img.onDisk && img.readable then Attached else Skipped
  }

  /** whatsapp_bot/isCastingAI.js and whatsapp_bot/formatCastingTemplate.js:
      the path must be truthy and exist; the file is then read outside any
      try block, so an unreadable file makes the whole call throw. */
  function AttachJs(img: ImageRef): (a: Attach)
    ensures a == Attached <==> Truthy(img.path) && img.onDisk && img.readable
    ensures a == Threw <==> Truthy(img.path) && img.onDisk && !img.readable
  {
    if Truthy(img.path) && img.onDisk then
      if img.readable then Attached else Threw
    else Skipped
  }

  /** The two languages attach the same images; they differ only in that
      JavaScript throws where Python quietly skips. */
  lemma AttachAgrees(img: ImageRef)
    ensures AttachPy(img) == Attached <==> AttachJs(img) == Attached
    ensures AttachJs(img) == Threw ==> AttachPy(img) == Skipped
    ensures AttachJs(img) == Skipped ==> AttachPy(img) == Skipped
  {
  }
}

=== FILE: dedup.dfy ===
/**
 The duplicate-post history of shared/isDuplicateCasting.py and its
 JavaScript twin shared/isDuplicateCasting.js.

 Both keep a JSON list of at most twenty normalised strings on disk. A post
 is a duplicate when one of its strings is already stored, or when a fuzzy
 similarity score against a stored string reaches the threshold; otherwise
 its strings are appended and the list is cut back to its last twenty.

 The two implementations differ in what they store. Python stores one
 fingerprint per post: the normalised text and the normalised OCR text
 joined by " | ". JavaScript stores the non-empty normalised strings
 separately. They also differ when the file cannot be used. Python lets
 every error propagate except a JSON decoding error, which it reads as an
 empty list. JavaScript answers "not a duplicate" and saves nothing when the
 lock or the final write (line 58) fails. A failed read (line 26) shares the
 inner `try` with the JSON parse, so it is read as an empty list like a
 corrupt file, and the new entries then replace the history. Its creation of
 a missing file (lines 15-17) runs before its `try`, so a missing file that
 cannot be created makes the call reject.

 File locking, the JSON encoding and the similarity algorithms
 (difflib's SequenceMatcher, fuzzball's token_set_ratio) are not modelled;
 the similarity scores are parameters.
 */
module Dedup {
  import opened Text
  import opened Normalize

  /** Both implementations keep the last twenty entries. */
  const HistoryLimit: nat := 20
  /** shared/isDuplicateCasting.py: SequenceMatcher ratio in [0, 1]. */
  const PyThreshold: real := 0.90
  /** shared/isDuplicateCasting.js: token_set_ratio percentage. */
  const JsThreshold: int := 90

  /** What reading the history file yields. A missing file is created empty;
      a file that does not parse as JSON is treated as empty. */
  datatype Stored = Missing | Corrupt | Entries(items: seq<string>)

  /** The history file, or the failure to open or lock it. `writable` says
      whether writing it (creating it, when it is missing) succeeds.
      `Unavailable` is a failed open or lock in Python, where a failed read
      raises the same way, and a failed lock in JavaScript. A failed read in
      JavaScript is `Available(Corrupt, _)`: lines 25-30 catch it with the
      parse error. */
  datatype StoreFile =
    | Unavailable
    | Available(stored: Stored, writable: bool)

  /** What one check does: report a duplicate, report a new post and save
      the new history, report a new post without saving anything
      (JavaScript's catch-all), or raise (Python; JavaScript when a missing
      file cannot be created). */
  datatype Outcome = Duplicate | Recorded(history: seq<string>) | Unrecorded | Raised

  /** A post's text and OCR text after normalisation: everything the
      history compares. */
  datatype Key = Key(text: string, ocr: string)

  /** shared/isDuplicateCasting.py lines 11-12: `normalize(text or '')`. */
  function KeyPy(cc: CharClasses, text: Option<string>, ocr: Option<string>): Key {
    Key(NormalizePy(cc, text), NormalizePy(cc, ocr))
  }

  /** shared/isDuplicateCasting.js lines 11-12. */
  function KeyJs(cc: CharClasses, text: Option<string>, ocr: Option<string>): Key {
    Key(NormalizeJs(cc, text), NormalizeJs(cc, ocr))
  }

  /** The list the check starts from. */
  function Seen(st: Stored): (r: seq<string>)
    ensures st.Entries? ==> r == st.items
    ensures !st.Entries? ==> r == []
  {
    if st.Entries? then st.items else []
  }

  /** `xs[-n:]` in Python, `xs.slice(-n)` in JavaScript. */
  function LastN<T>(xs: seq<T>, n: nat): (r: seq<T>)
    ensures |r| <= n && |r| <= |xs|
    ensures |xs| <= n ==> r == xs
    ensures r == xs[|xs| - |r|..]
  {
    if |xs| <= n then xs else xs[|xs| - n..]
  }

  /** Cutting back after every append is the same as cutting back once. */
  lemma LastNAppend<T>(xs: seq<T>, y: T, n: nat)
    requires n > 0
    ensures LastN(LastN(xs, n) + [y], n) == LastN(xs + [y], n)
  {
    var a := LastN(xs, n) + [y];
    var b := xs + [y];
    assert a == xs[|xs| - |LastN(xs, n)|..] + [y];
    assert a == b[|xs| - |LastN(xs, n)|..];
  }

  lemma DistinctSuffix<T>(xs: seq<T>, k: nat)
    requires Distinct(xs) && k <= |xs|
    ensures Distinct(xs[k..])
  {
    var s := xs[k..];
    assert forall i :: 0 <= i < |s| ==> s[i] == xs[k + i];
  }

  // ---------------------------------------------------------------------
  // Python: one fingerprint per post
  // ---------------------------------------------------------------------

  /** shared/isDuplicateCasting.py line 13. */
  function Fingerprint(p: Key): string {
    p.text + " | " + p.ocr
  }

  /** Some stored entry scores at least the threshold against `fp`; the
      stored entry is the first argument of the score. */
  predicate SimilarPy(ratio: (string, string) -> real, seen: seq<string>, fp: string) {
    exists i :: 0 <= i < |seen| && ratio(seen[i], fp) >= PyThreshold
  }

  /** What `is_duplicate_casting` decides, stated declaratively. */
  function DecidePy(ratio: (string, string) -> real, p: Key, file: StoreFile): (r: Outcome)
    ensures r != Unrecorded
    ensures r == Duplicate <==>
      file.Available? && (Fingerprint(p) in Seen(file.stored) || SimilarPy(ratio, Seen(file.stored), Fingerprint(p)))
    ensures r.Recorded? <==> file.Available? && file.writable && r != Duplicate
    ensures r.Recorded? ==>
      && 0 < |r.history| <= HistoryLimit
      && r.history == LastN(Seen(file.stored) + [Fingerprint(p)], HistoryLimit)
      && r.history[|r.history| - 1] == Fingerprint(p)
      && r.history[..|r.history| - 1] == LastN(Seen(file.stored), HistoryLimit - 1)
  {
    match file
    case Unavailable => Raised
    case Available(stored, writable) =>
      var seen := Seen(stored);
      var fp := Fingerprint(p);
      if fp in seen || SimilarPy(ratio, seen, fp) then Duplicate
      else if writable then
        var h := LastN(seen + [fp], HistoryLimit);
        assert h == LastN(seen, HistoryLimit - 1) + [fp];
        Recorded(h)
      else Raised
  }

  /** shared/isDuplicateCasting.py `is_duplicate_casting`: exact membership
      first, then one scan of the stored entries with an early return. */
  method CheckPy(ratio: (string, string) -> real, p: Key, file: StoreFile)
    returns (r: Outcome)
    ensures r == DecidePy(ratio, p, file)
  {
    if file.Unavailable? {
      return Raised;
    }
    var seen := Seen(file.stored);
    var fp := p.text + " | " + p.ocr;
    if fp in seen {
      return Duplicate;
    }
    var i := 0;
    while i < |seen|
      invariant 0 <= i <= |seen|
      invariant forall j :: 0 <= j < i ==> ratio(seen[j], fp) < PyThreshold
    {
      if ratio(seen[i], fp) >= PyThreshold {
        return Duplicate;
      }
      i := i + 1;
    }
    if !file.writable {
      return Raised;
    }
    return Recorded(LastN(seen + [fp], HistoryLimit));
  }

  /** " | " splits back into its two halves when the left half has no '|'. */
  lemma Unpipe(x: string, y: string, x': string, y': string)
    requires '|' !in x && '|' !in x'
    requires x + " | " + y == x' + " | " + y'
    ensures x == x' && y == y'
  {
    var s := x + " | " + y;
    var s' := x' + " | " + y';
    assert s[|x| + 1] == '|' && s'[|x'| + 1] == '|';
    assert forall i :: 0 <= i <= |x| ==> s[i] != '|';
    assert forall i :: 0 <= i <= |x'| ==> s'[i] != '|';
    assert |x| == |x'|;
    assert x == s[..|x|] && x' == s[..|x'|];
    assert y == s[|x| + 3..] && y' == s[|x'| + 3..];
  }

  /** The Python fingerprint determines both normalised parts: the separator
      cannot occur inside a normalised string. */
  lemma FingerprintInjective(cc: CharClasses, text: Option<string>, ocr: Option<string>,
                             text': Option<string>, ocr': Option<string>)
    requires WellFormed(cc)
    requires Fingerprint(KeyPy(cc, text, ocr)) == Fingerprint(KeyPy(cc, text', ocr'))
    ensures KeyPy(cc, text, ocr) == KeyPy(cc, text', ocr')
  {
    var p := KeyPy(cc, text, ocr);
    var q := KeyPy(cc, text', ocr');
    NormalizeHasNoBar(cc, text);
    NormalizeHasNoBar(cc, text');
    Unpipe(p.text, p.ocr, q.text, q.ocr);
  }

  lemma NormalizeHasNoBar(cc: CharClasses, t: Option<string>)
    requires WellFormed(cc)
    ensures '|' !in NormalizePy(cc, t)
  {
    if t.Some? && t.value != "" {
      PipelineShape(cc, t.value);
      var r := NormalizePy(cc, t);
      assert IsPunctuation('|');
      assert forall i :: 0 <= i < |r| ==> r[i] != '|';
    }
  }

  /** Checking a post again right after it was recorded finds it, whatever
      the similarity scores. */
  lemma RepeatIsDuplicatePy(ratio: (string, string) -> real, ratio': (string, string) -> real,
                            p: Key, file: StoreFile, w: bool)
    requires DecidePy(ratio, p, file).Recorded?
    ensures DecidePy(ratio', p, Available(Entries(DecidePy(ratio, p, file).history), w)) == Duplicate
  {
    var h := DecidePy(ratio, p, file).history;
    assert h[|h| - 1] == Fingerprint(p);
  }

  /** Two posts with neither text nor OCR text share the fingerprint " | ":
      after one is recorded, every later one is a duplicate. */
  lemma EmptyPostsCollide(cc: CharClasses, ratio: (string, string) -> real, text: Option<string>, ocr: Option<string>,
                          file: StoreFile, w: bool)
    requires text.GetOr("") == "" && ocr.GetOr("") == ""
    requires DecidePy(ratio, KeyPy(cc, None, None), file).Recorded?
    ensures DecidePy(ratio, KeyPy(cc, text, ocr),
                     Available(Entries(DecidePy(ratio, KeyPy(cc, None, None), file).history), w)) == Duplicate
  {
    assert KeyPy(cc, text, ocr) == Key("", "") == KeyPy(cc, None, None);
    RepeatIsDuplicatePy(ratio, ratio, KeyPy(cc, None, None), file, w);
  }

  /** A history that is unreadable JSON is replaced by the one new entry. */
  lemma CorruptHistoryResetPy(ratio: (string, string) -> real, p: Key)
    ensures DecidePy(ratio, p, Available(Corrupt, true)) == Recorded([Fingerprint(p)])
  {
    var fp := Fingerprint(p);
    assert Seen(Corrupt) == [];
    assert !SimilarPy(ratio, [], fp);
    assert LastN([] + [fp], HistoryLimit) == [fp];
  }

  /** The fingerprints of a sequence of posts, in order. */
  function Fingerprints(posts: seq<Key>): (r: seq<string>)
    ensures |r| == |posts|
    ensures forall k :: 0 <= k < |posts| ==> r[k] == Fingerprint(posts[k])
  {
    seq(|posts|, k requires 0 <= k < |posts| => Fingerprint(posts[k]))
  }

  /** A recorded history holds only old entries and the new fingerprint. */
  lemma RecordedEntriesPy(ratio: (string, string) -> real, p: Key, h: seq<string>)
    requires DecidePy(ratio, p, Available(Entries(h), true)).Recorded?
    ensures forall x :: x in DecidePy(ratio, p, Available(Entries(h), true)).history ==> x in h || x == Fingerprint(p)
  {
    var hs := DecidePy(ratio, p, Available(Entries(h), true)).history;
    var n := LastN(h, HistoryLimit - 1);
    assert hs[..|hs| - 1] == n && hs[|hs| - 1] == Fingerprint(p);
    assert hs == n + [Fingerprint(p)];
    assert forall x :: x in n ==> x in h;
  }

  /** The history after one Python check on a writable file: the saved
      history, or the old one when the post was a duplicate. */
  function StepPy(ratio: (string, string) -> real, p: Key, h: seq<string>): (h': seq<string>)
    ensures |h| <= HistoryLimit ==> |h'| <= HistoryLimit
    ensures forall x :: x in h' ==> x in h || x == Fingerprint(p)
    ensures Distinct(h) ==> Distinct(h')
  {
    var o := DecidePy(ratio, p, Available(Entries(h), true));
    if o.Recorded? then
      RecordedEntriesPy(ratio, p, h);
      assert Distinct(h) ==> Distinct(o.history) by {
        if Distinct(h) {
          RecordedDistinctPy(ratio, p, h);
        }
      }
      o.history
    else h
  }

  /** The history after a sequence of Python checks on a writable file. */
  function ReplayPy(ratio: (string, string) -> real, posts: seq<Key>, h: seq<string>): (r: seq<string>)
    ensures |h| <= HistoryLimit ==> |r| <= HistoryLimit
    ensures forall x :: x in r ==> x in h || x in Fingerprints(posts)
    decreases |posts|
  {
    if posts == [] then h
    else
      assert Fingerprints(posts) == [Fingerprint(posts[0])] + Fingerprints(posts[1..]);
      ReplayPy(ratio, posts[1..], StepPy(ratio, posts[0], h))
  }

  /** One recorded Python check keeps a repeat-free history repeat-free. */
  lemma RecordedDistinctPy(ratio: (string, string) -> real, p: Key, h: seq<string>)
    requires Distinct(h)
    requires DecidePy(ratio, p, Available(Entries(h), true)).Recorded?
    ensures Distinct(DecidePy(ratio, p, Available(Entries(h), true)).history)
  {
    var hs := DecidePy(ratio, p, Available(Entries(h), true)).history;
    var fp := Fingerprint(p);
    var n := LastN(h, HistoryLimit - 1);
    DistinctSuffix(h, |h| - |n|);
    assert fp !in n;
    assert hs[..|hs| - 1] == n && hs[|hs| - 1] == fp;
    assert hs == n + [fp];
  }

  /** The Python history never holds the same fingerprint twice. */
  lemma {:induction false} ReplayPyDistinct(ratio: (string, string) -> real, posts: seq<Key>, h: seq<string>)
    requires Distinct(h)
    ensures Distinct(ReplayPy(ratio, posts, h))
    decreases |posts|
  {
    if posts != [] {
      ReplayPyDistinct(ratio, posts[1..], StepPy(ratio, posts[0], h));
    }
  }

  // ---------------------------------------------------------------------
  // JavaScript: the non-empty normalised strings, stored separately
  // ---------------------------------------------------------------------

  /** shared/isDuplicateCasting.js lines 11-13: `[normText, normOcr].filter(Boolean)`. */
  function EntriesJs(p: Key): (r: seq<string>)
    ensures |r| <= 2
    ensures forall k :: 0 <= k < |r| ==> r[k] != ""
    ensures p.text != "" ==> |r| > 0 && r[0] == p.text
    ensures p.ocr != "" ==> |r| > 0 && r[|r| - 1] == p.ocr
    ensures forall x :: x in r <==> x != "" && (x == p.text || x == p.ocr)
  {
    var t := p.text;
    var o := p.ocr;
    (if t != "" then [t] else []) + (if o != "" then [o] else [])
  }

  /** Lines 52-56: push every candidate the list does not already hold. */
  function AppendNew(seen: seq<string>, items: seq<string>): (r: seq<string>)
    ensures |seen| <= |r| <= |seen| + |items|
    ensures r[..|seen|] == seen
    ensures forall x :: x in r <==> x in seen || x in items
    ensures Distinct(seen) ==> Distinct(r)
    decreases |items|
  {
    if items == [] then seen
    else
      var next := if items[0] in seen then seen else seen + [items[0]];
      var r := AppendNew(next, items[1..]);
      assert next[..|seen|] == seen;
      assert forall x :: x in items ==> x == items[0] || x in items[1..];
      assert forall x :: x in items[1..] ==> x in items;
      r
  }

  /** Pushing a batch is pushing its first part, then the rest: the
      candidates are taken in order. */
  lemma {:induction false} AppendNewAppend(seen: seq<string>, a: seq<string>, b: seq<string>)
    ensures AppendNew(seen, a + b) == AppendNew(AppendNew(seen, a), b)
    decreases |a|
  {
    if a == [] {
      assert a + b == b;
    } else {
      assert (a + b)[0] == a[0] && (a + b)[1..] == a[1..] + b;
      var next := if a[0] in seen then seen else seen + [a[0]];
      AppendNewAppend(next, a[1..], b);
    }
  }

  /** One candidate is pushed at the end exactly when the list lacks it. */
  lemma AppendNewOne(seen: seq<string>, x: string)
    ensures AppendNew(seen, [x]) == if x in seen then seen else seen + [x]
  {
    assert [x][1..] == [];
  }

  predicate SimilarJs(ratio: (string, string) -> int, seen: seq<string>, items: seq<string>) {
    exists i, k :: 0 <= i < |seen| && 0 <= k < |items| && ratio(seen[i], items[k]) >= JsThreshold
  }

  /** What `isDuplicateCasting` decides, stated declaratively. */
  function DecideJs(ratio: (string, string) -> int, p: Key, file: StoreFile): (r: Outcome)
    ensures r == Raised <==> file == Available(Missing, false)
    ensures r == Duplicate <==>
      file.Available? &&
      ((exists k :: 0 <= k < |EntriesJs(p)| && EntriesJs(p)[k] in Seen(file.stored)) ||
       SimilarJs(ratio, Seen(file.stored), EntriesJs(p)))
    ensures r.Recorded? <==> file.Available? && file.writable && r != Duplicate
    ensures r.Recorded? ==>
      && |r.history| <= HistoryLimit
      && r.history == LastN(AppendNew(Seen(file.stored), EntriesJs(p)), HistoryLimit)
      && forall k :: 0 <= k < |EntriesJs(p)| ==> EntriesJs(p)[k] in r.history
  {
    match file
    case Unavailable => Unrecorded
    case Available(stored, writable) =>
      var seen := Seen(stored);
      var items := EntriesJs(p);
      if stored == Missing && !writable then Raised
      else if (exists k :: 0 <= k < |items| && items[k] in seen) || SimilarJs(ratio, seen, items) then Duplicate
      else if writable then
        NewEntriesKept(seen, items);
        Recorded(LastN(AppendNew(seen, items), HistoryLimit))
      else Unrecorded
  }

  /** Cutting the history back never drops the (at most two) candidates
      just appended. */
  lemma NewEntriesKept(seen: seq<string>, items: seq<string>)
    requires forall k :: 0 <= k < |items| ==> items[k] !in seen
    requires |items| <= 2
    ensures forall k :: 0 <= k < |items| ==> items[k] in LastN(AppendNew(seen, items), HistoryLimit)
  {
    var all := AppendNew(seen, items);
    NewEntriesAtEnd(seen, items);
    var h := LastN(all, HistoryLimit);
    assert |all| - |h| <= |seen|;
    assert all[|seen|..] == h[|seen| - (|all| - |h|)..];
  }

  /** When no candidate is stored yet, every candidate is appended at the end. */
  lemma {:induction false} NewEntriesAtEnd(seen: seq<string>, items: seq<string>)
    requires forall k :: 0 <= k < |items| ==> items[k] !in seen
    requires |items| <= 2
    ensures |AppendNew(seen, items)| <= |seen| + 2
    ensures forall k :: 0 <= k < |items| ==> items[k] in AppendNew(seen, items)[|seen|..]
    decreases |items|
  {
    var all := AppendNew(seen, items);
    if items != [] {
      var next := seen + [items[0]];
      assert forall k :: 0 <= k < |items[1..]| ==> items[1..][k] == items[k + 1];
      if |items| == 2 && items[1] == items[0] {
        assert AppendNew(next, items[1..]) == next;
      } else {
        NewEntriesAtEnd(next, items[1..]);
      }
      assert all[..|next|] == next;
      assert all[|seen|] == items[0];
      assert forall x :: x in all[|next|..] ==> x in all[|seen|..];
    }
  }

  /** shared/isDuplicateCasting.js `isDuplicateCasting`: exact check over the
      candidates, then a nested scan stored-entry by candidate, then append. */
  method CheckJs(ratio: (string, string) -> int, p: Key, file: StoreFile)
    returns (r: Outcome)
    ensures r == DecideJs(ratio, p, file)
  {
    if file.Unavailable? {
      return Unrecorded;
    }
    if file.stored == Missing && !file.writable {
      return Raised;
    }
    var seen := Seen(file.stored);
    var items := EntriesJs(p);
    var found := ScanJs(ratio, seen, items);
    if found {
      r := Duplicate;
    } else if !file.writable {
      r := Unrecorded;
    } else {
      var all := AppendNew(seen, items);
      r := Recorded(LastN(all, HistoryLimit));
    }
    DecideJsAfterScan(ratio, p, file, found, r);
  }

  /** What `DecideJs` answers once the file is usable and the scan is done. */
  lemma DecideJsAfterScan(ratio: (string, string) -> int, p: Key, file: StoreFile, found: bool, r: Outcome)
    requires file.Available? && !(file.stored == Missing && !file.writable)
    requires var seen := Seen(file.stored);
      found <==> (exists k :: 0 <= k < |EntriesJs(p)| && EntriesJs(p)[k] in seen) || SimilarJs(ratio, seen, EntriesJs(p))
    requires r == if found then Duplicate
      else if !file.writable then Unrecorded
      else Recorded(LastN(AppendNew(Seen(file.stored), EntriesJs(p)), HistoryLimit))
    ensures r == DecideJs(ratio, p, file)
  {
  }

  /** Lines 32-49: the exact scan over the candidates, then the nested fuzzy
      scan over (stored entry, candidate) pairs, each stopping at the first
      hit. */
  method ScanJs(ratio: (string, string) -> int, seen: seq<string>, items: seq<string>)
    returns (found: bool)
    ensures found <==> (exists k :: 0 <= k < |items| && items[k] in seen) || SimilarJs(ratio, seen, items)
  {
    var k := 0;
    while k < |items|
      invariant 0 <= k <= |items|
      invariant forall m :: 0 <= m < k ==> items[m] !in seen
    {
      if items[k] in seen {
        return true;
      }
      k := k + 1;
    }
    var i := 0;
    while i < |seen|
      invariant 0 <= i <= |seen|
      invariant forall a, b :: 0 <= a < i && 0 <= b < |items| ==> ratio(seen[a], items[b]) < JsThreshold
    {
      var j := 0;
      while j < |items|
        invariant 0 <= j <= |items|
        invariant forall b :: 0 <= b < j ==> ratio(seen[i], items[b]) < JsThreshold
      {
        if ratio(seen[i], items[j]) >= JsThreshold {
          return true;
        }
        j := j + 1;
      }
      i := i + 1;
    }
    return false;
  }

  /** A post with no text left after normalising is never a duplicate in
      JavaScript: it is recorded as nothing, and the stored list is only cut
      back to its last twenty. */
  lemma EmptyPostsPassJs(ratio: (string, string) -> int, p: Key, stored: Stored)
    requires p.text == "" && p.ocr == ""
    ensures DecideJs(ratio, p, Available(stored, true)) == Recorded(LastN(Seen(stored), HistoryLimit))
  {
    var items := EntriesJs(p);
    assert items == [];
    assert !SimilarJs(ratio, Seen(stored), items);
    assert AppendNew(Seen(stored), items) == Seen(stored);
  }

  /** A stored text makes the post a duplicate in JavaScript whatever its OCR
      text, while Python compares the combined fingerprint. */
  lemma StoredTextIsDuplicateJs(ratio: (string, string) -> int, p: Key, stored: Stored, w: bool)
    requires p.text != "" && p.text in Seen(stored)
    ensures DecideJs(ratio, p, Available(stored, w)) == Duplicate
  {
    assert EntriesJs(p)[0] == p.text;
  }

  /** Checking a post again right after it was recorded finds it, provided it
      had text to record. */
  lemma RepeatIsDuplicateJs(ratio: (string, string) -> int, ratio': (string, string) -> int,
                            p: Key, file: StoreFile, w: bool)
    requires DecideJs(ratio, p, file).Recorded?
    requires EntriesJs(p) != []
    ensures DecideJs(ratio', p, Available(Entries(DecideJs(ratio, p, file).history), w)) == Duplicate
  {
    var h := DecideJs(ratio, p, file).history;
    assert EntriesJs(p)[0] in h;
  }

  /** The JavaScript history never holds the same string twice. */
  lemma DecideJsDistinct(ratio: (string, string) -> int, p: Key, h: seq<string>, w: bool)
    requires Distinct(h)
    requires DecideJs(ratio, p, Available(Entries(h), w)).Recorded?
    ensures Distinct(DecideJs(ratio, p, Available(Entries(h), w)).history)
  {
    var all := AppendNew(h, EntriesJs(p));
    var r := LastN(all, HistoryLimit);
    DistinctSuffix(all, |all| - |r|);
  }
}

=== FILE: formatter.dfy ===
/**
 The template formatter (telegram_bot/format_casting_template.py and
 whatsapp_bot/formatCastingTemplate.js): ask the completion service to
 rewrite a casting into the fixed template, up to ten times, until the
 answer is non-empty and contains no refusal marker.

 Every call's reply is an input: `replies(k)` is what the k-th call (from 0)
 returns. The prompt and the template itself are not modelled.
 */
module Formatter {
  import opened Text
  import opened Completion

  const MaxAttempts: nat := 10

  /** telegram_bot/format_casting_template.py lines 11-21. */
  const PyMarkers: seq<string> := [
    "i'm sorry", "im sorry", "sorry", "i cannot", "i can't", "i wont", "i won't",
    "i am unable", "i'm unable", "unable to", "not able to", "as an ai", "i am an ai",
    "i cannot help", "can't help", "i cannot provide", "i can't provide",
    "this content is not allowed", "cannot comply", "i must refuse",
    "извините", "извиняюсь", "простите", "к сожалению",
    "не могу", "не смогу", "не буду", "я не могу", "я не буду",
    "я не имею права", "не имею права", "не могу помочь", "не могу предоставить"]

  /** whatsapp_bot/formatCastingTemplate.js lines 10-19. */
  const JsMarkers: seq<string> := [
    "i'm sorry", "im sorry", "sorry", "i cannot", "i can't", "i wont", "i won't",
    "i am unable", "i'm unable", "unable to", "not able to", "as an ai",
    "cannot comply", "i must refuse", "policy", "cannot help", "can't help",
    "извините", "извиняюсь", "простите", "к сожалению",
    "не могу", "не смогу", "не буду", "я не могу", "я не буду",
    "я не имею права", "не имею права", "не могу помочь", "не могу предоставить"]

  /** What distinguishes the two implementations: their marker lists, and
      whether a reply without content raises (Python: `None.strip()`, caught
      by the handler that returns the original text) or reads as "" (JavaScript:
      `content || ""`, a refusal that is retried). */
  datatype Dialect = Dialect(markers: seq<string>, missingRaises: bool)

  const Py: Dialect := Dialect(PyMarkers, true)
  const Js: Dialect := Dialect(JsMarkers, false)

  /** What the loop does with one reply. */
  datatype Judgement = Accept(result: string) | Refuse | Abort

  /** The body of one attempt: a failed call aborts; otherwise the stripped
      content is accepted unless it is empty or its lower-case form contains
      a marker. */
  function Judge(cc: CharClasses, d: Dialect, reply: Reply): (j: Judgement)
  {
    match reply
    case CallFailed => Abort
    case Answered(None) => if d.missingRaises then Abort else Refuse
    case Answered(Some(s)) =>
      var result := Strip(cc, s);
      if result == "" || ContainsAny(Lower(cc, result), d.markers) then Refuse else Accept(result)
  }

  /** A failed call aborts, and so does a missing content in Python; an
      accepted answer is the stripped content, non-empty and free of markers;
      a refused content is empty after stripping or holds a marker. */
  lemma JudgeMeaning(cc: CharClasses, d: Dialect, reply: Reply)
    ensures var j := Judge(cc, d, reply);
      && (j == Abort <==> reply.CallFailed? || (d.missingRaises && reply.content.None?))
      && (j.Accept? ==>
            && reply.Answered? && reply.content.Some?
            && j.result == Strip(cc, reply.content.value)
            && j.result != ""
            && !ContainsAny(Lower(cc, j.result), d.markers))
      && (j == Refuse && reply.Answered? && reply.content.Some? ==>
            Strip(cc, reply.content.value) == "" || ContainsAny(Lower(cc, Strip(cc, reply.content.value)), d.markers))
  {
  }

  /** The formatted text and how many calls it took. */
  datatype Formatted = Formatted(text: string, calls: nat)

  /** The retry loop over the judgements of successive replies, from attempt
      `attempt` (numbered from 1) to `MaxAttempts`. */
  function Loop(text: string, judged: nat -> Judgement, attempt: nat): (r: Formatted)
    requires 1 <= attempt <= MaxAttempts + 1
    ensures attempt - 1 <= r.calls <= MaxAttempts && 1 <= r.calls
    ensures forall k :: attempt - 1 <= k < r.calls - 1 ==> judged(k) == Refuse
    ensures r.calls < MaxAttempts ==> judged(r.calls - 1) != Refuse
    ensures judged(r.calls - 1).Accept? && r.calls >= attempt ==> r.text == judged(r.calls - 1).result
    ensures !(judged(r.calls - 1).Accept? && r.calls >= attempt) ==> r.text == text
    decreases MaxAttempts + 1 - attempt
  {
    if attempt > MaxAttempts then Formatted(text, MaxAttempts)
    else match judged(attempt - 1)
      case Accept(t) => Formatted(t, attempt)
      case Abort => Formatted(text, attempt)
      case Refuse => Loop(text, judged, attempt + 1)
  }

  function Judgements(cc: CharClasses, d: Dialect, replies: nat -> Reply): (judged: nat -> Judgement)
    ensures forall k :: judged(k) == Judge(cc, d, replies(k))
  {
    (k: nat) => Judge(cc, d, replies(k))
  }

  /** The whole retry loop: between one and ten calls; every call before the
      last was refused; the answer is the last reply's accepted content, or
      the original text when the last reply was refused or the call failed. */
  function Format(cc: CharClasses, d: Dialect, text: string, replies: nat -> Reply): (r: Formatted)
    ensures 1 <= r.calls <= MaxAttempts
    ensures forall k :: 0 <= k < r.calls - 1 ==> Judge(cc, d, replies(k)) == Refuse
    ensures r.calls < MaxAttempts ==> Judge(cc, d, replies(r.calls - 1)) != Refuse
    ensures Judge(cc, d, replies(r.calls - 1)).Accept? ==> r.text == Judge(cc, d, replies(r.calls - 1)).result
    ensures !Judge(cc, d, replies(r.calls - 1)).Accept? ==> r.text == text
  {
    Loop(text, Judgements(cc, d, replies), 1)
  }

  /** whatsapp_bot/formatCastingTemplate.js: an image that exists but cannot
      be read makes the call throw before the loop. */
  function FormatJs(cc: CharClasses, img: ImageRef, text: string, replies: nat -> Reply): (r: Option<Formatted>)
    ensures r == None <==> AttachJs(img) == Threw
    ensures r.Some? ==> r.value == Format(cc, Js, text, replies)
  {
    if AttachJs(img) == Threw then None else Some(Format(cc, Js, text, replies))
  }

  /** The result is either the original text or an accepted answer: never
      empty unless the original was, and never containing a marker. */
  lemma FormatResult(cc: CharClasses, d: Dialect, text: string, replies: nat -> Reply)
    ensures var r := Format(cc, d, text, replies);
      r.text == text || (r.text != "" && !ContainsAny(Lower(cc, r.text), d.markers))
  {
    var r := Format(cc, d, text, replies);
    JudgeMeaning(cc, d, replies(r.calls - 1));
  }

  /** When every remaining reply is refused, the loop runs to the last
      attempt and gives back the original text. */
  lemma {:induction false} RefusalsExhaust(text: string, judged: nat -> Judgement, attempt: nat)
    requires 1 <= attempt <= MaxAttempts + 1
    requires forall k :: attempt - 1 <= k < MaxAttempts ==> judged(k) == Refuse
    ensures Loop(text, judged, attempt) == Formatted(text, MaxAttempts)
    decreases MaxAttempts + 1 - attempt
  {
    if attempt <= MaxAttempts {
      RefusalsExhaust(text, judged, attempt + 1);
    }
  }

  /** A run of refusals followed by an acceptance takes exactly one call per
      reply, up to the tenth. */
  lemma {:induction false} AcceptAfterRefusals(text: string, judged: nat -> Judgement, attempt: nat, n: nat, t: string)
    requires 1 <= attempt <= n <= MaxAttempts
    requires forall k :: attempt - 1 <= k < n - 1 ==> judged(k) == Refuse
    requires judged(n - 1) == Accept(t)
    ensures Loop(text, judged, attempt) == Formatted(t, n)
    decreases n - attempt
  {
    if attempt < n {
      AcceptAfterRefusals(text, judged, attempt + 1, n, t);
    }
  }

  /** A service that keeps answering without content: Python gives up after
      the first call, JavaScript spends all ten attempts. Both return the
      original text. */
  lemma MissingContentDiffers(cc: CharClasses, text: string, replies: nat -> Reply)
    requires forall k :: replies(k) == Answered(None)
    ensures Format(cc, Py, text, replies) == Formatted(text, 1)
    ensures Format(cc, Js, text, replies) == Formatted(text, MaxAttempts)
  {
    RefusalsExhaust(text, Judgements(cc, Js, replies), 1);
  }

  /** "policy" is a refusal marker only in JavaScript. */
  lemma PolicyOnlyInJs()
    ensures "policy" in JsMarkers && "policy" !in PyMarkers
  {
    assert JsMarkers[14] == "policy";
  }

  /** An answer that mentions a policy is always retried in JavaScript. */
  lemma JsRefusesPolicy(cc: CharClasses, s: string)
    requires Contains(Lower(cc, Strip(cc, s)), "policy")
    ensures Judge(cc, Js, Answered(Some(s))) == Refuse
  {
    var h := Lower(cc, Strip(cc, s));
    assert JsMarkers[14] == "policy";
    ContainsAnyAt(h, JsMarkers, 14);
  }
}

=== FILE: ingest.dfy ===
/**
 What the two mirrors (telegram_bot/mirror.py and whatsapp_bot/whatsapp_mirror.js)
 have in common: the fixed order in which a message meets the external
 services, and what became of it.
 */
module Ingest {

  /** The services a mirror consults, in order: the classifier, the
      duplicate history, the template formatter, the Bot API. */
  datatype Stage = Classify | CheckHistory | Template | Send

  const Stages: seq<Stage> := [Classify, CheckHistory, Template, Send]

  /** Why a message was not posted. `Crashed`: the handler raised (or its
      promise rejected). `SendFailed`: the Bot API request failed and the
      handler caught and logged the failure. */
  datatype Stop = Filtered | NotCasting | Repeated | Crashed | SendFailed

  datatype Result = Stopped(why: Stop) | Posted(message: string, withPhoto: bool)

  /** What one message led to, how many of `Stages` were consulted, and
      whether a downloaded image is still on disk afterwards. */
  datatype Run = Run(outcome: Result, reached: nat, leftover: bool)
}

=== FILE: normalize.dfy ===
/**
 The text normaliser of shared/normalize.py and its JavaScript twin
 shared/normalize.js: lower-case, drop `@handle` mentions, drop everything
 that is not a letter, number or white space, turn every run of digits into
 one `#`, turn every run of white space into one space, trim.

 Both implementations run the same five rewrites. They differ in what `\d`
 means (Unicode decimal digits in Python's regex module, ASCII digits in a
 JavaScript regular expression without the `u` flag), in what `\s` and the
 final trim treat as white space (Python's and JavaScript's white-space sets
 are not the same: U+FEFF is white space only to JavaScript, U+0085 and
 U+001C-U+001F only to Python) and in how a missing argument is treated.
 */
module Normalize {
  import opened Text

  /** `[a-z0-9_]`, the characters of a handle after `@`. */
  predicate IsHandleChar(c: char) {
    'a' <= c <= 'z' || '0' <= c <= '9' || c == '_'
  }

  /** `re.sub(r'@[a-z0-9_]+', '', s)`: scanning left to right, an `@` that is
      followed by a handle character is removed together with the longest run
      of handle characters after it; any other character is kept. */
  function StripHandles(s: string): (r: string)
    ensures |r| <= |s|
    decreases |s|
  {
    if |s| == 0 then ""
    else if s[0] == '@' && |s| > 1 && IsHandleChar(s[1]) then
      StripHandles(DropWhile(s[1..], IsHandleChar))
    else
      [s[0]] + StripHandles(s[1..])
  }

  /** Handle removal only deletes characters. */
  lemma {:induction false} StripHandlesChars(s: string)
    ensures forall i :: 0 <= i < |StripHandles(s)| ==> StripHandles(s)[i] in s
    decreases |s|
  {
    if |s| > 0 {
      if s[0] == '@' && |s| > 1 && IsHandleChar(s[1]) {
        var rest := DropWhile(s[1..], IsHandleChar);
        StripHandlesChars(rest);
        assert forall i :: 0 <= i < |rest| ==> rest[i] == s[|s| - |rest| + i];
      } else {
        StripHandlesChars(s[1..]);
      }
    }
  }

  /** A string without `@` has no handle to remove. */
  lemma {:induction false} StripHandlesWithoutAt(s: string)
    requires '@' !in s
    ensures StripHandles(s) == s
    decreases |s|
  {
    if |s| > 0 {
      assert '@' !in s[1..];
      StripHandlesWithoutAt(s[1..]);
      assert [s[0]] + s[1..] == s;
    }
  }

  /** Handle removal works piecewise across a boundary that does not split a
      run of handle characters. */
  lemma {:induction false} StripHandlesAppend(a: string, b: string)
    requires |b| == 0 || !IsHandleChar(b[0])
    ensures StripHandles(a + b) == StripHandles(a) + StripHandles(b)
    decreases |a|, 1
  {
    if |a| == 0 {
      assert a + b == b;
    } else if a[0] == '@' && |a| > 1 && IsHandleChar(a[1]) {
      StripHandlesAppendMention(a, b);
    } else {
      StripHandlesAppendPlain(a, b);
    }
  }

  lemma {:induction false} StripHandlesAppendMention(a: string, b: string)
    requires |b| == 0 || !IsHandleChar(b[0])
    requires |a| > 1 && a[0] == '@' && IsHandleChar(a[1])
    ensures StripHandles(a + b) == StripHandles(a) + StripHandles(b)
    decreases |a|, 0
  {
    var rest := DropWhile(a[1..], IsHandleChar);
    var joined := DropWhile(a[1..] + b, IsHandleChar);
    assert StripHandles(a + b) == StripHandles(joined) by {
      var s := a + b;
      TailAppend(a, b);
      assert s[1] == a[1];
      StripHandlesMentionStep(s);
    }
    assert StripHandles(a) == StripHandles(rest) by {
      StripHandlesMentionStep(a);
    }
    if rest == "" {
      assert joined == b by {
        DropWhileAppend(a[1..], b, IsHandleChar);
        assert DropWhile(b, IsHandleChar) == b;
      }
      assert StripHandles(rest) == "";
    } else {
      assert joined == rest + b by {
        DropWhileAppend(a[1..], b, IsHandleChar);
      }
      StripHandlesAppend(rest, b);
    }
  }

  /** A mention at the front goes with all of its handle characters. */
  lemma StripHandlesMentionStep(s: string)
    requires |s| > 1 && s[0] == '@' && IsHandleChar(s[1])
    ensures StripHandles(s) == StripHandles(DropWhile(s[1..], IsHandleChar))
  {
  }

  /** A character that does not start a mention is kept. */
  lemma StripHandlesPlainStep(s: string)
    requires |s| > 0 && !(s[0] == '@' && |s| > 1 && IsHandleChar(s[1]))
    ensures StripHandles(s) == [s[0]] + StripHandles(s[1..])
  {
  }

  lemma {:induction false} StripHandlesAppendPlain(a: string, b: string)
    requires |b| == 0 || !IsHandleChar(b[0])
    requires |a| > 0 && !(a[0] == '@' && |a| > 1 && IsHandleChar(a[1]))
    ensures StripHandles(a + b) == StripHandles(a) + StripHandles(b)
    decreases |a|, 0
  {
    PlainFront(a, b);
    StripHandlesPlainStep(a);
    StripHandlesAppend(a[1..], b);
    ConcatAssoc([a[0]], StripHandles(a[1..]), StripHandles(b));
  }

  /** A plain first character of `a` stays plain in front of `b`. */
  lemma PlainFront(a: string, b: string)
    requires |b| == 0 || !IsHandleChar(b[0])
    requires |a| > 0 && !(a[0] == '@' && |a| > 1 && IsHandleChar(a[1]))
    ensures StripHandles(a + b) == [a[0]] + StripHandles(a[1..] + b)
  {
    var s := a + b;
    TailAppend(a, b);
    if |a| > 1 {
      assert s[1] == a[1];
    } else if |b| > 0 {
      assert s[1] == b[0];
    }
    StripHandlesPlainStep(s);
  }

  /** An `@` followed by a handle is removed together with the whole handle,
      wherever it stands. */
  lemma {:induction false} StripHandlesRemovesMention(before: string, handle: string, after: string)
    requires |handle| > 0 && forall i :: 0 <= i < |handle| ==> IsHandleChar(handle[i])
    requires |after| == 0 || !IsHandleChar(after[0])
    ensures StripHandles(before + ['@'] + handle + after) == StripHandles(before) + StripHandles(after)
  {
    var mention := ['@'] + (handle + after);
    assert before + ['@'] + handle + after == before + mention;
    StripHandlesAppend(before, mention);
    assert mention[0] == '@' && mention[1] == handle[0];
    assert mention[1..] == handle + after;
    DropWhilePrefix(handle, after, IsHandleChar);
    assert DropWhile(after, IsHandleChar) == after;
    calc {
      StripHandles(mention);
      StripHandles(DropWhile(mention[1..], IsHandleChar));
      StripHandles(DropWhile(handle + after, IsHandleChar));
      StripHandles(after);
    }
  }

  predicate IsWordChar(cc: CharClasses, c: char) {
    cc.isLetter(c) || cc.isNumber(c) || cc.isSpace(c)
  }

  /** `re.sub(r'[^\p{L}\p{N}\s]+', '', s)`: keeps exactly the letters, numbers
      and white-space characters, in order. */
  function DropPunctuation(cc: CharClasses, s: string): (r: string)
    ensures |r| <= |s|
    ensures forall i :: 0 <= i < |r| ==> IsWordChar(cc, r[i]) && r[i] in s
    ensures forall i :: 0 <= i < |s| && IsWordChar(cc, s[i]) ==> s[i] in r
    ensures r == Filter(s, c => IsWordChar(cc, c))
    decreases |s|
  {
    if |s| == 0 then ""
    else if IsWordChar(cc, s[0]) then [s[0]] + DropPunctuation(cc, s[1..])
    else DropPunctuation(cc, s[1..])
  }

  /** The substitution works on each part of a string independently: what
      survives of `a + b` is what survives of `a` followed by what survives
      of `b`. */
  lemma DropPunctuationAppend(cc: CharClasses, a: string, b: string)
    ensures DropPunctuation(cc, a + b) == DropPunctuation(cc, a) + DropPunctuation(cc, b)
  {
    FilterAppend(a, b, c => IsWordChar(cc, c));
  }

  /** One character survives exactly when it is a letter, number or white space. */
  lemma DropPunctuationOne(cc: CharClasses, c: char)
    ensures DropPunctuation(cc, [c]) == if IsWordChar(cc, c) then [c] else []
  {
    FilterOne(c, c => IsWordChar(cc, c));
  }

  /** `re.sub(P + '+', c, s)`: every maximal run of characters satisfying `p`
      becomes the single character `c`; other characters are copied. */
  function CollapseRuns(s: string, p: char -> bool, c: char): (r: string)
    ensures |r| <= |s|
    ensures |s| > 0 ==> |r| > 0 && r[0] == (if p(s[0]) then c else s[0])
    decreases |s|
  {
    if |s| == 0 then ""
    else if p(s[0]) then [c] + CollapseRuns(DropWhile(s, p), p, c)
    else [s[0]] + CollapseRuns(s[1..], p, c)
  }

  ghost predicate NoDoubled(s: string, d: char) {
    forall i :: 0 <= i < |s| - 1 ==> !(s[i] == d && s[i + 1] == d)
  }

  /** After collapsing, every character is either `c` or a character of the
      input outside the class. */
  lemma {:induction false} CollapseRunsChars(s: string, p: char -> bool, c: char)
    ensures forall i :: 0 <= i < |CollapseRuns(s, p, c)| ==>
              CollapseRuns(s, p, c)[i] == c || (!p(CollapseRuns(s, p, c)[i]) && CollapseRuns(s, p, c)[i] in s)
    decreases |s|
  {
    if |s| > 0 {
      var r := CollapseRuns(s, p, c);
      var tail := if p(s[0]) then DropWhile(s, p) else s[1..];
      var rt := CollapseRuns(tail, p, c);
      var off := |s| - |tail|;
      assert tail == s[off..];
      CollapseRunsChars(tail, p, c);
      assert r == [if p(s[0]) then c else s[0]] + rt;
      forall i | 0 < i < |r|
        ensures r[i] == c || (!p(r[i]) && r[i] in s)
      {
        var x := rt[i - 1];
        assert r[i] == x;
        if x != c {
          var j :| 0 <= j < |tail| && tail[j] == x;
          assert s[off + j] == x;
        }
      }
    }
  }

  /** After collapsing, each `c` is followed by a character outside the class. */
  lemma {:induction false} CollapseRunsSeparated(s: string, p: char -> bool, c: char)
    ensures forall i :: 0 <= i < |CollapseRuns(s, p, c)| - 1 && CollapseRuns(s, p, c)[i] == c ==>
              !p(CollapseRuns(s, p, c)[i + 1])
    decreases |s|
  {
    if |s| > 0 {
      var r := CollapseRuns(s, p, c);
      var tail := if p(s[0]) then DropWhile(s, p) else s[1..];
      var rt := CollapseRuns(tail, p, c);
      CollapseRunsSeparated(tail, p, c);
      assert r == [if p(s[0]) then c else s[0]] + rt;
      if |rt| > 0 && r[0] == c {
        if p(s[0]) {
          assert rt[0] == tail[0];
        } else {
          assert s[0] == c;
          assert rt[0] == (if p(tail[0]) then c else tail[0]);
          CollapseRunsChars(s, p, c);
        }
      }
      forall i | 0 < i < |r| - 1 && r[i] == c
        ensures !p(r[i + 1])
      {
        assert r[i] == rt[i - 1] && r[i + 1] == rt[i];
      }
    }
  }

  /** When `c` did not occur before, no two `c` stand side by side afterwards. */
  lemma {:induction false} CollapseRunsNoDoubled(s: string, p: char -> bool, c: char)
    requires c !in s
    ensures NoDoubled(CollapseRuns(s, p, c), c)
    decreases |s|
  {
    if |s| > 0 {
      var r := CollapseRuns(s, p, c);
      var tail := if p(s[0]) then DropWhile(s, p) else s[1..];
      var rt := CollapseRuns(tail, p, c);
      assert forall x :: x in tail ==> x in s;
      CollapseRunsNoDoubled(tail, p, c);
      assert r == [if p(s[0]) then c else s[0]] + rt;
      if |rt| > 0 && r[0] == c {
        assert p(s[0]);
        assert rt[0] == tail[0];
      }
      forall i | 0 < i < |r| - 1
        ensures !(r[i] == c && r[i + 1] == c)
      {
        assert r[i] == rt[i - 1] && r[i + 1] == rt[i];
      }
    }
  }

  /** Collapsing works piecewise across a boundary that does not split a run. */
  lemma {:induction false} CollapseRunsAppend(a: string, t: string, p: char -> bool, c: char)
    requires |a| == 0 || !p(a[|a| - 1])
    ensures CollapseRuns(a + t, p, c) == CollapseRuns(a, p, c) + CollapseRuns(t, p, c)
    decreases |a|, 1
  {
    if |a| == 0 {
      assert a + t == t;
    } else if p(a[0]) {
      CollapseRunsAppendRun(a, t, p, c);
    } else {
      TailAppend(a, t);
      CollapseRunsPlainStep(a, p, c);
      CollapseRunsPlainStep(a + t, p, c);
      CollapseRunsAppend(a[1..], t, p, c);
      ConcatAssoc([a[0]], CollapseRuns(a[1..], p, c), CollapseRuns(t, p, c));
    }
  }

  lemma {:induction false} CollapseRunsAppendRun(a: string, t: string, p: char -> bool, c: char)
    requires |a| > 0 && p(a[0]) && !p(a[|a| - 1])
    ensures CollapseRuns(a + t, p, c) == CollapseRuns(a, p, c) + CollapseRuns(t, p, c)
    decreases |a|, 0
  {
    var rest := DropWhile(a, p);
    assert rest != "";
    assert rest[|rest| - 1] == a[|a| - 1];
    assert DropWhile(a + t, p) == rest + t by {
      DropWhileAppend(a, t, p);
    }
    TailAppend(a, t);
    CollapseRunsRunStep(a, p, c);
    CollapseRunsRunStep(a + t, p, c);
    CollapseRunsAppend(rest, t, p, c);
    ConcatAssoc([c], CollapseRuns(rest, p, c), CollapseRuns(t, p, c));
  }

  /** A character outside the class is kept. */
  lemma CollapseRunsPlainStep(s: string, p: char -> bool, c: char)
    requires |s| > 0 && !p(s[0])
    ensures CollapseRuns(s, p, c) == [s[0]] + CollapseRuns(s[1..], p, c)
  {
  }

  /** A run at the front becomes one `c`. */
  lemma CollapseRunsRunStep(s: string, p: char -> bool, c: char)
    requires |s| > 0 && p(s[0])
    ensures CollapseRuns(s, p, c) == [c] + CollapseRuns(DropWhile(s, p), p, c)
  {
  }

  /** A run followed by a character outside the class becomes exactly one `c`. */
  lemma {:induction false} CollapseRunsRun(run: string, b: string, p: char -> bool, c: char)
    requires |run| > 0 && forall i :: 0 <= i < |run| ==> p(run[i])
    requires |b| == 0 || !p(b[0])
    ensures CollapseRuns(run + b, p, c) == [c] + CollapseRuns(b, p, c)
  {
    DropWhilePrefix(run, b, p);
    assert DropWhile(b, p) == b;
    assert (run + b)[0] == run[0];
  }

  /** A run is replaced by exactly one `c`, and the text on either side of it
      is rewritten independently. */
  lemma {:induction false} CollapseRunsSplice(a: string, run: string, b: string, p: char -> bool, c: char)
    requires |run| > 0 && forall i :: 0 <= i < |run| ==> p(run[i])
    requires |a| == 0 || !p(a[|a| - 1])
    requires |b| == 0 || !p(b[0])
    ensures CollapseRuns(a + run + b, p, c) == CollapseRuns(a, p, c) + [c] + CollapseRuns(b, p, c)
  {
    var t := run + b;
    ConcatAssoc(a, run, b);
    CollapseRunsAppend(a, t, p, c);
    CollapseRunsRun(run, b, p, c);
    ConcatAssoc(CollapseRuns(a, p, c), [c], CollapseRuns(b, p, c));
  }

  /** A string without a character satisfying `p` is left alone. */
  lemma {:induction false} CollapseRunsIdentity(s: string, p: char -> bool, c: char)
    requires forall i :: 0 <= i < |s| ==> !p(s[i])
    ensures CollapseRuns(s, p, c) == s
    decreases |s|
  {
    if |s| > 0 {
      CollapseRunsIdentity(s[1..], p, c);
      assert [s[0]] + s[1..] == s;
    }
  }

  /** Collapsing runs of another class never makes two `d` adjacent. */
  lemma {:induction false} CollapseRunsKeepsNoDoubled(s: string, p: char -> bool, c: char, d: char)
    requires NoDoubled(s, d) && !p(d) && d != c
    ensures NoDoubled(CollapseRuns(s, p, c), d)
    decreases |s|
  {
    if |s| > 0 {
      if p(s[0]) {
        var rest := DropWhile(s, p);
        assert forall i :: 0 <= i < |rest| ==> rest[i] == s[|s| - |rest| + i];
        CollapseRunsKeepsNoDoubled(rest, p, c, d);
      } else {
        CollapseRunsKeepsNoDoubled(s[1..], p, c, d);
        if |s| > 1 && s[0] == d {
          assert s[1] != d;
        }
      }
    }
  }

  /** The five rewrites, in the order both implementations apply them. */
  function Pipeline(cc: CharClasses, s: string): (r: string)
    ensures |r| <= |s|
  {
    var lowered := Lower(cc, s);
    var unhandled := StripHandles(lowered);
    var kept := DropPunctuation(cc, unhandled);
    var hashed := CollapseRuns(kept, cc.isDigit, '#');
    var spaced := CollapseRuns(hashed, cc.isSpace, ' ');
    Strip(cc, spaced)
  }

  /** shared/normalize.py `normalize`: None and "" give "". */
  function NormalizePy(cc: CharClasses, text: Option<string>): (r: string)
    ensures text == None || text == Some("") ==> r == ""
    ensures |r| <= |text.GetOr("")|
  {
    match text
    case None => ""
    case Some(s) => if s == "" then "" else Pipeline(cc, s)
  }

  /** The classes the JavaScript normaliser uses: `\d` without the `u` flag
      is ASCII only, and `\s` and `trim()` use JavaScript's white space. */
  function JsClasses(cc: CharClasses): CharClasses {
    cc.(isDigit := IsAsciiDigit, isSpace := cc.isJsSpace)
  }

  /** shared/normalize.js `normalize`: a missing argument defaults to "". */
  function NormalizeJs(cc: CharClasses, text: Option<string>): (r: string)
    ensures text == None ==> r == ""
    ensures |r| <= |text.GetOr("")|
  {
    var s := text.GetOr("");
    Pipeline(JsClasses(cc), s)
  }

  lemma JsClassesWellFormed(cc: CharClasses)
    requires WellFormed(cc)
    ensures WellFormed(JsClasses(cc))
  {
  }

  /** What the normaliser promises about its output. */
  ghost predicate Normalized(cc: CharClasses, r: string) {
    // only letters, non-digit numbers, single spaces and '#' remain
    && (forall i :: 0 <= i < |r| ==>
          r[i] == '#' || r[i] == ' ' ||
          ((cc.isLetter(r[i]) || cc.isNumber(r[i])) && !cc.isDigit(r[i]) && !cc.isSpace(r[i])))
    // trimmed
    && (|r| > 0 ==> !cc.isSpace(r[0]) && !cc.isSpace(r[|r| - 1]))
    // white space collapsed
    && (forall i :: 0 <= i < |r| - 1 ==> !(r[i] == ' ' && r[i + 1] == ' '))
    // each digit run became one '#', and nothing else produces a '#'
    && NoDoubled(r, '#')
  }

  /** The characters the final trim may keep: the two characters the
      normaliser writes itself, and non-space letters or numbers of `src`
      other than digits. */
  ghost predicate FromSource(cc: CharClasses, t: string, src: string) {
    forall i :: 0 <= i < |t| ==>
      t[i] == '#' || t[i] == ' ' ||
      ((cc.isLetter(t[i]) || cc.isNumber(t[i])) && !cc.isDigit(t[i]) && !cc.isSpace(t[i]) && t[i] in src)
  }

  /** After the digit rewrite: every character is '#' or a non-digit word
      character of the lowered input, and no two '#' are adjacent. */
  lemma HashedShape(cc: CharClasses, lowered: string)
    requires WellFormed(cc)
    ensures var hashed := CollapseRuns(DropPunctuation(cc, StripHandles(lowered)), cc.isDigit, '#');
      && (forall i :: 0 <= i < |hashed| ==>
            hashed[i] == '#' || (!cc.isDigit(hashed[i]) && IsWordChar(cc, hashed[i]) && hashed[i] in lowered))
      && NoDoubled(hashed, '#')
  {
    var unhandled := StripHandles(lowered);
    var kept := DropPunctuation(cc, unhandled);
    StripHandlesChars(lowered);
    assert IsPunctuation('#');
    assert '#' !in kept;
    CollapseRunsChars(kept, cc.isDigit, '#');
    CollapseRunsNoDoubled(kept, cc.isDigit, '#');
  }

  /** After the white-space rewrite: characters come from the source or are
      '#' or ' ', and neither '#' nor ' ' is doubled. */
  lemma SpacedShape(cc: CharClasses, hashed: string, lowered: string)
    requires WellFormed(cc)
    requires forall i :: 0 <= i < |hashed| ==>
               hashed[i] == '#' || (!cc.isDigit(hashed[i]) && IsWordChar(cc, hashed[i]) && hashed[i] in lowered)
    requires NoDoubled(hashed, '#')
    ensures var spaced := CollapseRuns(hashed, cc.isSpace, ' ');
      FromSource(cc, spaced, lowered) && NoDoubled(spaced, '#') && NoDoubled(spaced, ' ')
  {
    var spaced := CollapseRuns(hashed, cc.isSpace, ' ');
    assert IsPunctuation('#');
    CollapseRunsChars(hashed, cc.isSpace, ' ');
    CollapseRunsSeparated(hashed, cc.isSpace, ' ');
    CollapseRunsKeepsNoDoubled(hashed, cc.isSpace, ' ', '#');
    assert cc.isSpace(' ');
  }

  lemma NoDoubledInfix(t: string, d: char, lo: nat, hi: nat)
    requires NoDoubled(t, d) && lo <= hi <= |t|
    ensures NoDoubled(t[lo..hi], d)
  {
    var u := t[lo..hi];
    assert forall i :: 0 <= i < |u| ==> u[i] == t[lo + i];
  }

  lemma FromSourceInfix(cc: CharClasses, t: string, src: string, lo: nat, hi: nat)
    requires FromSource(cc, t, src) && lo <= hi <= |t|
    ensures FromSource(cc, t[lo..hi], src)
  {
    var u := t[lo..hi];
    assert forall i :: 0 <= i < |u| ==> u[i] == t[lo + i];
  }

  /** Trimming keeps a contiguous part, so pointwise and adjacency facts survive. */
  lemma StripShape(cc: CharClasses, t: string, src: string)
    requires FromSource(cc, t, src) && NoDoubled(t, '#') && NoDoubled(t, ' ')
    ensures var r := Strip(cc, t);
      FromSource(cc, r, src) && NoDoubled(r, '#') && NoDoubled(r, ' ')
  {
    var r := Strip(cc, t);
    var k := LeadingSpace(cc, t);
    StripInfix(cc, t);
    FromSourceInfix(cc, t, src, k, k + |r|);
    NoDoubledInfix(t, '#', k, k + |r|);
    NoDoubledInfix(t, ' ', k, k + |r|);
  }

  /** Every output of the pipeline is in normal form, and every character
      other than '#' and ' ' is the lower-case image of an input character. */
  lemma PipelineShape(cc: CharClasses, s: string)
    requires WellFormed(cc)
    ensures Normalized(cc, Pipeline(cc, s))
    ensures FromSource(cc, Pipeline(cc, s), Lower(cc, s))
  {
    var lowered := Lower(cc, s);
    var hashed := CollapseRuns(DropPunctuation(cc, StripHandles(lowered)), cc.isDigit, '#');
    var spaced := CollapseRuns(hashed, cc.isSpace, ' ');
    HashedShape(cc, lowered);
    SpacedShape(cc, hashed, lowered);
    StripShape(cc, spaced, lowered);
    var r := Strip(cc, spaced);
    assert r == Pipeline(cc, s);
    ShapeNormalized(cc, r, lowered);
  }

  /** A trimmed string made of the source's word characters, single spaces
      and single '#' is in normal form. */
  lemma ShapeNormalized(cc: CharClasses, r: string, src: string)
    requires FromSource(cc, r, src) && NoDoubled(r, '#') && NoDoubled(r, ' ')
    requires |r| > 0 ==> !cc.isSpace(r[0]) && !cc.isSpace(r[|r| - 1])
    ensures Normalized(cc, r)
  {
  }

  /** In particular no mention marker survives. */
  lemma FromSourceNoAt(cc: CharClasses, t: string, src: string)
    requires WellFormed(cc) && FromSource(cc, t, src)
    ensures '@' !in t
  {
    assert IsPunctuation('@');
  }

  /** shared/normalize.py and shared/normalize.js both produce normal forms. */
  lemma NormalizeShape(cc: CharClasses, text: Option<string>)
    requires WellFormed(cc)
    ensures Normalized(cc, NormalizePy(cc, text)) && '@' !in NormalizePy(cc, text)
    ensures Normalized(JsClasses(cc), NormalizeJs(cc, text)) && '@' !in NormalizeJs(cc, text)
  {
    NormalizePyShape(cc, text);
    NormalizeJsShape(cc, text);
  }

  lemma NormalizePyShape(cc: CharClasses, text: Option<string>)
    requires WellFormed(cc)
    ensures Normalized(cc, NormalizePy(cc, text)) && '@' !in NormalizePy(cc, text)
  {
    if text.Some? && text.value != "" {
      PipelineShape(cc, text.value);
      FromSourceNoAt(cc, Pipeline(cc, text.value), Lower(cc, text.value));
    }
  }

  lemma NormalizeJsShape(cc: CharClasses, text: Option<string>)
    requires WellFormed(cc)
    ensures Normalized(JsClasses(cc), NormalizeJs(cc, text)) && '@' !in NormalizeJs(cc, text)
  {
    var js := JsClasses(cc);
    var s := text.GetOr("");
    JsClassesWellFormed(cc);
    PipelineShape(js, s);
    FromSourceNoAt(js, Pipeline(js, s), Lower(js, s));
  }

  /** The normaliser is not idempotent: the '#' it writes for a digit run is
      punctuation to the next application. */
  lemma NotIdempotent(cc: CharClasses)
    requires WellFormed(cc)
    ensures NormalizePy(cc, Some("1")) == "#"
    ensures NormalizePy(cc, Some("#")) == ""
  {
    assert IsAscii('1') && IsAscii('#');
    assert Lower(cc, "1") == "1";
    assert StripHandles("1") == "1";
    assert DropPunctuation(cc, "1") == "1";
    assert DropWhile("1", cc.isDigit) == "";
    assert CollapseRuns("1", cc.isDigit, '#') == "#";
    assert IsPunctuation('#');
    assert CollapseRuns("#", cc.isSpace, ' ') == "#";
    assert Strip(cc, "#") == "#" by { StripOfStripped(cc, "#"); }
    assert Lower(cc, "#") == "#";
    assert StripHandles("#") == "#";
    assert DropPunctuation(cc, "#") == "";
  }

  /** A decimal digit outside ASCII becomes '#' in Python but survives in
      JavaScript, whose `\d` is ASCII only. */
  lemma NonAsciiDigitsDiffer(cc: CharClasses, c: char)
    requires WellFormed(cc)
    requires cc.isDigit(c) && !IsAsciiDigit(c)
    ensures NormalizePy(cc, Some([c])) == "#"
    ensures NormalizeJs(cc, Some([c])) == [c]
  {
    var js := JsClasses(cc);
    assert cc.lower(c) == c;
    assert Lower(cc, [c]) == [c];
    assert Lower(js, [c]) == [c];
    assert c != '@' by { assert IsPunctuation('@'); }
    assert StripHandles([c]) == [c];
    assert IsWordChar(cc, c);
    assert DropPunctuation(cc, [c]) == [c];
    assert DropPunctuation(js, [c]) == [c];
    assert DropWhile([c], cc.isDigit) == "";
    assert CollapseRuns([c], cc.isDigit, '#') == "#";
    assert CollapseRuns([c], js.isDigit, '#') == [c];
    assert !cc.isSpace('#') by { assert IsPunctuation('#'); }
    assert !cc.isSpace(c);
    assert CollapseRuns("#", cc.isSpace, ' ') == "#";
    assert CollapseRuns([c], cc.isSpace, ' ') == [c];
    StripOfStripped(cc, "#");
    StripOfStripped(cc, [c]);
  }

  /** The facts about U+FEFF (ZERO WIDTH NO-BREAK SPACE) the two halves of
      `ByteOrderMarkDiffers` use. */
  ghost predicate BomFacts(cc: CharClasses) {
    && WellFormed(cc)
    && cc.isJsSpace('\U{FEFF}') && !cc.isSpace('\U{FEFF}') && cc.lower('\U{FEFF}') == '\U{FEFF}'
  }

  lemma BomPy(cc: CharClasses)
    requires BomFacts(cc)
    ensures Pipeline(cc, "a\U{FEFF}b") == "ab"
  {
    var bom := '\U{FEFF}';
    var s := "a\U{FEFF}b";
    assert IsAscii('a') && IsAscii('b');
    assert Lower(cc, s) == s;
    assert StripHandles(s) == s by {
      assert StripHandles(s[2..]) == s[2..];
      assert StripHandles(s[1..]) == s[1..];
    }
    assert cc.isLetter('a') && cc.isLetter('b');
    assert !cc.isLetter(bom) && !cc.isNumber(bom);
    assert DropPunctuation(cc, s) == "ab" by {
      assert DropPunctuation(cc, s[2..]) == "b";
      assert DropPunctuation(cc, s[1..]) == "b";
    }
    var ab := "ab";
    assert !cc.isDigit('a') && !cc.isDigit('b');
    assert !cc.isSpace('a') && !cc.isSpace('b');
    assert CollapseRuns(ab, cc.isDigit, '#') == ab by {
      assert CollapseRuns(ab[1..], cc.isDigit, '#') == "b";
    }
    assert CollapseRuns(ab, cc.isSpace, ' ') == ab by {
      assert CollapseRuns(ab[1..], cc.isSpace, ' ') == "b";
    }
    StripOfStripped(cc, ab);
  }

  /** Three lower-case word characters without '@' pass the first three
      rewrites unchanged. */
  lemma WordTripleKept(k: CharClasses, x: char, sp: char, y: char)
    requires IsWordChar(k, x) && IsWordChar(k, sp) && IsWordChar(k, y)
    requires k.lower(x) == x && k.lower(sp) == sp && k.lower(y) == y
    requires x != '@' && sp != '@' && y != '@'
    ensures DropPunctuation(k, StripHandles(Lower(k, [x, sp, y]))) == [x, sp, y]
  {
    var s := [x, sp, y];
    assert Lower(k, s) == s;
    assert StripHandles(s) == s by {
      assert StripHandles(s[2..]) == s[2..];
      assert StripHandles(s[1..]) == s[1..];
    }
    assert DropPunctuation(k, s[2..]) == s[2..];
    assert DropPunctuation(k, s[1..]) == s[1..];
  }

  /** A white-space character between two non-digits, non-spaces collapses
      to one space. */
  lemma SpaceTripleCollapses(k: CharClasses, x: char, sp: char, y: char)
    requires k.isSpace(sp) && !k.isSpace(x) && !k.isSpace(y)
    requires !k.isDigit(x) && !k.isDigit(y) && !k.isDigit(sp)
    ensures CollapseRuns(CollapseRuns([x, sp, y], k.isDigit, '#'), k.isSpace, ' ') == [x, ' ', y]
  {
    var s := [x, sp, y];
    CollapseRunsIdentity(s, k.isDigit, '#');
    CollapseRunsSplice([x], [sp], [y], k.isSpace, ' ');
    assert [x] + [sp] + [y] == s;
    CollapseRunsIdentity([x], k.isSpace, ' ');
    CollapseRunsIdentity([y], k.isSpace, ' ');
  }

  /** A white-space character between two letters becomes one space. */
  lemma SpaceBetweenLetters(k: CharClasses, x: char, sp: char, y: char)
    requires k.isLetter(x) && k.isLetter(y) && k.isSpace(sp)
    requires !k.isSpace(x) && !k.isSpace(y) && !k.isDigit(x) && !k.isDigit(y) && !k.isDigit(sp)
    requires k.lower(x) == x && k.lower(sp) == sp && k.lower(y) == y
    requires x != '@' && sp != '@' && y != '@'
    ensures Pipeline(k, [x, sp, y]) == [x, ' ', y]
  {
    WordTripleKept(k, x, sp, y);
    SpaceTripleCollapses(k, x, sp, y);
    StripOfStripped(k, [x, ' ', y]);
  }

  lemma BomJs(cc: CharClasses)
    requires BomFacts(cc)
    ensures Pipeline(JsClasses(cc), "a\U{FEFF}b") == "a b"
  {
    var js := JsClasses(cc);
    assert IsAscii('a') && IsAscii('b');
    assert cc.isLetter('a') && cc.isLetter('b');
    assert !cc.isJsSpace('a') && !cc.isJsSpace('b');
    assert IsPunctuation('@');
    SpaceBetweenLetters(js, 'a', '\U{FEFF}', 'b');
  }

  /** U+FEFF is white space to JavaScript and neither white space, letter
      nor number to Python: between two letters Python drops it and
      JavaScript turns it into a space. */
  lemma ByteOrderMarkDiffers(cc: CharClasses)
    requires WellFormed(cc)
    requires cc.isJsSpace('\U{FEFF}') && !cc.isSpace('\U{FEFF}') && cc.lower('\U{FEFF}') == '\U{FEFF}'
    ensures NormalizePy(cc, Some("a\U{FEFF}b")) == "ab"
    ensures NormalizeJs(cc, Some("a\U{FEFF}b")) == "a b"
  {
    BomPy(cc);
    BomJs(cc);
  }
}

=== FILE: personal_matcher.dfy ===
/**
 Personal delivery (filters/personal_matcher.py): every casting posted in
 the destination topic is shown to the profile matcher once per registered
 user, and each matching user receives it in a private chat, through a
 chain of fallbacks: forward the original; else send the downloaded media
 with a caption, or the caption alone; else, after an error, the caption
 alone once more.

 The users file, the matcher's replies and the success of every Telegram
 request are inputs: `verdicts(i)` and `nets(i)` belong to the i-th user in
 the file's order.
 */
module PersonalMatcher {
  import opened Text
  import opened Telegram
  import opened Completion
  import opened Classifier

  /** Lines 20-21: the destination group and its casting topic. */
  const TargetChat: int := -1002835970298
  const TargetThread: int := 2

  /** Lines 24-39: the first truthy of five attributes of the message, then
      of two attributes of its reply header, or None. */
  function TopicId(m: TgMessage): (t: Option<int>)
    ensures var cands := TopicCandidates(m);
      && (t != None <==> exists i :: 0 <= i < |cands| && IsTruthyInt(cands[i]))
      && (t != None ==> IsTruthyInt(t) && exists i :: 0 <= i < |cands| && cands[i] == t && forall j :: 0 <= j < i ==> !IsTruthyInt(cands[j]))
  {
    var cands := TopicCandidates(m);
    var xs := cands + [None];
    assert forall i :: 0 <= i < |cands| ==> xs[i] == cands[i];
    assert xs[|cands|] == None;
    PyOr(xs, IsTruthyInt)
  }

  /** The attributes probed, in order. */
  function TopicCandidates(m: TgMessage): seq<Option<int>> {
    [m.messageThreadId, m.threadId, m.replyToTopId, m.topMsgId, m.topicId]
      + (if m.replyTo.Some? then [m.replyTo.value.replyToTopId, m.replyTo.value.replyToMsgId] else [])
  }

  /** Lines 110, 115, 119, 126: the text every fallback sends. */
  function Caption(text: string): string {
    "🎯 Найден подходящий кастинг для вас!\n\n" + text
  }

  /** One request to Telegram on a user's behalf. */
  datatype Send = Forward | FileWithCaption(caption: string) | TextMessage(caption: string)

  /** A request, the fallback tier it belongs to (1 to 3), and whether it
      went through. */
  datatype Attempt = Attempt(tier: nat, send: Send, ok: bool)

  /** What `client.download_media` did: raised, gave no existing file, or
      gave a file. */
  datatype Fetch = FetchRaised | NoFile | File

  /** How Telegram treats the requests made for one user. */
  datatype Net = Net(forwardOk: bool, fetch: Fetch, fileOk: bool, textOk: bool, retryOk: bool)

  /** What became of one user. */
  datatype UserResult = Unmatched | Tried(attempts: seq<Attempt>)

  predicate Delivered(u: UserResult) {
    u.Tried? && |u.attempts| > 0 && u.attempts[|u.attempts| - 1].ok
  }

  /** A well-formed chain of attempts: it starts with the forward, the tiers
      rise, only forwards are tier 1, and only the last attempt may succeed. */
  ghost predicate Chain(att: seq<Attempt>, caption: string) {
    && 1 <= |att| <= 3
    && att[0].tier == 1 && att[0].send == Forward
    && (forall k :: 0 <= k < |att| ==> 1 <= att[k].tier <= 3)
    && (forall k :: 0 < k < |att| ==> att[k - 1].tier < att[k].tier)
    && (forall k :: 0 < k < |att| ==> !att[k].send.Forward? && att[k].send.caption == caption)
    && (forall k :: 0 <= k < |att| - 1 ==> !att[k].ok)
  }

  /** The second tier (lines 100-121): with media, the download decides
      between the file with a caption and the caption alone; without, the
      caption alone. None when the download raised before any request. */
  function SecondTier(media: bool, net: Net, caption: string): (a: Option<Attempt>)
    ensures a.Some? ==> a.value.tier == 2 && !a.value.send.Forward? && a.value.send.caption == caption
    ensures a == None <==> media && net.fetch == FetchRaised
    ensures a.Some? && a.value.send.FileWithCaption? ==> media && net.fetch == File
  {
    if media then
      match net.fetch
      case FetchRaised => None
      case NoFile => Some(Attempt(2, TextMessage(caption), net.textOk))
      case File => Some(Attempt(2, FileWithCaption(caption), net.fileOk))
    else Some(Attempt(2, TextMessage(caption), net.textOk))
  }

  /** Lines 84-138, for one user: a failed match skips the user; otherwise
      the forward, then the second tier, then after a failed second tier
      (a raised download included) one more caption (lines 122-129). */
  function DeliverOne(cc: CharClasses, text: string, media: bool, reply: Reply, net: Net): (r: UserResult)
    ensures r == Unmatched <==> !MatchProfile(cc, reply)
    ensures r.Tried? ==> Chain(r.attempts, Caption(text)) && r.attempts[0].ok == net.forwardOk
    ensures r.Tried? && net.forwardOk ==> |r.attempts| == 1
    ensures r.Tried? && |r.attempts| > 1 && r.attempts[|r.attempts| - 1].tier == 3 ==>
      r.attempts[|r.attempts| - 1] == Attempt(3, TextMessage(Caption(text)), net.retryOk)
  {
    if !MatchProfile(cc, reply) then Unmatched
    else if net.forwardOk then Tried([Attempt(1, Forward, true)])
    else
      var cap := Caption(text);
      var first := Attempt(1, Forward, false);
      var retry := Attempt(3, TextMessage(cap), net.retryOk);
      match SecondTier(media, net, cap)
      case Some(a) => if a.ok then Tried([first, a]) else Tried([first, a, retry])
      case None => Tried([first, retry])
  }

  /** Whether the second tier goes through, stated on the inputs alone. */
  predicate SecondTierOk(media: bool, net: Net) {
    if !media then net.textOk
    else if net.fetch == File then net.fileOk
    else net.fetch == NoFile && net.textOk
  }

  /** A matching user receives the casting exactly when one of the three
      tiers goes through. */
  lemma DeliveredIff(cc: CharClasses, text: string, media: bool, reply: Reply, net: Net)
    ensures Delivered(DeliverOne(cc, text, media, reply, net)) <==>
      MatchProfile(cc, reply) && (net.forwardOk || SecondTierOk(media, net) || net.retryOk)
  {
  }

  /** Why a casting reached no one. */
  datatype Skip = WrongTopic | BlankText | UsersUnreadable | NoUsers

  datatype Dispatch = Ignored(why: Skip) | Processed(results: seq<UserResult>)

  /** The users file: None when it cannot be read or parsed; otherwise its
      entries (user id, profile) in order. */
  datatype Inputs = Inputs(
    users: Option<seq<(string, map<string, string>)>>,
    verdicts: nat -> Reply,
    nets: nat -> Net)

  /** The per-user step, over every user in order. */
  function DeliverAll(cc: CharClasses, text: string, media: bool, n: nat, w: Inputs): (rs: seq<UserResult>)
    ensures |rs| == n
    ensures forall i :: 0 <= i < n ==> rs[i] == DeliverOne(cc, text, media, w.verdicts(i), w.nets(i))
  {
    seq(n, i requires 0 <= i < n => DeliverOne(cc, text, media, w.verdicts(i), w.nets(i)))
  }

  /** Lines 42-141: `handle_new_casting`. */
  function HandleNew(cc: CharClasses, m: TgMessage, w: Inputs): (d: Dispatch)
    ensures d.Processed? ==> TopicId(m) == Some(TargetThread) && w.users.Some? && |d.results| == |w.users.value| > 0
    ensures d.Processed? ==> Strip(cc, TextOr(m.rawText)) != ""
    ensures d == Ignored(WrongTopic) <==> TopicId(m) != Some(TargetThread)
    ensures d == Ignored(BlankText) <==> TopicId(m) == Some(TargetThread) && Strip(cc, TextOr(m.rawText)) == ""
    ensures d == Ignored(UsersUnreadable) <==>
      TopicId(m) == Some(TargetThread) && Strip(cc, TextOr(m.rawText)) != "" && w.users.None?
    ensures d == Ignored(NoUsers) <==>
      TopicId(m) == Some(TargetThread) && Strip(cc, TextOr(m.rawText)) != "" && w.users == Some([])
    ensures d.Processed? ==> forall i :: 0 <= i < |d.results| ==>
      d.results[i] == DeliverOne(cc, TextOr(m.rawText), m.media, w.verdicts(i), w.nets(i))
  {
    var text := TextOr(m.rawText);
    if TopicId(m) != Some(TargetThread) then Ignored(WrongTopic)
    else if Strip(cc, text) == "" then Ignored(BlankText)
    else if w.users.None? then Ignored(UsersUnreadable)
    else if |w.users.value| == 0 then Ignored(NoUsers)
    else Processed(DeliverAll(cc, text, m.media, |w.users.value|, w))
  }

  /** A message outside the casting topic consults nothing. */
  lemma WrongTopicConsultsNothing(cc: CharClasses, m: TgMessage, w: Inputs, w': Inputs)
    requires TopicId(m) != Some(TargetThread)
    ensures HandleNew(cc, m, w) == HandleNew(cc, m, w') == Ignored(WrongTopic)
  {
  }

  /** Users are handled in isolation: what happens to user i depends only on
      user i's reply and requests. */
  lemma UsersIsolated(cc: CharClasses, m: TgMessage, w: Inputs, w': Inputs, i: nat)
    requires HandleNew(cc, m, w).Processed? && w'.users == w.users
    requires i < |w.users.value|
    requires w'.verdicts(i) == w.verdicts(i) && w'.nets(i) == w.nets(i)
    ensures HandleNew(cc, m, w').Processed?
    ensures HandleNew(cc, m, w').results[i] == HandleNew(cc, m, w).results[i]
  {
  }

  /** Every user gets at most one copy: a successful request ends the chain. */
  lemma AtMostOneCopy(cc: CharClasses, m: TgMessage, w: Inputs, i: nat)
    requires HandleNew(cc, m, w).Processed? && i < |HandleNew(cc, m, w).results|
    requires HandleNew(cc, m, w).results[i].Tried?
    ensures var att := HandleNew(cc, m, w).results[i].attempts;
      forall k, l :: 0 <= k < |att| && 0 <= l < |att| && att[k].ok && att[l].ok ==> k == l
  {
  }

  // ---------------------------------------------------------------------
  // Albums (lines 144-195)
  // ---------------------------------------------------------------------

  /** Lines 163-195, for one user: the forward of the whole album, then the
      first item's file with a caption, or the caption alone. There is no
      third tier: an error in the second is only logged. The download is
      attempted whether or not the item has media. */
  function DeliverAlbumOne(cc: CharClasses, text: string, reply: Reply, net: Net): (r: UserResult)
    ensures r == Unmatched <==> !MatchProfile(cc, reply)
    ensures r.Tried? ==> Chain(r.attempts, Caption(text)) && r.attempts[0].ok == net.forwardOk
    ensures r.Tried? ==> |r.attempts| <= 2 && forall k :: 0 <= k < |r.attempts| ==> r.attempts[k].tier <= 2
  {
    if !MatchProfile(cc, reply) then Unmatched
    else if net.forwardOk then Tried([Attempt(1, Forward, true)])
    else
      var first := Attempt(1, Forward, false);
      match SecondTier(true, net, Caption(text))
      case Some(a) => Tried([first, a])
      case None => Tried([first])
  }

  /** Lines 146-161: `handle_album`, on the album's first message. The text
      is stripped and never checked for blankness, and an empty users file
      is not reported. */
  function HandleAlbum(cc: CharClasses, m0: TgMessage, w: Inputs): (d: Dispatch)
    ensures d.Processed? ==> TopicId(m0) == Some(TargetThread) && w.users.Some? && |d.results| == |w.users.value|
    ensures d.Ignored? ==> d.why == WrongTopic || d.why == UsersUnreadable
    ensures d.Processed? <==> TopicId(m0) == Some(TargetThread) && w.users.Some?
    ensures d == Ignored(WrongTopic) <==> TopicId(m0) != Some(TargetThread)
    ensures d.Processed? ==> forall i :: 0 <= i < |d.results| ==>
      d.results[i] == DeliverAlbumOne(cc, Strip(cc, TextOr(m0.rawText)), w.verdicts(i), w.nets(i))
  {
    if TopicId(m0) != Some(TargetThread) then Ignored(WrongTopic)
    else if w.users.None? then Ignored(UsersUnreadable)
    else
      var text := Strip(cc, TextOr(m0.rawText));
      var n := |w.users.value|;
      Processed(seq(n, i requires 0 <= i < n => DeliverAlbumOne(cc, text, w.verdicts(i), w.nets(i))))
  }

  /** An album whose first message is blank is still shown to the matcher,
      where a single blank message is skipped. */
  lemma AlbumSkipsNoBlankCheck(cc: CharClasses, m: TgMessage, w: Inputs)
    requires TopicId(m) == Some(TargetThread) && w.users.Some? && |w.users.value| > 0
    requires TextOr(m.rawText) == ""
    ensures HandleNew(cc, m, w) == Ignored(BlankText)
    ensures HandleAlbum(cc, m, w).Processed? && |HandleAlbum(cc, m, w).results| == |w.users.value|
  {
    StripEmpty(cc, "");
  }

  /** With the same requests, the single-message chain delivers whenever the
      album chain does (a message without media gives no file); it also
      delivers when the download raises and the last caption goes through,
      which the album chain never retries. */
  lemma SingleDeliversWhereAlbumDoes(cc: CharClasses, text: string, media: bool, reply: Reply, net: Net)
    requires media || net.fetch == NoFile
    ensures Delivered(DeliverAlbumOne(cc, text, reply, net)) ==> Delivered(DeliverOne(cc, text, media, reply, net))
    ensures MatchProfile(cc, reply) && !net.forwardOk && net.fetch == FetchRaised && net.retryOk ==>
      !Delivered(DeliverAlbumOne(cc, text, reply, net)) && Delivered(DeliverOne(cc, text, media, reply, net))
  {
  }
}

=== FILE: registration.dfy ===
/**
 The registration wizard (filters/user_reg_bot.py): a questionnaire of
 twenty steps walked one at a time, limited to a scope (the form, the
 photos, or everything), with a back button, multi-select steps whose
 selection is toggled with buttons, and typed answers parsed by the type
 of the step.

 The wizard's state is a value here: the current step, the answers so far,
 the scope and whether a single-field edit should finish after this step.
 Rendering, the database, message deletion and the `busy` flag are not
 modelled; a handler's effect is the state it leaves and the reply it asks
 for: a prompt, or the pop-up a toggle shows at the limit. The one reply
 left out is `done_multi`'s pop-up for an empty selection (line 672),
 which `DoneOn` models as no change.
 */
module Registration {
  import opened Text

  // ---------------------------------------------------------------------
  // The steps (lines 301-327)
  // ---------------------------------------------------------------------

  datatype Kind = ChoiceKind | TextKind | MultiKind | ChoiceFreeKind | NumberKind | UrlOrSkipKind | PhotoKind | ListKind

  /** A step: its answer key and type, the buttons of a choice step, the
      options and limit of a multi-select step (limit 0 when absent), and
      the slot of a photo step. */
  datatype StepDef = StepDef(key: string, kind: Kind, choices: seq<string>, options: seq<string>,
                             limit: nat, autonext: bool, slot: Option<nat>)

  function Ask(key: string, kind: Kind): StepDef {
    StepDef(key, kind, [], [], 0, false, None)
  }

  function Pick(key: string, kind: Kind, choices: seq<string>): StepDef {
    StepDef(key, kind, choices, [], 0, false, None)
  }

  function Multi(key: string, options: seq<string>, limit: nat, autonext: bool): StepDef {
    StepDef(key, MultiKind, [], options, limit, autonext, None)
  }

  function Photo(key: string, slot: nat): StepDef {
    StepDef(key, PhotoKind, [], [], 0, false, Some(slot))
  }

  const Steps: seq<StepDef> := [
    Pick("sex", ChoiceKind, ["Мужской", "Женский"]),
    Ask("full_name", TextKind),
    Multi("cities", ["Алматы", "Астана", "Шымкент", "Актобе", "Караганда", "Тараз", "Павлодар",
                     "Усть-Каменогорск", "Семей", "Костанай", "Кызылорда", "Атырау", "Уральск",
                     "Петропавловск", "Темиртау", "Актау", "Туркестан", "Экибастуз"], 3, true),
    Ask("age_range", TextKind),
    Pick("look_type", ChoiceFreeKind, ["Азиатский", "Европеоидный", "Ближневосточный", "Латинский",
                                       "Евразиатский", "Афроамериканский", "Индийский", "Скандинавский"]),
    Pick("body_type", ChoiceFreeKind, ["Худощавое", "Стройное", "Атлетичное", "Плотное", "Полное", "Мускулистое"]),
    Ask("height_cm", NumberKind),
    Ask("weight_kg", NumberKind),
    Ask("hair", TextKind),
    Multi("languages", ["Русский", "Казахский", "Английский", "Немецкий", "Французский", "Турецкий",
                        "Китайский", "Испанский", "Итальянский", "Арабский"], 10, false),
    Ask("video_vizitka", UrlOrSkipKind),
    Ask("showreel", UrlOrSkipKind),
    Ask("portfolio", UrlOrSkipKind),
    Ask("projects", TextKind),
    Ask("phone", TextKind),
    Ask("instagram", TextKind),
    Photo("photo1_id", 1),
    Photo("photo2_id", 2),
    Photo("photo3_id", 3),
    Photo("photo4_id", 4)]

  // ---------------------------------------------------------------------
  // Validators (lines 122-129, 226-238)
  // ---------------------------------------------------------------------

  /** Lines 122-129: a step answered only with buttons. */
  predicate ButtonOnly(s: StepDef) {
    s.kind == MultiKind || s.kind == ChoiceKind || (s.kind == ChoiceFreeKind && |s.choices| > 0)
  }

  /** In the wizard as configured, the buttons-only steps are the sex, the
      cities, the look, the build and the languages. */
  lemma ButtonOnlySteps()
    ensures forall i :: 0 <= i < |Steps| ==>
      (ButtonOnly(Steps[i]) <==> i == 0 || i == 2 || i == 4 || i == 5 || i == 9)
  {
  }

  predicate IsNonEmpty(x: string) {
    x != ""
  }

  /** `[x.strip() for x in xs]`. */
  function StripAll(cc: CharClasses, xs: seq<string>): (r: seq<string>)
    ensures |r| == |xs|
    ensures forall i :: 0 <= i < |xs| ==> r[i] == Strip(cc, xs[i])
  {
    seq(|xs|, i requires 0 <= i < |xs| => Strip(cc, xs[i]))
  }

  /** Stripping then filtering, one item at a time. */
  lemma StripAllStep(cc: CharClasses, xs: seq<string>)
    requires xs != []
    ensures var t := Strip(cc, xs[0]);
      Filter(StripAll(cc, xs), IsNonEmpty) == (if t == "" then [] else [t]) + Filter(StripAll(cc, xs[1..]), IsNonEmpty)
  {
    assert StripAll(cc, xs)[1..] == StripAll(cc, xs[1..]);
  }

  /** The stripped, non-empty items, in order: `[t for t in (x.strip() for x
      in xs) if t]`. */
  function StripNonEmpty(cc: CharClasses, xs: seq<string>): (r: seq<string>)
    ensures |r| <= |xs|
    ensures forall i :: 0 <= i < |r| ==> Trimmed(cc, r[i])
    ensures r == Filter(StripAll(cc, xs), IsNonEmpty)
    decreases |xs|
  {
    if xs == [] then []
    else
      var t := Strip(cc, xs[0]);
      var rest := StripNonEmpty(cc, xs[1..]);
      StripAllStep(cc, xs);
      assert t != "" ==> Trimmed(cc, t);
      if t == "" then rest else [t] + rest
  }

  /** Items are read independently of one another, so the result for
      `a + b` is the result for `a` followed by the result for `b`. */
  lemma StripNonEmptyAppend(cc: CharClasses, a: seq<string>, b: seq<string>)
    ensures StripNonEmpty(cc, a + b) == StripNonEmpty(cc, a) + StripNonEmpty(cc, b)
  {
    assert StripAll(cc, a + b) == StripAll(cc, a) + StripAll(cc, b);
    FilterAppend(StripAll(cc, a), StripAll(cc, b), IsNonEmpty);
  }

  /** Exactly the non-empty stripped items survive. */
  lemma StripNonEmptyMembers(cc: CharClasses, xs: seq<string>, y: string)
    ensures y in StripNonEmpty(cc, xs) <==> y != "" && exists i :: 0 <= i < |xs| && Strip(cc, xs[i]) == y
  {
    var all := StripAll(cc, xs);
    if i :| 0 <= i < |xs| && Strip(cc, xs[i]) == y {
      assert all[i] == y;
    }
  }

  /** A stored answer: a string, a number, or a list of strings. */
  datatype Answer = Str(s: string) | Num(n: int) | Items(xs: seq<string>)

  /** Lines 226-231: a list's items, or a string's comma-separated parts,
      stripped and without the empty ones; nothing for anything else. */
  function AsList(cc: CharClasses, v: Answer): (r: seq<string>)
    ensures forall i :: 0 <= i < |r| ==> Trimmed(cc, r[i])
    ensures v.Items? ==> |r| <= |v.xs|
    ensures v.Str? ==> |r| <= |Split(v.s, ',')|
    ensures v.Num? ==> r == []
    ensures v.Items? ==> r == Filter(StripAll(cc, v.xs), IsNonEmpty)
    ensures v.Str? ==> r == Filter(StripAll(cc, Split(v.s, ',')), IsNonEmpty)
  {
    match v
    case Items(xs) => StripNonEmpty(cc, xs)
    case Str(s) => StripNonEmpty(cc, Split(s, ','))
    case Num(_) => []
  }

  /** The answers that mean "I have none". */
  const SkipWords: seq<string> := ["нет", "no", "none", "-"]

  /** Lines 236-238: the trimmed link, or "" when it is one of the skip
      words in any case. */
  function IsUrlOrSkip(cc: CharClasses, text: Option<string>): (r: string)
    ensures var t := Strip(cc, text.GetOr(""));
      && (r == "" <==> t == "" || Lower(cc, t) in SkipWords)
      && (r != "" ==> r == t)
  {
    var t := Strip(cc, text.GetOr(""));
    if Lower(cc, t) in SkipWords then "" else t
  }

  /** The result is a fixed point: reading it again changes nothing. */
  lemma IsUrlOrSkipIdempotent(cc: CharClasses, text: Option<string>)
    ensures IsUrlOrSkip(cc, Some(IsUrlOrSkip(cc, text))) == IsUrlOrSkip(cc, text)
  {
    var r := IsUrlOrSkip(cc, text);
    StripIdempotent(cc, text.GetOr(""));
    StripOfStripped(cc, "");
  }

  // ---------------------------------------------------------------------
  // Scopes and navigation (lines 356-369, 476-521, 852-941)
  // ---------------------------------------------------------------------

  /** The part of the wizard being walked: everything (scope None), the
      form, or the photos. */
  datatype Scope = Everything | FormOnly | PhotosOnly

  /** Lines 356-363, and `allowed` on lines 908-914, which is the same test. */
  predicate StepInScope(s: StepDef, scope: Scope) {
    match scope
    case Everything => true
    case FormOnly => s.kind != PhotoKind
    case PhotosOnly => s.kind == PhotoKind
  }

  /** The first step in scope at or after `i`, or `|Steps|` when there is none. */
  function NextFrom(scope: Scope, i: nat): (j: nat)
    ensures i <= j
    ensures i <= |Steps| ==> j <= |Steps|
    ensures forall k :: i <= k < j ==> k < |Steps| && !StepInScope(Steps[k], scope)
    ensures j < |Steps| ==> StepInScope(Steps[j], scope)
    decreases |Steps| - i
  {
    if i >= |Steps| || StepInScope(Steps[i], scope) then i else NextFrom(scope, i + 1)
  }

  /** Any index with the properties of `NextFrom` is `NextFrom`. */
  lemma NextFromUnique(scope: Scope, i: nat, j: nat)
    requires i <= j <= |Steps|
    requires forall k :: i <= k < j ==> !StepInScope(Steps[k], scope)
    requires j < |Steps| ==> StepInScope(Steps[j], scope)
    ensures NextFrom(scope, i) == j
  {
  }

  /** Lines 365-369: the least index in scope, or `|Steps|`. */
  function FirstIndexForScope(scope: Scope): (r: nat)
    ensures r <= |Steps|
    ensures r < |Steps| ==> StepInScope(Steps[r], scope)
    ensures forall k :: 0 <= k < r ==> !StepInScope(Steps[k], scope)
  {
    NextFrom(scope, 0)
  }

  /** The form starts at the first step, the photos at the seventeenth. */
  lemma FirstIndexValues()
    ensures FirstIndexForScope(Everything) == 0
    ensures FirstIndexForScope(FormOnly) == 0
    ensures FirstIndexForScope(PhotosOnly) == 16
  {
    NextFromUnique(PhotosOnly, 0, 16);
  }

  /** The last step in scope before `i`, if any. */
  function PrevFrom(scope: Scope, i: nat): (r: Option<nat>)
    requires i <= |Steps|
    ensures r.Some? ==> r.value < i && StepInScope(Steps[r.value], scope)
    ensures forall k :: (if r.Some? then r.value + 1 else 0) <= k < i ==> !StepInScope(Steps[k], scope)
    decreases i
  {
    if i == 0 then None
    else if StepInScope(Steps[i - 1], scope) then Some(i - 1)
    else PrevFrom(scope, i - 1)
  }

  /** The wizard's state for one user. */
  datatype Wizard = Wizard(step: nat, answers: map<string, Answer>, scope: Scope, finishAfter: bool)

  /** Where `advance_or_finish` leaves the user: on a step, or done, with
      the profile to save. */
  datatype Nav = At(w: Wizard) | Finished(saved: map<string, Answer>)

  /** Lines 476-521: a single-field edit finishes at once; otherwise skip
      the steps out of scope and finish past the last one. Finishing saves
      the stored profile overlaid with the answers. */
  function Advance(w: Wizard, stored: map<string, Answer>): (r: Nav)
    ensures r.Finished? <==> w.finishAfter || forall k :: w.step <= k < |Steps| ==> !StepInScope(Steps[k], w.scope)
    ensures r.At? ==> && r.w == w.(step := r.w.step)
                      && w.step <= r.w.step < |Steps|
                      && StepInScope(Steps[r.w.step], w.scope)
                      && forall k :: w.step <= k < r.w.step ==> !StepInScope(Steps[k], w.scope)
    ensures r.Finished? ==> && (forall k :: k in r.saved <==> k in stored || k in w.answers)
                            && (forall k :: k in w.answers ==> r.saved[k] == w.answers[k])
                            && (forall k :: k in stored && k !in w.answers ==> r.saved[k] == stored[k])
  {
    if w.finishAfter then Finished(stored + w.answers)
    else
      var j := NextFrom(w.scope, w.step);
      if j >= |Steps| then Finished(stored + w.answers) else At(w.(step := j))
  }

  datatype Back = Backed(w: Wizard) | Left

  /** Lines 882-938: from the first step, or when no earlier step is in
      scope, the wizard is left; otherwise the user goes back to the last
      earlier step in scope and its answer is forgotten. */
  function GoBack(w: Wizard): (r: Back)
    requires w.step <= |Steps|
    ensures r == Left <==> forall k :: 0 <= k < w.step ==> !StepInScope(Steps[k], w.scope)
    ensures r.Backed? ==> && r.w.step < w.step
                          && StepInScope(Steps[r.w.step], w.scope)
                          && (forall k :: r.w.step < k < w.step ==> !StepInScope(Steps[k], w.scope))
                          && r.w == w.(step := r.w.step, answers := w.answers - {Steps[r.w.step].key})
  {
    if w.step == 0 then Left
    else
      match PrevFrom(w.scope, w.step)
      case None => Left
      case Some(j) => Backed(w.(step := j, answers := w.answers - {Steps[j].key}))
  }

  /** Going back and then forward again lands on the step the user left. */
  lemma BackThenForward(w: Wizard)
    requires w.step <= |Steps| && (w.step < |Steps| ==> StepInScope(Steps[w.step], w.scope))
    requires GoBack(w).Backed?
    ensures NextFrom(w.scope, GoBack(w).w.step + 1) == w.step
  {
    NextFromUnique(w.scope, GoBack(w).w.step + 1, w.step);
  }

  /** Answering a step and then going back returns to that step. */
  lemma ForwardThenBack(w: Wizard, stored: map<string, Answer>)
    requires w.step < |Steps| && StepInScope(Steps[w.step], w.scope) && !w.finishAfter
    requires Advance(w.(step := w.step + 1), stored).At?
    ensures var w' := Advance(w.(step := w.step + 1), stored).w;
      GoBack(w').Backed? && GoBack(w').w.step == w.step
  {
    var w' := Advance(w.(step := w.step + 1), stored).w;
    var b := GoBack(w');
    assert !(forall k :: 0 <= k < w'.step ==> !StepInScope(Steps[k], w'.scope)) by {
      assert StepInScope(Steps[w.step], w'.scope);
    }
  }

  // ---------------------------------------------------------------------
  // Multi-select (lines 589-681)
  // ---------------------------------------------------------------------

  /** What a handler does: nothing, a reply asking to try again, a redraw of
      the current step with a new state, or a move on through `Advance`. */
  datatype Move = Unchanged | Prompt(message: string) | Render(w: Wizard, notice: Option<string>) | Next(w: Wizard)

  /** `[x for x in xs if not valid or x in valid]`. */
  function KeepValid(xs: seq<string>, valid: seq<string>): (r: seq<string>)
    ensures |r| <= |xs|
    ensures forall x :: x in r <==> x in xs && (|valid| == 0 || x in valid)
    ensures r == Filter(xs, x => |valid| == 0 || x in valid)
    decreases |xs|
  {
    if xs == [] then []
    else
      var rest := KeepValid(xs[1..], valid);
      assert forall x :: x in xs <==> x == xs[0] || x in xs[1..];
      if |valid| == 0 || xs[0] in valid then [xs[0]] + rest else rest
  }

  /** `list(dict.fromkeys(xs))`: each element once. */
  function Unique(xs: seq<string>): (r: seq<string>)
    ensures Distinct(r)
    ensures forall x :: x in r <==> x in xs
    ensures |r| <= |xs|
    decreases |xs|
  {
    if xs == [] then []
    else
      var init := xs[..|xs| - 1];
      var last := xs[|xs| - 1];
      var u := Unique(init);
      assert xs == init + [last];
      if last in u then u else u + [last]
  }

  /** Removing past a first element that is not `v`. */
  lemma RemoveStep(xs: seq<string>, v: string, rest: seq<string>)
    requires xs != [] && xs[0] != v && v in xs[1..]
    requires Find(xs[1..], v).Some?
    requires rest == xs[1..][..Find(xs[1..], v).value] + xs[1..][Find(xs[1..], v).value + 1..]
    ensures Find(xs, v).Some? && [xs[0]] + rest == xs[..Find(xs, v).value] + xs[Find(xs, v).value + 1..]
  {
    var k := Find(xs[1..], v).value;
    assert Find(xs, v) == Some(k + 1);
    assert xs[..k + 1] == [xs[0]] + xs[1..][..k];
    assert xs[k + 2..] == xs[1..][k + 1..];
  }

  /** Putting back a first element that is not `v` keeps the elements distinct. */
  lemma RemoveKeepsDistinct(xs: seq<string>, v: string, rest: seq<string>)
    requires xs != [] && xs[0] != v && Distinct(xs)
    requires Distinct(rest) && forall x :: x in rest <==> x in xs[1..] && x != v
    ensures Distinct([xs[0]] + rest) && forall x :: x in [xs[0]] + rest <==> x in xs && x != v
  {
    assert forall x :: x in xs <==> x == xs[0] || x in xs[1..];
    assert xs[0] !in xs[1..];
  }

  /** Python's `list.remove`: the first occurrence goes. */
  function Remove(xs: seq<string>, v: string): (r: seq<string>)
    requires v in xs
    ensures |r| == |xs| - 1
    ensures Distinct(xs) ==> Distinct(r) && forall x :: x in r <==> x in xs && x != v
    ensures Find(xs, v).Some? && r == xs[..Find(xs, v).value] + xs[Find(xs, v).value + 1..]
    decreases |xs|
  {
    if xs[0] == v then
      assert forall x :: x in xs <==> x == xs[0] || x in xs[1..];
      xs[1..]
    else
      var rest := Remove(xs[1..], v);
      assert Distinct(xs) ==> Distinct([xs[0]] + rest) && forall x :: x in [xs[0]] + rest <==> x in xs && x != v by {
        if Distinct(xs) { RemoveKeepsDistinct(xs, v, rest); }
      }
      RemoveStep(xs, v, rest);
      [xs[0]] + rest
  }

  /** Lines 620-628: a selected value is removed; a new one is added unless
      the limit (if any) is already reached. The flag says whether a value
      was added. */
  function Toggle(sel: seq<string>, value: string, limit: nat): (r: (seq<string>, bool))
    ensures r.1 <==> value !in sel && (limit == 0 || |sel| < limit)
    ensures Distinct(sel) ==> Distinct(r.0)
    ensures Distinct(sel) ==> forall x :: x in r.0 <==> (x in sel && x != value) || (r.1 && x == value)
    ensures value in sel ==> |r.0| == |sel| - 1
    ensures r.1 ==> |r.0| == |sel| + 1
    ensures value !in sel && !r.1 ==> r.0 == sel
    ensures value in sel ==> r.0 == Remove(sel, value)
    ensures r.1 ==> r.0 == sel + [value]
  {
    if value in sel then (Remove(sel, value), false)
    else if limit > 0 && |sel| >= limit then (sel, false)
    else (sel + [value], true)
  }

  /** A toggle never takes a selection within the limit beyond it. */
  lemma ToggleKeepsLimit(sel: seq<string>, value: string, limit: nat)
    requires limit > 0 && |sel| <= limit
    ensures |Toggle(sel, value, limit).0| <= limit
  {
  }

  /** The stored answer of a step, `[]` when there is none. */
  function Stored(s: StepDef, answers: map<string, Answer>): Answer {
    if s.key in answers then answers[s.key] else Items([])
  }

  /** Lines 616-618: the current selection, valid options only, each once. */
  function Selection(cc: CharClasses, s: StepDef, answers: map<string, Answer>): (r: seq<string>)
    ensures Distinct(r)
    ensures forall x :: x in r ==> x in AsList(cc, Stored(s, answers)) && (|s.options| == 0 || x in s.options)
  {
    Unique(KeepValid(AsList(cc, Stored(s, answers)), s.options))
  }

  /** A toggle keeps a selection duplicate-free and within the options; a
      selected value goes; a new value comes unless the limit is reached;
      a selection within the limit stays within it. */
  lemma ToggleKeeps(sel: seq<string>, value: string, limit: nat, options: seq<string>)
    requires Distinct(sel)
    requires forall x :: x in sel ==> |options| == 0 || x in options
    requires |options| == 0 || value in options
    ensures var t := Toggle(sel, value, limit).0;
      && Distinct(t)
      && (forall x :: x in t ==> |options| == 0 || x in options)
      && (value in sel ==> value !in t)
      && (value !in sel ==> (value in t <==> limit == 0 || |sel| < limit))
      && (limit > 0 && |sel| <= limit ==> |t| <= limit)
  {
  }

  /** Storing one answer adds its key and leaves every other answer alone. */
  lemma StoreKeepsOthers(answers: map<string, Answer>, key: string, v: Answer)
    ensures answers[key := v].Keys == answers.Keys + {key}
    ensures forall k :: k in answers && k != key ==> answers[key := v][k] == answers[k]
  {
  }

  /** The pop-up shown when a new value would pass the limit (line 625). */
  function LimitNotice(limit: nat): string {
    "Можно выбрать до " + IntToDecimal(limit) + "."
  }

  /** Lines 603-638 on the current step `s` (`toggle_multi`), with the
      callback data already split into the key and the value; None when it
      does not split. */
  function ToggleOn(cc: CharClasses, s: StepDef, w: Wizard, payload: Option<(string, string)>): (m: Move)
    ensures !m.Unchanged? <==>
      payload.Some? && payload.value.0 == s.key && (|s.options| == 0 || payload.value.1 in s.options)
    ensures m.Unchanged? || m.Render? || m.Next?
    ensures m.Render? ==> m.w == w.(answers := m.w.answers)
    ensures m.Next? ==> m.w == w.(answers := m.w.answers, step := w.step + 1) && s.autonext && s.limit > 0
    ensures m.Render? || m.Next? ==>
      && m.w.answers.Keys == w.answers.Keys + {s.key}
      && forall k :: k in w.answers && k != s.key ==> m.w.answers[k] == w.answers[k]
    ensures m.Render? || m.Next? ==>
      var t := Toggle(Selection(cc, s, w.answers), payload.value.1, s.limit);
      && (m.Next? <==> s.autonext && s.limit > 0 && t.1 && |t.0| == s.limit)
      && (m.Render? ==> m.w.answers[s.key] == Items(t.0))
      && (m.Next? ==> m.w.answers[s.key] == Str(Join(t.0, ", ")))
    ensures m.Render? ==>
      var sel := Selection(cc, s, w.answers);
      (m.notice.Some? <==> payload.value.1 !in sel && s.limit > 0 && |sel| >= s.limit)
    ensures m.Render? && m.notice.Some? ==> m.notice.value == LimitNotice(s.limit)
  {
    if payload.None? then Unchanged
    else
      var (key, value) := payload.value;
      if key != s.key || (|s.options| > 0 && value !in s.options) then Unchanged
      else
        var selected := Selection(cc, s, w.answers);
        var (sel, added) := Toggle(selected, value, s.limit);
        var notice := if value !in selected && !added then Some(LimitNotice(s.limit)) else None;
        if s.autonext && s.limit > 0 && added && |sel| == s.limit then
          StoreKeepsOthers(w.answers, key, Str(Join(sel, ", ")));
          Next(w.(answers := w.answers[key := Str(Join(sel, ", "))], step := w.step + 1))
        else
          StoreKeepsOthers(w.answers, key, Items(sel));
          Render(w.(answers := w.answers[key := Items(sel)]), notice)
  }

  /** Lines 589-601: nothing happens past the last step. */
  function ToggleMulti(cc: CharClasses, w: Wizard, payload: Option<(string, string)>): (m: Move)
    ensures !m.Unchanged? <==>
      && w.step < |Steps| && payload.Some? && payload.value.0 == Steps[w.step].key
      && (|Steps[w.step].options| == 0 || payload.value.1 in Steps[w.step].options)
    ensures m.Unchanged? || m.Render? || m.Next?
    ensures m.Render? ==> m.w.step == w.step
    ensures m.Next? ==> m.w.step == w.step + 1
    ensures w.step < |Steps| && (m.Render? || m.Next?) ==>
      forall k :: k in w.answers && k != Steps[w.step].key ==> k in m.w.answers && m.w.answers[k] == w.answers[k]
    ensures w.step < |Steps| && (m.Render? || m.Next?) ==>
      var s := Steps[w.step];
      var t := Toggle(Selection(cc, s, w.answers), payload.value.1, s.limit);
      && s.key in m.w.answers
      && (m.Render? ==> m.w.answers[s.key] == Items(t.0))
      && (m.Next? ==> m.w.answers[s.key] == Str(Join(t.0, ", ")))
      && (m.Render? ==> (m.notice.Some? <==> !t.1 && payload.value.1 !in Selection(cc, s, w.answers)))
  {
    if w.step >= |Steps| then Unchanged else ToggleOn(cc, Steps[w.step], w, payload)
  }

  /** On a valid value the toggle stores the new selection as a list, or,
      when an addition fills an autonext step, as the joined string with
      the step moved on. */
  lemma ToggleStores(cc: CharClasses, s: StepDef, w: Wizard, value: string)
    requires |s.options| == 0 || value in s.options
    ensures var t := Toggle(Selection(cc, s, w.answers), value, s.limit);
      var m := ToggleOn(cc, s, w, Some((s.key, value)));
      && (m.Render? || m.Next?)
      && (m.Render? ==> m.w.answers[s.key] == Items(t.0))
      && (m.Next? <==> s.autonext && s.limit > 0 && t.1 && |t.0| == s.limit)
      && (m.Next? ==> m.w.answers[s.key] == Str(Join(t.0, ", ")))
  {
  }

  /** On the cities step a third city completes the step at once; on the
      languages step, with no autonext, the user always presses "done". */
  lemma AutonextSteps()
    ensures Steps[2].autonext && Steps[2].limit == 3
    ensures !Steps[9].autonext && Steps[9].limit == 10
  {
  }

  /** `list(raw)` or `[s.strip() for s in raw.split(",")]`, without empty
      items (lines 668-670); a number makes `list()` raise, which leaves the
      state as it was. */
  function Picked(cc: CharClasses, raw: Answer): (r: seq<string>)
    ensures forall i :: 0 <= i < |r| ==> r[i] != ""
  {
    match raw
    case Str(s) => StripNonEmpty(cc, Split(s, ','))
    case Items(xs) => NonEmpty(xs)
    case Num(_) => []
  }

  function NonEmpty(xs: seq<string>): (r: seq<string>)
    ensures |r| <= |xs|
    ensures forall i :: 0 <= i < |r| ==> r[i] != ""
    ensures forall x :: x in r <==> x in xs && x != ""
    ensures r == Filter(xs, IsNonEmpty)
    decreases |xs|
  {
    if xs == [] then []
    else
      assert forall x :: x in xs <==> x == xs[0] || x in xs[1..];
      (if xs[0] == "" then [] else [xs[0]]) + NonEmpty(xs[1..])
  }

  /** `selected[:limit]` for a truthy limit. */
  function Truncate(xs: seq<string>, limit: nat): (r: seq<string>)
    ensures limit > 0 ==> |r| <= limit
    ensures |r| <= |xs| && r == xs[..|r|]
    ensures |r| == |xs| || (limit > 0 && |r| == limit)
  {
    if limit > 0 && |xs| > limit then xs[..limit] else xs
  }

  /** Lines 657-681 on the current step `s` (`done_multi`), with the
      callback data already split; None when it has no ':'. An empty
      selection changes nothing; otherwise the selection, cut to the limit,
      is stored joined by ", " and the step moves on. */
  function DoneOn(cc: CharClasses, s: StepDef, w: Wizard, payloadKey: Option<string>): (m: Move)
    ensures m.Unchanged? || m.Next?
    ensures m.Unchanged? <==> payloadKey != Some(s.key) || Picked(cc, Stored(s, w.answers)) == []
    ensures m.Next? ==> m.w == w.(answers := m.w.answers, step := w.step + 1)
    ensures m.Next? ==> var p := Truncate(Picked(cc, Stored(s, w.answers)), s.limit);
      && 0 < |p|
      && (s.limit > 0 ==> |p| <= s.limit)
      && m.w.answers == w.answers[s.key := Str(Join(p, ", "))]
  {
    if payloadKey != Some(s.key) then Unchanged
    else
      var p := Picked(cc, Stored(s, w.answers));
      if p == [] then Unchanged
      else Next(w.(answers := w.answers[s.key := Str(Join(Truncate(p, s.limit), ", "))], step := w.step + 1))
  }

  /** Lines 643-655: nothing happens past the last step. */
  function DoneMulti(cc: CharClasses, w: Wizard, payloadKey: Option<string>): (m: Move)
    ensures m.Unchanged? || m.Next?
    ensures m.Next? ==>
      && w.step < |Steps| && payloadKey == Some(Steps[w.step].key)
      && m.w.step == w.step + 1
      && m.w.answers.Keys == w.answers.Keys + {Steps[w.step].key}
    ensures w.step < |Steps| && payloadKey == Some(Steps[w.step].key) ==>
      (m.Unchanged? <==> Picked(cc, Stored(Steps[w.step], w.answers)) == [])
    ensures m.Next? ==>
      var s := Steps[w.step];
      m.w.answers == w.answers[s.key := Str(Join(Truncate(Picked(cc, Stored(s, w.answers)), s.limit), ", "))]
  {
    if w.step >= |Steps| then Unchanged else DoneOn(cc, Steps[w.step], w, payloadKey)
  }

  /** Every item prefixed with a space. */
  function Spaced(xs: seq<string>): (r: seq<string>)
    ensures |r| == |xs|
    ensures forall i :: 0 <= i < |xs| ==> r[i] == " " + xs[i]
  {
    seq(|xs|, i requires 0 <= i < |xs| => " " + xs[i])
  }

  /** Joining with ", " is joining with "," after prefixing every item but
      the first with a space. */
  lemma {:induction false} JoinCommaSpace(xs: seq<string>)
    requires |xs| >= 1
    ensures " " + Join(xs, ", ") == Join(Spaced(xs), ",")
    decreases |xs|
  {
    if |xs| > 1 {
      JoinCommaSpace(xs[1..]);
      assert Spaced(xs)[1..] == Spaced(xs[1..]);
      assert " " + Join(xs, ", ") == (" " + xs[0]) + "," + (" " + Join(xs[1..], ", "));
    }
  }

  /** Stripping each of `ys` gives the non-empty `xs`. */
  lemma {:induction false} StripNonEmptyAll(cc: CharClasses, ys: seq<string>, xs: seq<string>)
    requires |ys| == |xs|
    requires forall i :: 0 <= i < |xs| ==> xs[i] != "" && Strip(cc, ys[i]) == xs[i]
    ensures StripNonEmpty(cc, ys) == xs
    decreases |xs|
  {
    if xs != [] {
      StripNonEmptyAll(cc, ys[1..], xs[1..]);
      assert [xs[0]] + xs[1..] == xs;
    }
  }

  /** A stored selection reads back as the selection: items that are
      stripped, non-empty and free of commas survive the ", " join. */
  lemma JoinedSelectionReadsBack(cc: CharClasses, xs: seq<string>)
    requires cc.isSpace(' ') && |xs| >= 1
    requires forall i :: 0 <= i < |xs| ==> xs[i] != "" && Strip(cc, xs[i]) == xs[i] && ',' !in xs[i]
    ensures AsList(cc, Str(Join(xs, ", "))) == xs
  {
    var parts := [xs[0]] + Spaced(xs[1..]);
    JoinAsParts(xs);
    SpacedParts(cc, xs);
    SplitJoin(parts, ',');
    StripNonEmptyAll(cc, parts, xs);
  }

  /** A space in front is stripped away again. */
  lemma StripSpaced(cc: CharClasses, x: string)
    requires cc.isSpace(' ')
    ensures Strip(cc, " " + x) == Strip(cc, x)
  {
    assert " "[0] == ' ';
    StripPadded(cc, " ", x, "");
    assert " " + x + "" == " " + x;
  }

  /** The ", " join is the "," join of the first item and the spaced rest. */
  lemma JoinAsParts(xs: seq<string>)
    requires |xs| >= 1
    ensures Join(xs, ", ") == Join([xs[0]] + Spaced(xs[1..]), [','])
  {
    if |xs| > 1 {
      var rest := Join(xs[1..], ", ");
      JoinCommaSpace(xs[1..]);
      JoinCons(xs[0], Spaced(xs[1..]), [',']);
      CommaSpace(xs[0], rest);
    } else {
      assert [xs[0]] + Spaced(xs[1..]) == [xs[0]];
    }
  }

  /** ", " is "," followed by a space. */
  lemma CommaSpace(a: string, b: string)
    ensures a + ", " + b == a + [','] + (" " + b)
  {
  }

  /** Each part is free of commas and strips back to its item. */
  lemma SpacedParts(cc: CharClasses, xs: seq<string>)
    requires cc.isSpace(' ') && |xs| >= 1
    requires forall i :: 0 <= i < |xs| ==> Strip(cc, xs[i]) == xs[i] && ',' !in xs[i]
    ensures var parts := [xs[0]] + Spaced(xs[1..]);
      && |parts| == |xs|
      && forall i :: 0 <= i < |parts| ==> ',' !in parts[i] && Strip(cc, parts[i]) == xs[i]
  {
    var parts := [xs[0]] + Spaced(xs[1..]);
    forall i | 0 <= i < |parts|
      ensures ',' !in parts[i] && Strip(cc, parts[i]) == xs[i]
    {
      if i > 0 {
        assert parts[i] == " " + xs[i];
        StripSpaced(cc, xs[i]);
      }
    }
  }

  /** So "done" on a selection made with the buttons stores a string that
      reads back as that selection, cut to the limit. */
  lemma DoneReadsBack(cc: CharClasses, s: StepDef, w: Wizard)
    requires cc.isSpace(' ')
    requires s.key in w.answers && w.answers[s.key].Items?
    requires forall x :: x in w.answers[s.key].xs ==> Strip(cc, x) == x && ',' !in x
    requires DoneOn(cc, s, w, Some(s.key)).Next?
    ensures AsList(cc, DoneOn(cc, s, w, Some(s.key)).w.answers[s.key])
      == Truncate(NonEmpty(w.answers[s.key].xs), s.limit)
  {
    var key := s.key;
    var q := Truncate(NonEmpty(w.answers[key].xs), s.limit);
    forall i | 0 <= i < |q|
      ensures q[i] != "" && Strip(cc, q[i]) == q[i] && ',' !in q[i]
    {
      assert q[i] in NonEmpty(w.answers[key].xs);
    }
    JoinedSelectionReadsBack(cc, q);
  }

  // ---------------------------------------------------------------------
  // Typed answers (lines 1016-1107)
  // ---------------------------------------------------------------------

  /** Line 233: `str(s).strip().lower()`. */
  function Norm(cc: CharClasses, s: string): string {
    Lower(cc, Strip(cc, s))
  }

  /** Every item normalised. */
  function Norms(cc: CharClasses, xs: seq<string>): (r: seq<string>)
    ensures |r| == |xs|
    ensures forall i :: 0 <= i < |xs| ==> r[i] == Norm(cc, xs[i])
  {
    if xs == [] then [] else [Norm(cc, xs[0])] + Norms(cc, xs[1..])
  }

  /** Python's `list.index` when the item is there. */
  function Find(xs: seq<string>, t: string): (r: Option<nat>)
    ensures r.Some? ==> r.value < |xs| && xs[r.value] == t && forall j :: 0 <= j < r.value ==> xs[j] != t
    ensures r.None? ==> t !in xs
  {
    if xs == [] then None
    else if xs[0] == t then Some(0)
    else match Find(xs[1..], t)
      case None => None
      case Some(k) => Some(k + 1)
  }

  /** The outcome of parsing a typed answer. */
  datatype Parsed = Value(v: Answer) | Reprompt(message: string)

  /** Some choice equals the answer once both are trimmed and lower-cased. */
  predicate HasChoice(cc: CharClasses, choices: seq<string>, text: string) {
    exists i :: 0 <= i < |choices| && Norm(cc, choices[i]) == Norm(cc, text)
  }

  /** `v` is the earliest choice equal to the answer under that comparison. */
  predicate IsFirstChoice(cc: CharClasses, choices: seq<string>, text: string, v: Answer) {
    exists i :: && 0 <= i < |choices| && v == Str(choices[i])
                && Norm(cc, choices[i]) == Norm(cc, text)
                && forall j :: 0 <= j < i ==> Norm(cc, choices[j]) != Norm(cc, text)
  }

  /** Lines 1082-1089: the first choice equal to the answer after both are
      trimmed and lower-cased. */
  function ParseChoice(cc: CharClasses, choices: seq<string>, text: string): (r: Parsed)
    ensures r.Value? <==> HasChoice(cc, choices, text)
    ensures r.Value? ==> IsFirstChoice(cc, choices, text, r.v)
    ensures r.Reprompt? ==> r.message == "Пожалуйста, выберите: " + Join(choices, ", ")
  {
    match Find(Norms(cc, choices), Norm(cc, text))
    case None => Reprompt("Пожалуйста, выберите: " + Join(choices, ", "))
    case Some(i) => Value(Str(choices[i]))
  }

  /** `str.isdigit()`: non-empty, and every character a digit of some kind. */
  predicate IsDigitText(cc: CharClasses, s: string) {
    |s| > 0 && forall i :: 0 <= i < |s| ==> cc.isDigitLike(s[i])
  }

  /** What `int()` accepts among such strings: decimal digits only. */
  predicate IsDecimalText(cc: CharClasses, s: string) {
    |s| > 0 && forall i :: 0 <= i < |s| ==> cc.isDigit(s[i])
  }

  datatype NumberRead = Read(n: int) | NotANumber | Raises

  /** Lines 1092-1097 as written: `isdigit()` guards `int()`, but accepts
      digits `int()` rejects, such as superscripts; `int()` then raises, and
      the exception leaves the handler with no reply. */
  function ParseNumberAsWritten(cc: CharClasses, text: string): (r: NumberRead)
    ensures r == NotANumber <==> !IsDigitText(cc, text)
    ensures r == Raises <==> IsDigitText(cc, text) && !IsDecimalText(cc, text)
    ensures r.Read? ==> IsDecimalText(cc, text)
    ensures IsDigitText(cc, text) && IsDecimalText(cc, text) ==> r == Read(DigitsValue(cc.digitValue, text))
  {
    if !IsDigitText(cc, text) then NotANumber
    else if IsDecimalText(cc, text) then Read(DigitsValue(cc.digitValue, text))
    else Raises
  }

  /** The superscript two passes the guard and makes `int()` raise. */
  lemma SuperscriptRaises(cc: CharClasses)
    requires WellFormed(cc)
    ensures ParseNumberAsWritten(cc, "²") == Raises
  {
    assert !cc.isDigit("²"[0]);
  }

  /** The evident intent: accept what `int()` reads, ask again otherwise. */
  function ParseNumber(cc: CharClasses, text: string): (r: NumberRead)
    requires WellFormed(cc)
    ensures r != Raises
    ensures r.Read? <==> IsDecimalText(cc, text)
    ensures r.Read? ==> r.n >= 0 && r.n == DigitsValue(cc.digitValue, text)
  {
    if IsDecimalText(cc, text) then
      DigitsValueNonNegative(cc, text);
      Read(DigitsValue(cc.digitValue, text))
    else NotANumber
  }

  /** The corrected parser agrees with the code wherever the code does not
      raise. */
  lemma ParseNumberAgrees(cc: CharClasses, text: string)
    requires WellFormed(cc) && ParseNumberAsWritten(cc, text) != Raises
    ensures ParseNumber(cc, text) == ParseNumberAsWritten(cc, text)
  {
  }

  lemma {:induction false} DigitsValueNonNegative(cc: CharClasses, s: string)
    requires WellFormed(cc)
    requires forall i :: 0 <= i < |s| ==> cc.isDigit(s[i])
    ensures DigitsValue(cc.digitValue, s) >= 0
    decreases |s|
  {
    if s != "" {
      DigitsValueNonNegative(cc, s[..|s| - 1]);
    }
  }

  /** On ASCII digits the value is the ordinary decimal value. */
  lemma {:induction false} DigitsValueAscii(cc: CharClasses, s: string)
    requires WellFormed(cc) && AllAsciiDigits(s)
    ensures DigitsValue(cc.digitValue, s) == DigitsValue(AsciiDigitValue, s)
    decreases |s|
  {
    if s != "" {
      DigitsValueAscii(cc, s[..|s| - 1]);
    }
  }

  /** An ASCII numeral reads as the decimal number it spells. */
  lemma ParseNumberDecimal(cc: CharClasses, text: string)
    requires WellFormed(cc) && |text| > 0 && AllAsciiDigits(text)
    ensures ParseNumber(cc, text) == Read(ParseDecimal(text).value)
  {
    DigitsValueAscii(cc, text);
  }

  /** Lines 1082-1105: the value of a typed answer, by the type of the step. */
  function ParseAnswer(cc: CharClasses, s: StepDef, text: string): (r: Parsed)
    requires WellFormed(cc)
    ensures match s.kind
      case NumberKind =>
        && (r.Value? <==> IsDecimalText(cc, text))
        && if r.Value? then r.v == Num(DigitsValue(cc.digitValue, text)) else r == Reprompt("Нужно целое число.")
      case ChoiceKind =>
        && (r.Value? <==> HasChoice(cc, s.choices, text))
        && (r.Value? ==> IsFirstChoice(cc, s.choices, text, r.v))
        && (r.Reprompt? ==> r.message == "Пожалуйста, выберите: " + Join(s.choices, ", "))
      case ListKind => r == Value(Items(Filter(StripAll(cc, Split(text, ',')), IsNonEmpty)))
      case UrlOrSkipKind => r == Value(Str(IsUrlOrSkip(cc, Some(text))))
      case _ => r == Value(Str(text))
  {
    match s.kind
    case ChoiceKind => ParseChoice(cc, s.choices, text)
    case ChoiceFreeKind => Value(Str(text))
    case NumberKind =>
      (match ParseNumber(cc, text)
       case Read(n) => Value(Num(n))
       case _ => Reprompt("Нужно целое число."))
    case ListKind => Value(Items(StripNonEmpty(cc, Split(text, ','))))
    case UrlOrSkipKind => Value(Str(IsUrlOrSkip(cc, Some(text))))
    case _ => Value(Str(text))
  }

  /** A user's message: sent by the bot itself, carrying a photo, its raw
      text, and for a photo the path it was saved to (None when the download
      raised). */
  datatype Incoming = Incoming(out: bool, photo: bool, rawText: Option<string>, saved: Option<string>)

  /** The key a photo is stored under (line 1055). */
  function PhotoKey(slot: nat): string {
    "photo" + IntToDecimal(slot) + "_id"
  }

  /** The reply to typed text on a buttons-only step (line 1078). */
  const ButtonsOnlyPrompt: string := "Пожалуйста, используйте кнопки ниже 🙏"

  /** Lines 1035-1107 on the current step `s`, numbered `w.step`: a photo
      step takes a saved photo; any other step takes the trimmed text,
      unless it is buttons-only or the text does not parse. */
  function AnswerOn(cc: CharClasses, s: StepDef, w: Wizard, msg: Incoming): (m: Move)
    requires WellFormed(cc)
    ensures m.Unchanged? || m.Prompt? || m.Next?
    ensures m.Next? ==> m.w == w.(answers := m.w.answers, step := w.step + 1) && !ButtonOnly(s)
    ensures m.Next? && s.kind != PhotoKind ==>
      var text := Strip(cc, msg.rawText.GetOr(""));
      ParseAnswer(cc, s, text).Value? && m.w.answers == w.answers[s.key := ParseAnswer(cc, s, text).v]
    ensures m.Next? && s.kind == PhotoKind ==>
      msg.photo && msg.saved.Some?
      && m.w.answers == w.answers[PhotoKey(s.slot.GetOr(w.step + 1)) := Str(msg.saved.value)]
    ensures m.Prompt? ==> s.kind != PhotoKind
    ensures s.kind == PhotoKind ==> (m.Next? <==> msg.photo && msg.saved.Some?) && (m.Next? || m.Unchanged?)
    ensures s.kind != PhotoKind ==>
      var parsed := ParseAnswer(cc, s, Strip(cc, msg.rawText.GetOr("")));
      && (m.Next? <==> !ButtonOnly(s) && parsed.Value?)
      && (ButtonOnly(s) ==> m == Prompt(ButtonsOnlyPrompt))
      && (!ButtonOnly(s) && parsed.Reprompt? ==> m == Prompt(parsed.message))
  {
    if s.kind == PhotoKind then
      if !msg.photo || msg.saved.None? then Unchanged
      else
        var key := PhotoKey(s.slot.GetOr(w.step + 1));
        Next(w.(answers := w.answers[key := Str(msg.saved.value)], step := w.step + 1))
    else
      var text := Strip(cc, msg.rawText.GetOr(""));
      if ButtonOnly(s) then Prompt(ButtonsOnlyPrompt)
      else
        match ParseAnswer(cc, s, text)
        case Value(v) => Next(w.(answers := w.answers[s.key := v], step := w.step + 1))
        case Reprompt(why) => Prompt(why)
  }

  /** Lines 1016-1033 (`handle_answer`): the bot's own messages, messages
      with neither a photo nor text, and messages past the last step are
      ignored. */
  function HandleAnswer(cc: CharClasses, w: Wizard, msg: Incoming): (m: Move)
    requires WellFormed(cc)
    ensures m.Next? ==> w.step < |Steps| && !msg.out && m == AnswerOn(cc, Steps[w.step], w, msg)
    ensures msg.out ==> m.Unchanged?
    ensures var blank := msg.rawText.None? || Strip(cc, msg.rawText.value) == "";
      if !msg.out && (msg.photo || !blank) && w.step < |Steps| then m == AnswerOn(cc, Steps[w.step], w, msg)
      else m.Unchanged?
  {
    var blank := msg.rawText.None? || Strip(cc, msg.rawText.value) == "";
    if msg.out || (!msg.photo && blank) || w.step >= |Steps| then Unchanged
    else AnswerOn(cc, Steps[w.step], w, msg)
  }

  /** Every photo is stored under its step's own key. */
  lemma PhotoKeysMatchSteps()
    ensures forall i :: 16 <= i < |Steps| ==> Steps[i].kind == PhotoKind && PhotoKey(Steps[i].slot.GetOr(i + 1)) == Steps[i].key
  {
    assert PhotoKey(1) == "photo1_id";
    assert PhotoKey(2) == "photo2_id";
    assert PhotoKey(3) == "photo3_id";
    assert PhotoKey(4) == "photo4_id";
  }

  /** Typing never answers a buttons-only step, so the choice parser of
      lines 1082-1089 is never reached in the configured wizard: every
      choice step is buttons-only. */
  lemma TypingNeverAnswersButtons(cc: CharClasses, s: StepDef, w: Wizard, msg: Incoming)
    requires WellFormed(cc) && ButtonOnly(s)
    ensures !AnswerOn(cc, s, w, msg).Next?
  {
  }
}

=== FILE: telegram.dfy ===
/**
 The parts of a Telegram message (Telethon's `Message`) that the mirror and
 the personal matcher look at, and Python's truthiness rules for them.

 An attribute the object lacks reads as `None` here. For the thread fields
 that is what `getattr(message, name, None)` gives (telegram_bot/mirror.py
 lines 62-66). The text fields are read with the default `''` instead
 (lines 77-79); Telethon's `Message` always has `message`, `text` and
 `raw_text`, so that default does not arise, and `None` here stands for an
 attribute that holds `None`.
 */
module Telegram {
  import opened Text

  /** `message.reply_to`: the header of the message this one answers. */
  datatype ReplyHeader = ReplyHeader(replyToTopId: Option<int>, replyToMsgId: Option<int>)

  datatype TgMessage = TgMessage(
    messageThreadId: Option<int>,
    threadId: Option<int>,
    replyToTopId: Option<int>,
    topMsgId: Option<int>,
    topicId: Option<int>,
    replyTo: Option<ReplyHeader>,
    message: Option<string>,
    text: Option<string>,
    rawText: Option<string>,
    photo: bool,
    media: bool)

  /** An int is truthy unless it is 0; None is falsy. */
  predicate IsTruthyInt(x: Option<int>) {
    x.Some? && x.value != 0
  }

  /** A string is truthy unless it is empty; None is falsy. */
  predicate IsTruthyText(x: Option<string>) {
    x.Some? && x.value != ""
  }

  /** Python's `x1 or x2 or ... or xn`: the first truthy operand, or the last
      operand when none is truthy. */
  function PyOr<T>(xs: seq<T>, truthy: T -> bool): (r: T)
    requires |xs| > 0
    ensures r in xs
    ensures truthy(r) <==> exists i :: 0 <= i < |xs| && truthy(xs[i])
    ensures truthy(r) ==> exists i :: 0 <= i < |xs| && xs[i] == r && forall j :: 0 <= j < i ==> !truthy(xs[j])
    ensures !truthy(r) ==> r == xs[|xs| - 1]
    decreases |xs|
  {
    if |xs| == 1 || truthy(xs[0]) then xs[0]
    else
      var r := PyOr(xs[1..], truthy);
      assert forall i :: 1 <= i < |xs| ==> xs[i] == xs[1..][i - 1];
      r
  }

  /** How an f-string shows an optional string: None becomes "None". */
  function Shown(x: Option<string>): string {
    match x
    case Some(s) => s
    case None => "None"
  }

  /** `raw_text or ""` and similar: a falsy string reads as "". */
  function TextOr(x: Option<string>): (r: string)
    ensures IsTruthyText(x) ==> r == x.value
    ensures !IsTruthyText(x) ==> r == ""
  {
    if IsTruthyText(x) then x.value else ""
  }
}

=== FILE: telegram_mirror.dfy ===
/**
 The Telegram mirror's message handler (telegram_bot/mirror.py `handler`):
 keep messages from the watched chats and topics, drop link-preview
 thumbnails, ask the classifier, check the duplicate history, format, and
 post the result to the destination topic, with the photo when the text
 points at it.

 Everything the handler learns from outside — the chat and its title, the
 downloaded image's size (or the download's exception), the classifier's and the formatter's replies, the
 OCR text, the history file, whether the Bot API request raised — is an
 input. The destination chat and topic come from the environment and are
 not modelled.
 */
module TelegramMirror {
  import opened Text
  import opened Telegram
  import opened Completion
  import opened Classifier
  import opened Dedup
  import opened Formatter
  import opened Ingest

  /** Topics watched in forum chats, as "chat_thread" (lines 31-34). */
  const SourceThreads: set<string> := {"-1002712928305_3", "-1001343083522_40014"}

  /** Chats watched as a whole (lines 37-49). */
  const SourceWithoutTopic: seq<int> := [
    -4690232474, -1002867564870, -1001185887859, -1001496435905,
    -1001558970072, -1001228544389, -1001283285008, -1002637607696,
    -1002692826194, -1002111636925, -1002222308517]

  /** The chat part of a "chat_thread" key, read with int(). */
  function ChatOfKey(key: string): Option<int> {
    ParseDecimal(Split(key, '_')[0])
  }

  /** The chats the client subscribes to (line 52): the chats of the watched
      topics and the chats watched as a whole. */
  function AllSources(): set<int> {
    (set key | key in SourceThreads && ChatOfKey(key).Some? :: ChatOfKey(key).value)
      + (set c | c in SourceWithoutTopic)
  }

  /** Lines 62-66: `thread_id or message_thread_id or reply_to.reply_to_msg_id`,
      with None for the last operand when there is no reply header. */
  function ThreadOf(m: TgMessage): (t: Option<int>)
    ensures var cands := [m.threadId, m.messageThreadId, if m.replyTo.Some? then m.replyTo.value.replyToMsgId else None];
      && (IsTruthyInt(t) <==> exists i :: 0 <= i < 3 && IsTruthyInt(cands[i]))
      && (IsTruthyInt(t) ==> exists i :: 0 <= i < 3 && cands[i] == t && forall j :: 0 <= j < i ==> !IsTruthyInt(cands[j]))
      && (!IsTruthyInt(t) ==> t == cands[2])
  {
    PyOr([m.threadId, m.messageThreadId, if m.replyTo.Some? then m.replyTo.value.replyToMsgId else None], IsTruthyInt)
  }

  /** How the f-string on line 67 shows the thread. */
  function ThreadText(t: Option<int>): string {
    match t
    case Some(n) => IntToDecimal(n)
    case None => "None"
  }

  function ChatKey(chat: int, t: Option<int>): string {
    IntToDecimal(chat) + "_" + ThreadText(t)
  }

  /** Lines 69-75: the source filter. */
  predicate Passes(chat: int, m: TgMessage) {
    chat in SourceWithoutTopic || ChatKey(chat, ThreadOf(m)) in SourceThreads
  }

  /** A key splits back into the chat's numeral and the thread's text, and
      its chat part reads back as the chat. */
  lemma ChatKeyDecodes(chat: int, t: Option<int>)
    ensures Split(ChatKey(chat, t), '_') == [IntToDecimal(chat), ThreadText(t)]
    ensures ChatOfKey(ChatKey(chat, t)) == Some(chat)
  {
    var parts := [IntToDecimal(chat), ThreadText(t)];
    assert Join(parts, "_") == ChatKey(chat, t);
    assert '_' !in IntToDecimal(chat);
    assert '_' !in ThreadText(t) by {
      if t.Some? {
        assert '_' !in IntToDecimal(t.value);
      }
    }
    SplitJoin(parts, '_');
    DecimalRoundTrip(chat);
  }

  /** Distinct (chat, thread) pairs have distinct keys, so the string filter
      is a filter on pairs. */
  lemma ChatKeyInjective(chat: int, t: Option<int>, chat': int, t': Option<int>)
    requires ChatKey(chat, t) == ChatKey(chat', t')
    ensures chat == chat' && t == t'
  {
    ChatKeyDecodes(chat, t);
    ChatKeyDecodes(chat', t');
    DecimalInjective(chat, chat');
    if t.Some? {
      assert IntToDecimal(t.value)[0] != 'N';
    }
    if t'.Some? {
      assert IntToDecimal(t'.value)[0] != 'N';
    }
    if t.Some? && t'.Some? {
      DecimalInjective(t.value, t'.value);
    }
  }

  /** Every message the filter lets through comes from a chat the client
      subscribes to. */
  lemma PassesSubscribed(chat: int, m: TgMessage)
    requires Passes(chat, m)
    ensures chat in AllSources()
  {
    if chat !in SourceWithoutTopic {
      var key := ChatKey(chat, ThreadOf(m));
      ChatKeyDecodes(chat, ThreadOf(m));
      assert key in SourceThreads && ChatOfKey(key) == Some(chat);
    }
  }

  /** A message of a forum chat that carries no thread at all never matches
      a watched topic. */
  lemma NoThreadNoTopic(chat: int, m: TgMessage)
    requires ThreadOf(m) == None
    ensures Passes(chat, m) <==> chat in SourceWithoutTopic
  {
    var key := ChatKey(chat, None);
    assert key[|key| - 1] == 'e';
    forall s | s in SourceThreads
      ensures s[|s| - 1] != 'e'
    {
    }
  }

  /** The image as `message.download_media()` left it: its size in bytes and
      its pixel size, or None when PIL could not open it. */
  datatype Download = Download(size: int, dims: Option<(int, int)>)

  /** Lines 94-101: a Telegram link preview is small in bytes or in both
      dimensions; an image PIL cannot open counts as 0x0. */
  predicate IsPreview(d: Download) {
    var (w, h) := d.dims.GetOr((0, 0));
    d.size < 15000 || (w <= 150 && h <= 150)
  }

  /** Phrases that say the photo matters (lines 123-127). */
  const Triggers: seq<string> := [
    "как на фото", "как на картинке", "как на изображении",
    "см. фото", "смотри фото", "см. картинку",
    "like the photo", "as in the photo", "see photo"]

  /** Lines 128-130: a trigger occurs in the lower-cased text or in the
      lower-cased OCR text, each searched on its own. */
  predicate KeepPhoto(cc: CharClasses, text: string, ocr: string) {
    ContainsAny(Lower(cc, text), Triggers) || ContainsAny(Lower(cc, ocr), Triggers)
  }

  const UnknownSource: string := "Источник неизвестен"

  /** Lines 81 and 136: the chat title, unescaped, in a block quote. */
  function Quote(title: Option<string>): string {
    "<blockquote>Источник(Telegram): " + title.GetOr(UnknownSource) + "</blockquote>"
  }

  /** Everything the handler receives from outside for one message. */
  datatype Inputs = Inputs(
    chat: int,
    title: Option<string>,            // None when the chat has no title attribute
    downloadRaises: bool,             // download_media raised
    download: Option<Download>,       // None when download_media returned nothing
    verdict: Reply,                   // the classifier's reply
    ocr: string,                      // the OCR text of the kept image
    ratio: (string, string) -> real,  // SequenceMatcher's ratio
    history: StoreFile,               // the duplicate history file
    replies: nat -> Reply,            // the formatter's replies
    sendRaises: bool)                 // the Bot API request raised

  /** Lines 77-79: the first truthy of `message`, `text`, `raw_text`. */
  function Body(m: TgMessage): Option<string> {
    PyOr([m.message, m.text, m.rawText], IsTruthyText)
  }

  /** Line 89: a download that raises ends in the catch-all on line 173
      before the classifier is asked and with no file on disk. */
  predicate DownloadRaises(m: TgMessage, w: Inputs) {
    m.photo && w.downloadRaises
  }

  /** Lines 86-104: the image survives when the message has a photo, the
      download gave a file, and the file is not a link preview. */
  predicate Kept(m: TgMessage, w: Inputs) {
    m.photo && !w.downloadRaises && w.download.Some? && !IsPreview(w.download.value)
  }

  /** The history check on line 116. */
  function HistoryCheck(cc: CharClasses, m: TgMessage, w: Inputs): Outcome {
    DecidePy(w.ratio, KeyPy(cc, Body(m), Some(if Kept(m, w) then w.ocr else "")), w.history)
  }

  /** The message posted on lines 133-137. */
  function FinalMessage(cc: CharClasses, m: TgMessage, w: Inputs): string {
    Format(cc, Py, Shown(Body(m)), w.replies).text + "\n\n" + Quote(w.title)
  }

  /** The handler's control flow, given what each stage found: whether the
      source filter let the message through, whether the download raised,
      the classifier's verdict, the
      history check's outcome, whether the Bot API request raised, whether
      an image was kept, the message to post and whether a trigger phrase
      was found. An exception from the history check or from the request
      ends in the catch-all on line 173 and skips the removal of the image
      on line 169. */
  function Route(passes: bool, downloadRaises: bool, casting: bool, check: Outcome, sendRaises: bool,
                 kept: bool, message: string, trigger: bool): (r: Run)
    ensures r.reached <= |Stages| && r.reached != 3
    ensures r.reached == 0 <==> !passes || downloadRaises
    ensures r.reached >= 2 <==> passes && !downloadRaises && casting
    ensures r.reached == |Stages| <==> r.reached >= 2 && check.Recorded?
    ensures r.outcome == Stopped(Filtered) <==> !passes
    ensures r.outcome == Stopped(NotCasting) <==> r.reached == 1
    ensures r.outcome == Stopped(Repeated) <==> r.reached >= 2 && check == Duplicate
    ensures r.outcome.Posted? <==> r.reached == |Stages| && !sendRaises
    ensures r.outcome == Stopped(Crashed) <==>
      (passes && downloadRaises) || (r.reached == 2 && !check.Duplicate?) || (r.reached == |Stages| && sendRaises)
    ensures r.outcome.Posted? ==> r.outcome == Posted(message, kept && trigger)
    ensures r.leftover <==> r.reached >= 2 && r.outcome == Stopped(Crashed) && kept
  {
    if !passes then Run(Stopped(Filtered), 0, false)
    else if downloadRaises then Run(Stopped(Crashed), 0, false)
    else if !casting then Run(Stopped(NotCasting), 1, false)
    else
      match check
      case Duplicate => Run(Stopped(Repeated), 2, false)
      case Recorded(_) =>
        if sendRaises then Run(Stopped(Crashed), 4, kept)
        else Run(Posted(message, kept && trigger), 4, false)
      case _ => Run(Stopped(Crashed), 2, kept)
  }

  /** telegram_bot/mirror.py `handler`. */
  function Handle(cc: CharClasses, m: TgMessage, w: Inputs): (r: Run)
    ensures r.outcome.Posted? <==>
      Passes(w.chat, m) && !DownloadRaises(m, w) && IsCastingPy(cc, w.verdict) &&
      HistoryCheck(cc, m, w).Recorded? && !w.sendRaises
    ensures r.leftover ==> Kept(m, w) && (HistoryCheck(cc, m, w) == Raised || w.sendRaises)
  {
    Route(Passes(w.chat, m), DownloadRaises(m, w), IsCastingPy(cc, w.verdict), HistoryCheck(cc, m, w), w.sendRaises,
          Kept(m, w), FinalMessage(cc, m, w), KeepPhoto(cc, TextOr(Body(m)), w.ocr))
  }

  /** A filtered message consults nothing: the result does not depend on
      any service. */
  lemma FilteredConsultsNothing(cc: CharClasses, m: TgMessage, w: Inputs, w': Inputs)
    requires !Passes(w.chat, m) && w'.chat == w.chat
    ensures Handle(cc, m, w) == Handle(cc, m, w')
  {
  }

  /** A message the classifier rejects stops before the OCR text, the history,
      the formatter and the Bot API are used. */
  lemma NotCastingStopsBeforeHistory(cc: CharClasses, m: TgMessage, w: Inputs, w': Inputs)
    requires !IsCastingPy(cc, w.verdict)
    requires w'.chat == w.chat && w'.verdict == w.verdict && w'.downloadRaises == w.downloadRaises
    ensures Handle(cc, m, w) == Handle(cc, m, w')
  {
  }

  /** A repeated casting stops before the formatter and the Bot API are used. */
  lemma RepeatedStopsBeforeTemplate(cc: CharClasses, m: TgMessage, w: Inputs, w': Inputs)
    requires Passes(w.chat, m) && !DownloadRaises(m, w) && IsCastingPy(cc, w.verdict)
    requires HistoryCheck(cc, m, w) == Duplicate
    requires w' == w.(replies := w'.replies, sendRaises := w'.sendRaises, title := w'.title)
    ensures Handle(cc, m, w') == Run(Stopped(Repeated), 2, false)
  {
    assert HistoryCheck(cc, m, w') == HistoryCheck(cc, m, w);
  }

  /** A download that raises stops the handler before the classifier, with
      nothing left on disk. */
  lemma DownloadRaiseStopsFirst(cc: CharClasses, m: TgMessage, w: Inputs)
    requires Passes(w.chat, m) && DownloadRaises(m, w)
    ensures Handle(cc, m, w) == Run(Stopped(Crashed), 0, false)
  {
  }

  /** A link preview, an image PIL cannot read included, is never posted. */
  lemma PreviewNeverPosted(cc: CharClasses, m: TgMessage, w: Inputs)
    requires w.download.Some? && (w.download.value.dims == None || IsPreview(w.download.value))
    ensures Handle(cc, m, w).outcome.Posted? ==> !Handle(cc, m, w).outcome.withPhoto
  {
    assert IsPreview(w.download.value);
    assert !Kept(m, w);
    NoPhotoWithout(cc, m, w);
  }

  /** The photo goes out only with a kept image and a trigger phrase. */
  lemma NoPhotoWithout(cc: CharClasses, m: TgMessage, w: Inputs)
    ensures Handle(cc, m, w).outcome.Posted? && Handle(cc, m, w).outcome.withPhoto ==>
      Kept(m, w) && KeepPhoto(cc, TextOr(Body(m)), w.ocr)
  {
    var kept, trigger := Kept(m, w), KeepPhoto(cc, TextOr(Body(m)), w.ocr);
    var r := Route(Passes(w.chat, m), DownloadRaises(m, w), IsCastingPy(cc, w.verdict), HistoryCheck(cc, m, w),
                   w.sendRaises, kept, FinalMessage(cc, m, w), trigger);
    assert Handle(cc, m, w) == r;
    assert r.outcome.Posted? ==> r.outcome.withPhoto == (kept && trigger);
  }

  /** The photo goes out only with a trigger phrase; without one the post is
      text alone, whatever the image. */
  lemma PhotoNeedsTrigger(cc: CharClasses, m: TgMessage, w: Inputs)
    requires !KeepPhoto(cc, TextOr(Body(m)), w.ocr)
    ensures Handle(cc, m, w).outcome.Posted? ==> !Handle(cc, m, w).outcome.withPhoto
  {
    NoPhotoWithout(cc, m, w);
  }

  /** A posted message is the formatted casting, a blank line and the
      source quote; the formatted casting is the message's own text or an
      answer free of refusal markers. */
  lemma PostedMessage(cc: CharClasses, m: TgMessage, w: Inputs)
    requires Handle(cc, m, w).outcome.Posted?
    ensures exists f ::
      && Handle(cc, m, w).outcome.message == f + "\n\n" + Quote(w.title)
      && (f == Shown(Body(m)) || (f != "" && !ContainsAny(Lower(cc, f), PyMarkers)))
  {
    var f := Format(cc, Py, Shown(Body(m)), w.replies).text;
    FormatResult(cc, Py, Shown(Body(m)), w.replies);
    assert Handle(cc, m, w).outcome.message == f + "\n\n" + Quote(w.title);
  }
}

=== FILE: text.dfy ===
/**
 String vocabulary shared by every component: an optional value, the Unicode
 character classes and case mapping the source relies on (kept abstract), and
 the small string operations the Python and JavaScript code call on them
 (strip/trim, lower, startswith, `in`, split, join).
 */
module Text {

  datatype Option<T> = None | Some(value: T) {
    function GetOr(default: T): T {
      match this
      case Some(v) => v
      case None => default
    }
  }

  /** The character classes and the case mapping the source uses. They are
      Unicode tables in the original, so the model leaves them as parameters
      and only pins down the facts listed in `WellFormed`. */
  datatype CharClasses = CharClasses(
    isLetter: char -> bool,     // \p{L}
    isNumber: char -> bool,     // \p{N}
    isDigit: char -> bool,      // \d of Python's regex module: decimal digits, the ones int() reads
    isDigitLike: char -> bool,  // str.isdigit(): decimal digits and other digits such as superscripts
    isSpace: char -> bool,      // \s of Python, and what str.strip() removes
    isJsSpace: char -> bool,    // \s of JavaScript, and what String.prototype.trim() removes
    lower: char -> char,        // simple per-character lower-case mapping
    digitValue: char -> int)    // the value int() gives a decimal digit

  predicate IsAscii(c: char) {
    (c as int) < 128
  }

  predicate IsAsciiDigit(c: char) {
    '0' <= c <= '9'
  }

  function AsciiDigitValue(c: char): int {
    c as int - '0' as int
  }

  function AsciiLower(c: char): char {
    if 'A' <= c <= 'Z' then (c as int + 32) as char else c
  }

  /** ASCII punctuation the model needs to know is neither letter, number nor space. */
  predicate IsPunctuation(c: char) {
    c == '#' || c == '@' || c == '|' || c == '_' || c == '.' || c == '&' || c == '<' || c == '>' || c == ',' || c == '-'
  }

  /** The facts about the Unicode tables that the proofs rely on. */
  ghost predicate WellFormed(cc: CharClasses) {
    && (forall c :: cc.isDigit(c) ==> cc.isDigitLike(c))
    && (forall c :: cc.isDigitLike(c) ==> cc.isNumber(c))
    && (forall c :: cc.isDigit(c) ==> cc.lower(c) == c)
    && (forall c :: cc.isSpace(c) ==> !cc.isLetter(c) && !cc.isNumber(c))
    && (forall c :: cc.isJsSpace(c) ==> !cc.isLetter(c) && !cc.isNumber(c))
    && (forall c :: cc.isNumber(c) ==> !cc.isLetter(c))
    && (forall c :: cc.lower(cc.lower(c)) == cc.lower(c))
    && (forall c :: IsAscii(c) ==> cc.lower(c) == AsciiLower(c))
    && (forall c :: IsAsciiDigit(c) ==> cc.isDigit(c))
    && (forall c :: cc.isDigit(c) ==> 0 <= cc.digitValue(c) <= 9)
    && (forall c :: IsAsciiDigit(c) ==> cc.digitValue(c) == AsciiDigitValue(c))
    && (forall c :: 'a' <= c <= 'z' ==> cc.isLetter(c))
    && (forall c :: IsPunctuation(c) ==> !cc.isLetter(c) && !cc.isNumber(c) && !cc.isSpace(c) && !cc.isJsSpace(c))
    && cc.isSpace(' ') && cc.isJsSpace(' ')
    // SUPERSCRIPT TWO: str.isdigit() accepts it, int() and \d do not
    && cc.isDigitLike('²') && !cc.isDigit('²')
    // Cyrillic small letters are letters and their own lower case
    && (forall c :: 'а' <= c <= 'я' ==> cc.isLetter(c) && cc.lower(c) == c)
  }

  /** Python's str.lower() / JavaScript's toLowerCase(), character by character. */
  function Lower(cc: CharClasses, s: string): (r: string)
    ensures |r| == |s|
    ensures forall i :: 0 <= i < |s| ==> r[i] == cc.lower(s[i])
  {
    seq(|s|, i requires 0 <= i < |s| => cc.lower(s[i]))
  }

  /** Lower-casing commutes with slicing and concatenation. */
  lemma LowerAppend(cc: CharClasses, a: string, b: string)
    ensures Lower(cc, a + b) == Lower(cc, a) + Lower(cc, b)
  {
  }

  lemma LowerSlice(cc: CharClasses, s: string, i: nat, j: nat)
    requires i <= j <= |s|
    ensures Lower(cc, s[i..j]) == Lower(cc, s)[i..j]
  {
  }

  /** The longest suffix of `s` that does not start with a character satisfying `p`. */
  function DropWhile(s: string, p: char -> bool): (r: string)
    ensures |r| <= |s| && r == s[|s| - |r|..]
    ensures |r| > 0 ==> !p(r[0])
    ensures forall i :: 0 <= i < |s| - |r| ==> p(s[i])
    decreases |s|
  {
    if |s| > 0 && p(s[0]) then DropWhile(s[1..], p) else s
  }

  /** The first index from `i` on that does not hold white space (`|s|` if none). */
  function SpaceEnd(cc: CharClasses, s: string, i: nat): (n: nat)
    requires i <= |s|
    ensures i <= n <= |s|
    ensures forall k :: i <= k < n ==> cc.isSpace(s[k])
    ensures n < |s| ==> !cc.isSpace(s[n])
    decreases |s| - i
  {
    if i < |s| && cc.isSpace(s[i]) then SpaceEnd(cc, s, i + 1) else i
  }

  /** The scan is determined by what it promises. */
  lemma {:induction false} SpaceEndUnique(cc: CharClasses, s: string, i: nat, n: nat)
    requires i <= n <= |s|
    requires forall k :: i <= k < n ==> cc.isSpace(s[k])
    requires n < |s| ==> !cc.isSpace(s[n])
    ensures SpaceEnd(cc, s, i) == n
    decreases |s| - i
  {
    if i < n {
      SpaceEndUnique(cc, s, i + 1, n);
    }
  }

  /** The end of `s[lo..j]` once its trailing white space is dropped. */
  function SpaceStart(cc: CharClasses, s: string, lo: nat, j: nat): (m: nat)
    requires lo <= j <= |s|
    ensures lo <= m <= j
    ensures forall k :: m <= k < j ==> cc.isSpace(s[k])
    ensures m > lo ==> !cc.isSpace(s[m - 1])
    decreases j
  {
    if j > lo && cc.isSpace(s[j - 1]) then SpaceStart(cc, s, lo, j - 1) else j
  }

  lemma {:induction false} SpaceStartUnique(cc: CharClasses, s: string, lo: nat, j: nat, m: nat)
    requires lo <= m <= j <= |s|
    requires forall k :: m <= k < j ==> cc.isSpace(s[k])
    requires m > lo ==> !cc.isSpace(s[m - 1])
    ensures SpaceStart(cc, s, lo, j) == m
    decreases j
  {
    if m < j {
      SpaceStartUnique(cc, s, lo, j - 1, m);
    }
  }

  /** How many white-space characters `strip()` removes from the front of `s`. */
  function LeadingSpace(cc: CharClasses, s: string): (n: nat)
    ensures n <= |s|
    ensures forall i :: 0 <= i < n ==> cc.isSpace(s[i])
    ensures n < |s| ==> !cc.isSpace(s[n])
  {
    SpaceEnd(cc, s, 0)
  }

  /** Python's str.strip() / JavaScript's trim(): what is left after
      dropping the leading and then the trailing white space. `StripInfix`
      says where it sits in `s`. */
  function Strip(cc: CharClasses, s: string): (r: string)
    ensures LeadingSpace(cc, s) + |r| <= |s|
    ensures |r| > 0 ==> !cc.isSpace(r[0]) && !cc.isSpace(r[|r| - 1])
    ensures forall i :: LeadingSpace(cc, s) + |r| <= i < |s| ==> cc.isSpace(s[i])
  {
    var n := LeadingSpace(cc, s);
    s[n..SpaceStart(cc, s, n, |s|)]
  }

  /** The stripped string is the infix of `s` that starts after its leading
      white space. */
  lemma StripInfix(cc: CharClasses, s: string)
    ensures var n := LeadingSpace(cc, s);
      Strip(cc, s) == s[n..n + |Strip(cc, s)|]
  {
  }

  /** `strip()` gives "" exactly for strings made of white space only. */
  lemma StripEmpty(cc: CharClasses, s: string)
    ensures (forall i :: 0 <= i < |s| ==> cc.isSpace(s[i])) <==> Strip(cc, s) == ""
  {
    var n := LeadingSpace(cc, s);
    var r := Strip(cc, s);
    if r != "" {
      assert s[n] == r[0];
    }
  }

  /** A non-empty string without surrounding white space: what a
      non-empty `strip()` gives back, and its own strip (`StripOfStripped`). */
  predicate Trimmed(cc: CharClasses, s: string) {
    |s| > 0 && !cc.isSpace(s[0]) && !cc.isSpace(s[|s| - 1])
  }

  /** A string without surrounding white space is its own strip. */
  lemma StripOfStripped(cc: CharClasses, s: string)
    requires |s| > 0 ==> !cc.isSpace(s[0]) && !cc.isSpace(s[|s| - 1])
    ensures Strip(cc, s) == s
  {
    SpaceEndUnique(cc, s, 0, 0);
    SpaceStartUnique(cc, s, 0, |s|, |s|);
  }

  /** Stripping twice is stripping once. */
  lemma StripIdempotent(cc: CharClasses, s: string)
    ensures Strip(cc, Strip(cc, s)) == Strip(cc, s)
  {
    StripOfStripped(cc, Strip(cc, s));
  }

  /** Surrounding white space does not change the stripped string. */
  lemma StripPadded(cc: CharClasses, pre: string, s: string, post: string)
    requires forall i :: 0 <= i < |pre| ==> cc.isSpace(pre[i])
    requires forall i :: 0 <= i < |post| ==> cc.isSpace(post[i])
    ensures Strip(cc, pre + s + post) == Strip(cc, s)
  {
    var u := pre + s + post;
    var n := LeadingSpace(cc, s);
    var m := SpaceStart(cc, s, n, |s|);
    PaddedLeading(cc, pre, s, post);
    if n < |s| {
      PaddedTrailing(cc, pre, s, post);
      PaddedSlice(pre, s, post, n, m);
      assert Strip(cc, u) == u[|pre| + n..|pre| + m];
    } else {
      assert Strip(cc, u) == u[|u|..|u|];
    }
  }

  lemma PaddedLeading(cc: CharClasses, pre: string, s: string, post: string)
    requires forall i :: 0 <= i < |pre| ==> cc.isSpace(pre[i])
    requires forall i :: 0 <= i < |post| ==> cc.isSpace(post[i])
    ensures LeadingSpace(cc, pre + s + post) ==
      if LeadingSpace(cc, s) == |s| then |pre + s + post| else |pre| + LeadingSpace(cc, s)
  {
    var u := pre + s + post;
    var n := LeadingSpace(cc, s);
    PaddedIndex(pre, s, post);
    var lead := |pre| + n;
    forall k | 0 <= k < lead
      ensures cc.isSpace(u[k])
    {
      if k >= |pre| {
        assert u[k] == s[k - |pre|];
      }
    }
    if n == |s| {
      forall k | lead <= k < |u|
        ensures cc.isSpace(u[k])
      {
        assert u[k] == post[k - lead];
      }
      SpaceEndUnique(cc, u, 0, |u|);
    } else {
      assert u[lead] == s[n];
      SpaceEndUnique(cc, u, 0, lead);
    }
  }

  lemma PaddedTrailing(cc: CharClasses, pre: string, s: string, post: string)
    requires forall i :: 0 <= i < |post| ==> cc.isSpace(post[i])
    requires LeadingSpace(cc, s) < |s|
    ensures var n := LeadingSpace(cc, s);
      SpaceStart(cc, pre + s + post, |pre| + n, |pre + s + post|) == |pre| + SpaceStart(cc, s, n, |s|)
  {
    var u := pre + s + post;
    var n := LeadingSpace(cc, s);
    var m := SpaceStart(cc, s, n, |s|);
    PaddedIndex(pre, s, post);
    var tail := |pre| + m;
    forall k | tail <= k < |u|
      ensures cc.isSpace(u[k])
    {
      if k < |pre| + |s| {
        assert u[k] == s[k - |pre|];
      } else {
        assert u[k] == post[k - |pre| - |s|];
      }
    }
    assert u[tail - 1] == s[m - 1];
    SpaceStartUnique(cc, u, |pre| + n, |u|, tail);
  }

  lemma PaddedSlice(pre: string, s: string, post: string, i: nat, j: nat)
    requires i <= j <= |s|
    ensures (pre + s + post)[|pre| + i..|pre| + j] == s[i..j]
  {
    PaddedIndex(pre, s, post);
  }

  /** Where the characters of `pre + s + post` come from. */
  lemma PaddedIndex(pre: string, s: string, post: string)
    ensures var u := pre + s + post;
      && |u| == |pre| + |s| + |post|
      && (forall k :: 0 <= k < |pre| ==> u[k] == pre[k])
      && (forall k :: 0 <= k < |s| ==> u[|pre| + k] == s[k])
      && (forall k :: 0 <= k < |post| ==> u[|pre| + |s| + k] == post[k])
  {
  }

  lemma {:induction false} DropWhilePrefix(pre: string, s: string, p: char -> bool)
    requires forall i :: 0 <= i < |pre| ==> p(pre[i])
    ensures DropWhile(pre + s, p) == DropWhile(s, p)
    decreases |pre|
  {
    if |pre| > 0 {
      assert (pre + s)[0] == pre[0];
      assert (pre + s)[1..] == pre[1..] + s;
      DropWhilePrefix(pre[1..], s, p);
      calc {
        DropWhile(pre + s, p);
        DropWhile((pre + s)[1..], p);
        DropWhile(pre[1..] + s, p);
      }
    } else {
      assert pre + s == s;
    }
  }

  lemma {:induction false} DropWhileAppend(s: string, t: string, p: char -> bool)
    ensures DropWhile(s, p) != "" ==> DropWhile(s + t, p) == DropWhile(s, p) + t
    ensures DropWhile(s, p) == "" ==> DropWhile(s + t, p) == DropWhile(t, p)
    decreases |s|
  {
    if |s| > 0 {
      assert (s + t)[1..] == s[1..] + t;
      if p(s[0]) {
        DropWhileAppend(s[1..], t, p);
      }
    } else {
      assert s + t == t;
    }
  }

  /** Python's str.startswith / JavaScript's startsWith. */
  predicate StartsWith(s: string, prefix: string) {
    |prefix| <= |s| && s[..|prefix|] == prefix
  }

  /** Python's `t in s` / JavaScript's s.includes(t). */
  predicate Contains(s: string, t: string)
    decreases |s|
  {
    StartsWith(s, t) || (|s| > 0 && Contains(s[1..], t))
  }

  /** `any(m in s for m in ts)` / ts.some(m => s.includes(m)). */
  predicate ContainsAny(s: string, ts: seq<string>) {
    exists k :: 0 <= k < |ts| && Contains(s, ts[k])
  }

  lemma ContainsAnyAt(s: string, ts: seq<string>, k: nat)
    requires k < |ts| && Contains(s, ts[k])
    ensures ContainsAny(s, ts)
  {
  }

  /** Only a string no longer than `s` occurs in it. */
  lemma ContainsShorter(s: string, t: string)
    requires Contains(s, t)
    ensures |t| <= |s|
  {
    var k := ContainsWitness(s, t);
  }

  /** Whatever occurs in an infix of `s` occurs in `s`. */
  lemma ContainsAnyInfix(s: string, i: nat, j: nat, ts: seq<string>)
    requires i <= j <= |s| && ContainsAny(s[i..j], ts)
    ensures ContainsAny(s, ts)
  {
    var k :| 0 <= k < |ts| && Contains(s[i..j], ts[k]);
    ContainsInfix(s, i, j, ts[k]);
  }

  /** `t` occurs in `s` exactly when it occurs at some offset. */
  lemma {:induction false} ContainsAt(s: string, t: string, k: nat)
    requires k + |t| <= |s| && s[k..k + |t|] == t
    ensures Contains(s, t)
    decreases k
  {
    if k > 0 {
      assert s[1..][k - 1..k - 1 + |t|] == s[k..k + |t|];
      ContainsAt(s[1..], t, k - 1);
    }
  }

  lemma {:induction false} ContainsWitness(s: string, t: string) returns (k: nat)
    requires Contains(s, t)
    ensures k + |t| <= |s| && s[k..k + |t|] == t
    decreases |s|
  {
    if StartsWith(s, t) {
      k := 0;
    } else {
      var k' := ContainsWitness(s[1..], t);
      k := k' + 1;
      assert s[k..k + |t|] == s[1..][k'..k' + |t|];
    }
  }

  /** An occurrence in a part is an occurrence in the whole. */
  lemma ContainsInfix(s: string, i: nat, j: nat, t: string)
    requires i <= j <= |s| && Contains(s[i..j], t)
    ensures Contains(s, t)
  {
    var k := ContainsWitness(s[i..j], t);
    var u := s[i..j];
    assert forall m | 0 <= m < |t| :: t[m] == u[k + m] == s[i + k + m];
    assert s[i + k..i + k + |t|] == t;
    ContainsAt(s, t, i + k);
  }

  /** No element occurs twice. */
  ghost predicate Distinct<T>(xs: seq<T>) {
    forall i, j :: 0 <= i < j < |xs| ==> xs[i] != xs[j]
  }

  /** `[x for x in xs if p(x)]` / `xs.filter(p)`: the elements that satisfy
      p, in their order, each as often as it occurs. */
  function Filter<T(!new)>(xs: seq<T>, p: T -> bool): (r: seq<T>)
    ensures |r| <= |xs|
    ensures forall x :: x in r <==> x in xs && p(x)
    decreases |xs|
  {
    if xs == [] then []
    else
      var rest := Filter(xs[1..], p);
      assert forall x :: x in xs <==> x == xs[0] || x in xs[1..];
      (if p(xs[0]) then [xs[0]] else []) + rest
  }

  /** Filtering distributes over concatenation, so the order of the input
      is the order of the output. */
  lemma {:induction false} FilterAppend<T(!new)>(a: seq<T>, b: seq<T>, p: T -> bool)
    ensures Filter(a + b, p) == Filter(a, p) + Filter(b, p)
    decreases |a|
  {
    if a == [] {
      assert a + b == b;
    } else {
      assert (a + b)[1..] == a[1..] + b;
      FilterAppend(a[1..], b, p);
    }
  }

  /** A one-element sequence is kept exactly when it satisfies p. */
  lemma FilterOne<T(!new)>(x: T, p: T -> bool)
    ensures Filter([x], p) == if p(x) then [x] else []
  {
    assert [x][1..] == [];
  }

  /** Filtering keeps nothing but what satisfies p, so a second pass with
      the same p changes nothing. */
  lemma {:induction false} FilterIdempotent<T(!new)>(xs: seq<T>, p: T -> bool)
    ensures Filter(Filter(xs, p), p) == Filter(xs, p)
    decreases |xs|
  {
    if xs != [] {
      FilterIdempotent(xs[1..], p);
      var head := if p(xs[0]) then [xs[0]] else [];
      FilterAppend(head, Filter(xs[1..], p), p);
      if p(xs[0]) { FilterOne(xs[0], p); } else { assert head == []; }
    }
  }

  /** Python's str.split(sep) for a one-character separator: never empty,
      and "" splits into [""]. */
  function Split(s: string, sep: char): (parts: seq<string>)
    ensures |parts| >= 1
    ensures forall i :: 0 <= i < |parts| ==> sep !in parts[i]
    decreases |s|
  {
    if |s| == 0 then [""]
    else
      var rest := Split(s[1..], sep);
      if s[0] == sep then [""] + rest
      else [[s[0]] + rest[0]] + rest[1..]
  }

  /** Python's sep.join(parts) / JavaScript's parts.join(sep). */
  function Join(parts: seq<string>, sep: string): string
    decreases |parts|
  {
    if |parts| == 0 then ""
    else if |parts| == 1 then parts[0]
    else parts[0] + sep + Join(parts[1..], sep)
  }

  /** The tail of a concatenation with a non-empty front. */
  lemma TailAppend<T>(x: seq<T>, y: seq<T>)
    requires |x| > 0
    ensures (x + y)[0] == x[0] && (x + y)[1..] == x[1..] + y
  {
  }

  /** Concatenation is associative. */
  lemma ConcatAssoc<T>(x: seq<T>, y: seq<T>, z: seq<T>)
    ensures x + (y + z) == (x + y) + z
  {
  }

  /** Joining a list with at least two items puts the separator after the first. */
  lemma JoinCons(p: string, ps: seq<string>, sep: string)
    requires |ps| >= 1
    ensures Join([p] + ps, sep) == p + sep + Join(ps, sep)
  {
    assert ([p] + ps)[1..] == ps;
  }

  /** Splitting and joining back with the same separator restores the string. */
  lemma {:induction false} JoinSplit(s: string, sep: char)
    ensures Join(Split(s, sep), [sep]) == s
    decreases |s|
  {
    if |s| > 0 {
      var rest := Split(s[1..], sep);
      JoinSplit(s[1..], sep);
      if s[0] == sep {
        assert Split(s, sep) == [""] + rest;
        assert ([""] + rest)[1..] == rest;
        assert s == [sep] + s[1..];
      } else {
        var parts := Split(s, sep);
        assert parts == [[s[0]] + rest[0]] + rest[1..];
        if |rest| == 1 {
          assert s == [s[0]] + rest[0];
        } else {
          assert parts[1..] == rest[1..];
          assert Join(rest, [sep]) == rest[0] + [sep] + Join(rest[1..], [sep]);
          assert s == [s[0]] + s[1..];
        }
      }
    }
  }

  /** Joining parts that do not contain the separator and splitting again gives the parts back. */
  lemma {:induction false} SplitJoin(parts: seq<string>, sep: char)
    requires |parts| >= 1
    requires forall i :: 0 <= i < |parts| ==> sep !in parts[i]
    ensures Split(Join(parts, [sep]), sep) == parts
    decreases |parts|
  {
    if |parts| == 1 {
      SplitNoSeparator(parts[0], sep);
    } else {
      SplitJoin(parts[1..], sep);
      SplitPrefix(parts[0], Join(parts[1..], [sep]), sep);
      assert [parts[0]] + parts[1..] == parts;
    }
  }

  lemma {:induction false} SplitNoSeparator(s: string, sep: char)
    requires sep !in s
    ensures Split(s, sep) == [s]
    decreases |s|
  {
    if |s| > 0 {
      SplitNoSeparator(s[1..], sep);
      assert [s[0]] + s[1..] == s;
    }
  }

  lemma {:induction false} SplitPrefix(a: string, b: string, sep: char)
    requires sep !in a
    ensures Split(a + [sep] + b, sep) == [a] + Split(b, sep)
    decreases |a|
  {
    var s := a + [sep] + b;
    if |a| == 0 {
      assert s[1..] == b;
    } else {
      assert s[1..] == a[1..] + [sep] + b;
      SplitPrefix(a[1..], b, sep);
      assert [a[0]] + a[1..] == a;
    }
  }

  /** The decimal value of a string of digits, most significant first. */
  function DigitsValue(value: char -> int, s: string): int
    decreases |s|
  {
    if s == "" then 0 else DigitsValue(value, s[..|s| - 1]) * 10 + value(s[|s| - 1])
  }

  predicate AllAsciiDigits(s: string) {
    forall i :: 0 <= i < |s| ==> IsAsciiDigit(s[i])
  }

  /** The decimal numeral of a natural number, without leading zeros. */
  function NatToDecimal(n: nat): (r: string)
    ensures |r| >= 1 && AllAsciiDigits(r)
    ensures |r| > 1 ==> r[0] != '0'
    decreases n
  {
    var d := [('0' as int + n % 10) as char];
    if n < 10 then d else NatToDecimal(n / 10) + d
  }

  /** Python's str() of an int. */
  function IntToDecimal(i: int): (r: string)
    ensures |r| >= 1
    ensures forall k :: 0 <= k < |r| ==> IsAsciiDigit(r[k]) || (k == 0 && r[k] == '-')
  {
    if i < 0 then "-" + NatToDecimal(-i) else NatToDecimal(i)
  }

  /** Python's int() on an optional minus sign followed by ASCII digits;
      anything else makes int() raise. */
  function ParseDecimal(s: string): (r: Option<int>)
    ensures r.Some? ==> |s| >= 1 && (IsAsciiDigit(s[0]) || s[0] == '-')
  {
    if |s| >= 2 && s[0] == '-' && AllAsciiDigits(s[1..]) then Some(-DigitsValue(AsciiDigitValue, s[1..]))
    else if |s| >= 1 && AllAsciiDigits(s) then Some(DigitsValue(AsciiDigitValue, s))
    else None
  }

  lemma {:induction false} NatToDecimalValue(n: nat)
    ensures DigitsValue(AsciiDigitValue, NatToDecimal(n)) == n
    decreases n
  {
    var d := [('0' as int + n % 10) as char];
    if n >= 10 {
      NatToDecimalValue(n / 10);
      var r := NatToDecimal(n / 10) + d;
      assert r[..|r| - 1] == NatToDecimal(n / 10);
    }
  }

  /** Reading back the numeral of an integer gives the integer. */
  lemma DecimalRoundTrip(i: int)
    ensures ParseDecimal(IntToDecimal(i)) == Some(i)
  {
    if i < 0 {
      NatToDecimalValue(-i);
      assert IntToDecimal(i)[1..] == NatToDecimal(-i);
    } else {
      NatToDecimalValue(i);
    }
  }

  /** Different integers have different numerals. */
  lemma DecimalInjective(i: int, j: int)
    requires IntToDecimal(i) == IntToDecimal(j)
    ensures i == j
  {
    DecimalRoundTrip(i);
    DecimalRoundTrip(j);
  }
}

=== FILE: whatsapp_mirror.dfy ===
/**
 The WhatsApp mirror's message handler (whatsapp_bot/whatsapp_mirror.js,
 the 'message' listener): keep group messages, save an attached image, ask
 the classifier, check the duplicate history, format, and post the result
 to the destination topic, with the photo when the text or the OCR text
 points at it.

 The chat's name, the downloaded media (or the download's rejection), the
 classifier's and the formatter's replies, the OCR text, the history file and
 whether the Bot API request failed are inputs. The temporary file name (`temp_<Date.now()>.jpg`) and
 the destination chat and topic are not modelled.
 */
module WhatsAppMirror {
  import opened Text
  import opened Completion
  import opened Classifier
  import opened Dedup
  import opened Formatter
  import opened Ingest
  import TelegramMirror

  // ---------------------------------------------------------------------
  // HTML escaping of the chat name (lines 14-19)
  // ---------------------------------------------------------------------

  /** `s.replace(/c/g, rep)`: every occurrence of `c` becomes `rep`. */
  function ReplaceChar(s: string, c: char, rep: string): (r: string)
    ensures c !in s ==> r == s
    decreases |s|
  {
    if s == [] then []
    else (if s[0] == c then rep else [s[0]]) + ReplaceChar(s[1..], c, rep)
  }

  lemma {:induction false} ReplaceCharAppend(a: string, b: string, c: char, rep: string)
    ensures ReplaceChar(a + b, c, rep) == ReplaceChar(a, c, rep) + ReplaceChar(b, c, rep)
    decreases |a|
  {
    if a != [] {
      assert (a + b)[1..] == a[1..] + b;
      ReplaceCharAppend(a[1..], b, c, rep);
    } else {
      assert a + b == b;
    }
  }

  /** The escape of one character: the three HTML-special ones become
      entities, every other character stands for itself. */
  function EscapeChar(ch: char): string {
    if ch == '&' then "&amp;"
    else if ch == '<' then "&lt;"
    else if ch == '>' then "&gt;"
    else [ch]
  }

  /** The reference escape: each character escaped on its own. */
  function EscapeEach(s: string): (r: string)
    ensures forall i :: 0 <= i < |r| ==> r[i] != '<' && r[i] != '>'
    decreases |s|
  {
    if s == [] then [] else EscapeChar(s[0]) + EscapeEach(s[1..])
  }

  /** Lines 14-19: `(text || '')` and then three global replacements, '&'
      first so that the entities the later two insert are not escaped again.
      The result is what `EscapeEach` gives, and "" for a missing name. */
  function EscapeHtml(text: Option<string>): (r: string)
    ensures r == EscapeEach(text.GetOr(""))
    ensures text.None? ==> r == ""
  {
    var s := text.GetOr("");
    PassesEscapeEach(s);
    ReplaceChar(ReplaceChar(ReplaceChar(s, '&', "&amp;"), '<', "&lt;"), '>', "&gt;")
  }

  /** The three passes in a row escape one character as `EscapeChar` does. */
  lemma EscapeOne(ch: char)
    ensures ReplaceChar(ReplaceChar(ReplaceChar([ch], '&', "&amp;"), '<', "&lt;"), '>', "&gt;") == EscapeChar(ch)
  {
    var one := [ch];
    assert one[1..] == [];
  }

  /** The three passes escape the whole string character by character. */
  lemma {:induction false} PassesEscapeEach(s: string)
    ensures ReplaceChar(ReplaceChar(ReplaceChar(s, '&', "&amp;"), '<', "&lt;"), '>', "&gt;") == EscapeEach(s)
    decreases |s|
  {
    if s != [] {
      var x, t := [s[0]], s[1..];
      assert s == x + t;
      var a1 := ReplaceChar(x, '&', "&amp;");
      var b1 := ReplaceChar(t, '&', "&amp;");
      ReplaceCharAppend(x, t, '&', "&amp;");
      var a2 := ReplaceChar(a1, '<', "&lt;");
      var b2 := ReplaceChar(b1, '<', "&lt;");
      ReplaceCharAppend(a1, b1, '<', "&lt;");
      ReplaceCharAppend(a2, b2, '>', "&gt;");
      EscapeOne(s[0]);
      PassesEscapeEach(t);
    }
  }

  /** Reading the entities back. */
  function Unescape(s: string): string
    decreases |s|
  {
    if s == [] then []
    else if |s| >= 5 && s[..5] == "&amp;" then "&" + Unescape(s[5..])
    else if |s| >= 4 && s[..4] == "&lt;" then "<" + Unescape(s[4..])
    else if |s| >= 4 && s[..4] == "&gt;" then ">" + Unescape(s[4..])
    else [s[0]] + Unescape(s[1..])
  }

  /** Escaping loses nothing: the entities read back as the original name. */
  lemma {:induction false} UnescapeEscape(s: string)
    ensures Unescape(EscapeEach(s)) == s
    decreases |s|
  {
    if s != [] {
      var e := EscapeChar(s[0]);
      var rest := EscapeEach(s[1..]);
      assert EscapeEach(s) == e + rest;
      var u := e + rest;
      assert u[..|e|] == e && u[|e|..] == rest;
      if s[0] == '<' {
        assert u[1] == 'l';
      } else if s[0] == '>' {
        assert u[1] == 'g';
      } else if s[0] != '&' {
        assert u[0] == s[0];
      }
      UnescapeEscape(s[1..]);
    }
  }

  /** Escaping is one-to-one: two chats with different names get different
      quotes. */
  lemma EscapeInjective(s: string, s': string)
    requires EscapeEach(s) == EscapeEach(s')
    ensures s == s'
  {
    UnescapeEscape(s);
    UnescapeEscape(s');
  }

  /** A name without special characters is shown unchanged. */
  lemma {:induction false} EscapePlain(s: string)
    requires forall i :: 0 <= i < |s| ==> s[i] != '&' && s[i] != '<' && s[i] != '>'
    ensures EscapeEach(s) == s
    decreases |s|
  {
    if s != [] {
      EscapePlain(s[1..]);
    }
  }

  /** Line 91: the source quote, with the escaped chat name. */
  function Quote(name: Option<string>): string {
    "<blockquote>Источник (WhatsApp): " + EscapeHtml(name) + "</blockquote>"
  }

  /** The only tags in the quote are its own: the name contributes no '<'
      and no '>'. */
  lemma QuoteClosed(name: Option<string>)
    ensures var e := EscapeHtml(name);
      && Quote(name) == "<blockquote>Источник (WhatsApp): " + e + "</blockquote>"
      && forall i :: 0 <= i < |e| ==> e[i] != '<' && e[i] != '>'
  {
  }

  // ---------------------------------------------------------------------
  // The photo rule (lines 94-101)
  // ---------------------------------------------------------------------

  /** Phrases that say the photo matters (lines 96-100). */
  const WaTriggers: seq<string> := [
    "как на фото", "на фото", "как на картинке", "на картинке", "как на изображении",
    "см фото", "см. фото", "смотри фото", "см картинку", "см. картинку", "смотри картинку",
    "like the photo", "as in the photo", "see photo"]

  /** Line 95: text and OCR text joined by a space, lower-cased. */
  function Hay(cc: CharClasses, text: string, ocr: string): string {
    Lower(cc, text + " " + ocr)
  }

  /** Line 101, without the image test. */
  predicate WaTrigger(cc: CharClasses, text: string, ocr: string) {
    ContainsAny(Hay(cc, text, ocr), WaTriggers)
  }

  /** Every phrase of the Telegram mirror is one of WhatsApp's. */
  lemma TriggersIncluded()
    ensures forall k :: 0 <= k < |TelegramMirror.Triggers| ==> TelegramMirror.Triggers[k] in WaTriggers
  {
  }

  /** Where the Telegram mirror sends the photo, the WhatsApp mirror would
      too: a phrase in the text or in the OCR text is a phrase in the joined
      haystack, and the Telegram phrases are among WhatsApp's. */
  lemma WaTriggerCoversTelegram(cc: CharClasses, text: string, ocr: string)
    requires TelegramMirror.KeepPhoto(cc, text, ocr)
    ensures WaTrigger(cc, text, ocr)
  {
    var lt, lo := Lower(cc, text), Lower(cc, ocr);
    var k :| 0 <= k < |TelegramMirror.Triggers| &&
      (Contains(lt, TelegramMirror.Triggers[k]) || Contains(lo, TelegramMirror.Triggers[k]));
    var t := TelegramMirror.Triggers[k];
    InHay(cc, text, ocr, t);
    TriggersIncluded();
    var n :| 0 <= n < |WaTriggers| && WaTriggers[n] == t;
    ContainsAnyAt(Hay(cc, text, ocr), WaTriggers, n);
  }

  /** A phrase in the lower-cased text or OCR text is in the joined haystack. */
  lemma InHay(cc: CharClasses, text: string, ocr: string, t: string)
    requires Contains(Lower(cc, text), t) || Contains(Lower(cc, ocr), t)
    ensures Contains(Hay(cc, text, ocr), t)
  {
    var hay := Hay(cc, text, ocr);
    LowerAppend(cc, text + " ", ocr);
    LowerAppend(cc, text, " ");
    var lt, lo := Lower(cc, text), Lower(cc, ocr);
    assert hay == lt + Lower(cc, " ") + lo;
    if Contains(lt, t) {
      assert hay[0..|lt|] == lt;
      ContainsInfix(hay, 0, |lt|, t);
    } else {
      assert hay[|hay| - |lo|..|hay|] == lo;
      ContainsInfix(hay, |hay| - |lo|, |hay|, t);
    }
  }

  /** Every Telegram phrase is at least eight characters long. */
  lemma TelegramTriggersLong()
    ensures forall k :: 0 <= k < |TelegramMirror.Triggers| ==> |TelegramMirror.Triggers[k]| >= 8
  {
  }

  /** No Telegram phrase occurs in a string shorter than eight characters. */
  lemma ShortHasNoTelegramTrigger(s: string)
    requires |s| < 8
    ensures !ContainsAny(s, TelegramMirror.Triggers)
  {
    TelegramTriggersLong();
    if ContainsAny(s, TelegramMirror.Triggers) {
      var k :| 0 <= k < |TelegramMirror.Triggers| && Contains(s, TelegramMirror.Triggers[k]);
      ContainsShorter(s, TelegramMirror.Triggers[k]);
    }
  }

  /** The converse fails. "на фото" alone is a WhatsApp phrase only. */
  lemma ShortPhraseOnlyWa(cc: CharClasses)
    requires WellFormed(cc)
    ensures WaTrigger(cc, "на фото", "") && !TelegramMirror.KeepPhoto(cc, "на фото", "")
  {
    var a := "на фото";
    var h := Hay(cc, a, "");
    assert Lower(cc, a + " ") == a + " ";
    assert h[0..|a|] == WaTriggers[1];
    ContainsAt(h, WaTriggers[1], 0);
    ContainsAnyAt(h, WaTriggers, 1);
    ShortHasNoTelegramTrigger(Lower(cc, a));
    ShortHasNoTelegramTrigger(Lower(cc, ""));
  }

  /** And a phrase split between the text ("см.") and the OCR text ("фото")
      is found only in WhatsApp's joined haystack. */
  lemma SplitPhraseOnlyWa(cc: CharClasses)
    requires WellFormed(cc)
    ensures WaTrigger(cc, "см.", "фото") && !TelegramMirror.KeepPhoto(cc, "см.", "фото")
  {
    var h := Hay(cc, "см.", "фото");
    assert Lower(cc, "см. фото") == "см. фото";
    assert h[0..|h|] == WaTriggers[6];
    ContainsAt(h, WaTriggers[6], 0);
    ContainsAnyAt(h, WaTriggers, 6);
    ShortHasNoTelegramTrigger(Lower(cc, "см."));
    ShortHasNoTelegramTrigger(Lower(cc, "фото"));
  }

  // ---------------------------------------------------------------------
  // The handler (lines 41-143)
  // ---------------------------------------------------------------------

  /** What `message.downloadMedia()` gave: its MIME type. */
  datatype Media = Media(mimetype: string)

  /** Everything the handler receives from outside for one message. */
  datatype Inputs = Inputs(
    isGroup: bool,
    name: Option<string>,              // chat.name
    body: Option<string>,              // message.body
    hasMedia: bool,
    downloadFails: bool,               // downloadMedia rejected
    media: Option<Media>,              // None when downloadMedia gave nothing
    verdict: Reply,                    // the classifier's reply
    ocr: string,                       // the OCR text ('' when OCR failed)
    ratio: (string, string) -> int,    // string-similarity's rating, as a percentage
    history: StoreFile,                // the duplicate history file
    replies: nat -> Reply,             // the formatter's replies
    sendFails: bool)                   // the Bot API request threw

  /** Line 56: the download is awaited outside any `try`, so its rejection
      rejects the handler before anything is written. */
  predicate DownloadFails(w: Inputs) {
    w.hasMedia && w.downloadFails
  }

  /** Lines 55-65: an image is saved when the message has media and the
      download succeeds with an image. */
  predicate Saved(w: Inputs) {
    w.hasMedia && !w.downloadFails && w.media.Some? && StartsWith(w.media.value.mimetype, "image/")
  }

  /** The image argument the classifier and the formatter receive: the file
      just written, or null. */
  function Image(w: Inputs): (img: ImageRef)
    ensures AttachJs(img) != Threw
    ensures AttachJs(img) == Attached <==> Saved(w)
  {
    if Saved(w) then ImageRef(Some("temp.jpg"), true, true) else ImageRef(None, false, false)
  }

  /** Line 51: `message.body || ''`. */
  function BodyText(w: Inputs): string {
    if w.body.Some? then w.body.value else ""
  }

  /** Line 80: OCR runs only on a saved image. */
  function Ocr(w: Inputs): string {
    if Saved(w) then w.ocr else ""
  }

  /** Lines 68-71: the classifier's verdict on the text and the image. */
  predicate Casting(cc: CharClasses, w: Inputs) {
    IsCastingJs(cc, Image(w), w.verdict) == Some(true)
  }

  /** Line 81: the history check, awaited outside any `try`. */
  function Check(cc: CharClasses, w: Inputs): Outcome {
    DecideJs(w.ratio, KeyJs(cc, Some(BodyText(w)), Some(Ocr(w))), w.history)
  }

  predicate Repeats(cc: CharClasses, w: Inputs) {
    Check(cc, w) == Duplicate
  }

  /** Lines 88-92: the formatted casting, a blank line and the source quote. */
  function FinalMessage(cc: CharClasses, w: Inputs): string {
    FormatJs(cc, Image(w), BodyText(w), w.replies).value.text + "\n\n" + Quote(w.name)
  }

  /** The handler's control flow, given what each stage found. A failed
      Bot API request is caught and logged (lines 136-138) and the image is
      then removed (lines 140-142); the classifier's rejection and a repeat
      remove it before returning (lines 73, 83). A rejected download
      (line 56) and a rejected history check (line 81) are not caught: the
      handler's promise rejects, and in the second case the image written
      at line 61 stays on disk. */
  function Route(group: bool, downloadFails: bool, casting: bool, check: Outcome,
                 sendFails: bool, saved: bool, message: string, trigger: bool): (r: Run)
    ensures r.reached <= |Stages| && r.reached != 3
    ensures r.reached == 0 <==> !group || downloadFails
    ensures r.reached >= 2 <==> group && !downloadFails && casting
    ensures r.reached == |Stages| <==> r.reached >= 2 && (check.Recorded? || check.Unrecorded?)
    ensures r.outcome == Stopped(Filtered) <==> !group
    ensures r.outcome == Stopped(NotCasting) <==> r.reached == 1
    ensures r.outcome == Stopped(Repeated) <==> r.reached == 2 && check == Duplicate
    ensures r.outcome.Posted? <==> r.reached == |Stages| && !sendFails
    ensures r.outcome == Stopped(Crashed) <==> (group && downloadFails) || (r.reached == 2 && check == Raised)
    ensures r.outcome == Stopped(SendFailed) <==> r.reached == |Stages| && sendFails
    ensures r.outcome.Posted? ==> r.outcome == Posted(message, saved && trigger)
    ensures r.leftover <==> r.reached == 2 && check == Raised && saved
  {
    if !group then Run(Stopped(Filtered), 0, false)
    else if downloadFails then Run(Stopped(Crashed), 0, false)
    else if !casting then Run(Stopped(NotCasting), 1, false)
    else if check == Raised then Run(Stopped(Crashed), 2, saved)
    else if check == Duplicate then Run(Stopped(Repeated), 2, false)
    else if sendFails then Run(Stopped(SendFailed), 4, false)
    else Run(Posted(message, saved && trigger), 4, false)
  }

  /** whatsapp_bot/whatsapp_mirror.js, the 'message' listener. */
  function Handle(cc: CharClasses, w: Inputs): (r: Run)
    ensures r.outcome.Posted? <==>
      w.isGroup && !DownloadFails(w) && Casting(cc, w) && !w.sendFails &&
      (Check(cc, w).Recorded? || Check(cc, w).Unrecorded?)
    ensures r.outcome == Stopped(Crashed) ==> w.isGroup && (DownloadFails(w) || Check(cc, w) == Raised)
    ensures r.outcome == Stopped(SendFailed) ==> w.isGroup && w.sendFails
  {
    Route(w.isGroup, DownloadFails(w), Casting(cc, w), Check(cc, w), w.sendFails, Saved(w),
          FinalMessage(cc, w), WaTrigger(cc, BodyText(w), Ocr(w)))
  }

  /** The mirror's own image never makes the classifier or the formatter
      throw: the file was just written. */
  lemma OwnImageNeverThrows(cc: CharClasses, w: Inputs)
    ensures IsCastingJs(cc, Image(w), w.verdict).Some?
    ensures FormatJs(cc, Image(w), BodyText(w), w.replies) == Some(Format(cc, Js, BodyText(w), w.replies))
  {
  }

  /** A message outside a group consults nothing. */
  lemma FilteredConsultsNothing(cc: CharClasses, w: Inputs, w': Inputs)
    requires !w.isGroup && !w'.isGroup
    ensures Handle(cc, w) == Handle(cc, w')
  {
  }

  /** A message the classifier rejects stops before the OCR text, the history,
      the formatter and the Bot API are used. */
  lemma NotCastingStopsBeforeHistory(cc: CharClasses, w: Inputs, w': Inputs)
    requires w.isGroup && !DownloadFails(w) && !Casting(cc, w)
    requires w' == w.(ocr := w'.ocr, ratio := w'.ratio, history := w'.history,
                      replies := w'.replies, sendFails := w'.sendFails, name := w'.name)
    ensures Handle(cc, w') == Run(Stopped(NotCasting), 1, false)
  {
    assert Casting(cc, w') == Casting(cc, w);
  }

  /** A repeated casting stops before the formatter and the Bot API are used. */
  lemma RepeatedStopsBeforeTemplate(cc: CharClasses, w: Inputs, w': Inputs)
    requires w.isGroup && !DownloadFails(w) && Casting(cc, w) && Repeats(cc, w)
    requires w' == w.(replies := w'.replies, sendFails := w'.sendFails, name := w'.name)
    ensures Handle(cc, w') == Run(Stopped(Repeated), 2, false)
  {
    assert Casting(cc, w') == Casting(cc, w);
    assert Repeats(cc, w') == Repeats(cc, w);
  }

  /** The photo goes out only when an image was saved and the joined text
      holds a trigger phrase. */
  lemma PhotoNeedsImageAndTrigger(cc: CharClasses, w: Inputs)
    requires Handle(cc, w).outcome.Posted? && Handle(cc, w).outcome.withPhoto
    ensures Saved(w) && WaTrigger(cc, BodyText(w), w.ocr)
  {
  }

  /** The image stays on disk exactly when a saved image's casting meets a
      missing history file that cannot be created: every other path removes
      it, or never wrote it. */
  lemma LeavesImageOnlyWhenHistoryRejects(cc: CharClasses, w: Inputs)
    ensures Handle(cc, w).leftover <==>
      w.isGroup && Saved(w) && Casting(cc, w) && w.history == Available(Missing, false)
  {
  }

  /** A rejected download stops the handler before the classifier. */
  lemma DownloadFailureStopsFirst(cc: CharClasses, w: Inputs, w': Inputs)
    requires w.isGroup && DownloadFails(w)
    requires w' == w.(verdict := w'.verdict, ocr := w'.ocr, ratio := w'.ratio, history := w'.history,
                      replies := w'.replies, sendFails := w'.sendFails, name := w'.name, body := w'.body)
    ensures Handle(cc, w') == Run(Stopped(Crashed), 0, false)
  {
  }

  /** A posted message is the formatted casting, a blank line and the
      quote; the formatted casting is the message's own text or an answer
      free of refusal markers. */
  lemma PostedMessage(cc: CharClasses, w: Inputs)
    requires Handle(cc, w).outcome.Posted?
    ensures exists f ::
      && Handle(cc, w).outcome.message == f + "\n\n" + Quote(w.name)
      && (f == BodyText(w) || (f != "" && !ContainsAny(Lower(cc, f), JsMarkers)))
  {
    var f := Format(cc, Js, BodyText(w), w.replies).text;
    FormatResult(cc, Js, BodyText(w), w.replies);
    assert Handle(cc, w).outcome.message == f + "\n\n" + Quote(w.name);
  }
}
